=== FILE: README.md ===
# Mining-truck GPS pipeline: a Dafny model

This project models the data pipeline at the heart of a set of Streamlit
dashboards for a mining operation. The pipeline reads per-vehicle GPS pings
(vehicle, instant, geofence label or nothing, speed) and derives operational facts from them:

- work shifts;
- the role of each geofence (stock, module, ROM pile, dump, non-operational site);
- dwells inside geofences and the transitions between them;
- the mining process of each transition (carga, descarga, retorno, otro);
- haul cycles;
- hourly and productivity tables;
- trips through unmapped ground;
- long stops outside every geofence, grouped into candidate zones;
- in the port-site variant, the port geofences and the consolidation of internal stays;
- in the two oldest scripts, the run-collapsed "estadías" and their "vueltas".

The dashboards copy the pipeline with small changes from one script to the next. Each variant that behaves
differently is modelled on its own (`TaxonomyApp3` … `TaxonomyNewest`, the
pairwise and the dwell-based transition rules, the stateless and the
sequence classifier), and lemmas relate the variants to each other.

Modelling choices:

- Instants are integer seconds. The time of day is `t % 86400` and the date is `t / 86400` (Dafny's Euclidean division agrees with pandas' flooring).
- A vehicle's pings are a sequence already sorted by time. The role sets that the scripts keep in module-level globals are an explicit `Taxonomy` value.
- Missing cells are `Option`s. Errors that the code can raise are `Option`/`None` results.
- pandas' `groupby`/`shift` idioms become recursion over sequences.

Modules, one per stage: `Basics`, `Text`, `Sorting`, `Shifts`, `Events`, `Taxonomy`,
`Transitions`, `Scenarios`, `Classify`, `Cycles`, `Metrics`, `Gaps`,
`Episodes`, `Zones`, `Port`, `Stays`.

Three behaviours of the code worth noting, each modelled as the code does it:

- `Prod_pct` is left empty, not 0, for a vehicle-day with no active hours: the zero divisor is replaced by NaN after the `fillna(0)` (app5.py:180-184).
- app6.py's ROM piles need the phrase "pila rom" (app6.py:83), while the newest script accepts "pila" and "rom" anywhere in the label (app6_mejorado.py:109).
- The newest taxonomy has no dump fallback: with no label naming a dump the dump set is empty (app6_mejorado.py:108), where app6.py falls back to {"Botaderos"} (app6.py:82).

## Model

| member | source | states |
|---|---|---|
| Shifts.TurnoConFechaIsTheEnclosingShift | app6_mejorado.py:55-75 | every instant has exactly one shift tag: the one whose 12-hour window, opening at 08:00 or 20:00 of its date, contains it; boundary instants belong to the shift they open |
| Shifts.TurnoConFechaAgreesWithTurno | app6_mejorado.py:46-75 | the dated tagger and the plain `turno` always name the same shift |
| Shifts.TurnoConFechaCases | app6_mejorado.py:55-75 | day shift iff 08:00 ≤ time of day < 20:00 with the same date; before 08:00 it is the previous date's night, from 20:00 the same date's night; the date is the calendar date or the day before |
| Shifts.ShiftBoundaries | test_app5.py:27-39 | the test cases hold: 08:00 and 19:59 are day, 20:00, 23:00, 02:00 and 07:59 are night; 07:59:59 is the previous date's night, 20:00 the same date's |
| Events.ParsedKeepsExactlyParseable | app5.py:56-62 | a ping survives `dropna` iff some row with a parseable instant produced it; no row is lost iff every instant parses |
| Events.PrepareSpec | app5.py:56-62 | `preparar_datos` returns a permutation of the parseable rows, sorted by vehicle then instant, every label stripped; its length equals the input's iff every instant parses |
| Text.StripCharacterised | app6_mejorado.py:144 | `str.strip` keeps a contiguous middle part, drops only whitespace, and what it keeps neither starts nor ends with whitespace |
| Text.StripIdempotent | app6_mejorado.py:144 | stripping a label that `preparar_datos` already stripped changes nothing |
| Text.StripAllSpace | app6_mejorado.py:144 | a label of whitespace only strips to the empty label, i.e. counts as transit |
| Text.Lower | app3.py:42-46 | `str.lower` keeps the length and lower-cases each ASCII and Latin-1 capital in place, leaving every other character as it is |
| Text.Normalize | app6_mejorado.py:88-90 | the normal form is never longer than the label and holds only lower-case ASCII |
| Text.NormalizeIdempotent | app6_mejorado.py:88-90 | normalising twice is normalising once |
| Text.NormalizeAppend | app6_mejorado.py:88-90 | normalisation distributes over concatenation |
| Text.FoldedFixed | app6_mejorado.py:88-90 | a lower-case ASCII label is its own normal form |
| Text.CapitalisedWordNormalises | app6_mejorado.py:88-90 | a capitalised ASCII word normalises to the word with its initial lower-cased |
| Text.NormalizeHasNoAccent | app6_mejorado.py:88-90 | no normal form contains a non-ASCII character, so a keyword with an accent never matches |
| Text.ContainsIff | app6_mejorado.py:104-115 | the substring test `k in s` holds iff `k` occurs at some offset of `s` |
| Text.ContainsFits | app6_mejorado.py:104-115 | a keyword longer than the label never matches |
| Text.NatToStringRoundTrip | app7tport.py:636 | the count written into the name `AGRUPADA (n zonas)` reads back as `n` |
| Taxonomy.NewestRolesAreSubstringMatches | app6_mejorado.py:100-119 | every role set holds only non-empty labels of the data; each role is exactly the labels whose normal form contains its keyword: stock, modulo, botadero, pila and rom, instalacion/faena/casino |
| Taxonomy.AccentedModuleKeywordIsDead | app6_mejorado.py:107 | the "módulo" alternative never matches a normalised label, so the module set is the "modulo" matches alone |
| Taxonomy.RolesMayOverlap | app6_mejorado.py:104-115 | role sets need not be disjoint: "Stock Modulo" is both a stock and a module |
| Taxonomy.DumpFallback | app6.py:76-87 | with no label naming a dump the dump set is {"Botaderos"}; otherwise exactly the labels naming one; app4, app5 and app6 agree on dumps |
| Taxonomy.VersionsAgreeOnSharedRoles | app5.py:65-72 | app4, app5 and app6 have equal stocks and modules, app5 and app6 equal piles; app4 has no piles and app4/app5 no non-operational sites |
| Taxonomy.AccentedModuleOnlyWithNormalisation | app3.py:39-46 | "Módulo 1" is a module for the accent-stripping versions but not for app3, which only lower-cases |
| Taxonomy.LowerKeepsAccent | app3.py:42-46 | lower-casing "Módulo 1" keeps the accent, so "modulo" does not occur in it |
| Transitions.DwellKeptIffLongEnough | app6_mejorado.py:128-183 | a dwell is recorded iff it lasted at least 60 s, boundary included; the kept dwells are the long segments of the unfiltered pass, in order |
| Transitions.RunFiltersSegments | app6_mejorado.py:128-183 | the threshold never changes which dwell is open, only which closed segments are kept |
| Transitions.RepeatedLabelKeepsDwell | app6_mejorado.py:147-183 | any run of pings repeating the open dwell's label leaves the pass unchanged, so it never restarts the dwell; if the pings end there, the dwell closes at the last repeat with its original entry |
| Transitions.TransitWithoutOpenDwellIsIgnored | app6_mejorado.py:162-183 | while no dwell is open, any run of transit pings changes neither the pass nor the dwells it yields |
| Transitions.StepInvariant | app6_mejorado.py:143-174 | one ping, at or after every instant seen, keeps the kept dwells long, chained and no later than the open dwell |
| Transitions.DwellsAreOrdered | app6_mejorado.py:143-183 | on time-ordered pings every kept dwell lasts ≥ 60 s, each is entered no earlier than the previous one was left, and entries strictly increase |
| Transitions.ChainedEntries | app6_mejorado.py:143-183 | between any two kept dwells the later entry is at least 60 s after the earlier |
| Transitions.ScanPing | app6_mejorado.py:143-174 | the loop body, with the open dwell held in two variables, performs exactly one step of the pass |
| Transitions.ScanDwells | app6_mejorado.py:143-183 | the source's loop plus the closing of the last dwell computes the kept dwells |
| Transitions.PairDwells | app6_mejorado.py:186-208 | one transition fewer than kept dwells; transition i goes from dwell i to dwell i+1, is timed by dwell i and carries the shift of its entry |
| Transitions.NewestTransitionsSpec | app6_mejorado.py:121-215 | a vehicle's transitions number one less than its kept dwells, each lasts ≥ 60 s, entries strictly increase and each exit is no later than the next entry |
| Transitions.InGeofenceKeeps | app5.py:81 | dropping empty labels keeps exactly the labelled pings, each as many times as it occurs |
| Transitions.InGeofenceAppend | app5.py:81 | the filter keeps the pings' order: filtering a concatenation concatenates the filtered parts |
| Transitions.PairwiseTransitionsSpec | app5.py:78-118 | under the older rule a transition occurs iff some adjacent pair of labelled pings has different labels at least 60 s apart, and it runs from the earlier ping's instant to the later one's; origin ≠ destination |
| Transitions.ChangesSnoc | app5.py:84-101 | one more labelled ping adds at most one transition, at the end, and only if its pair with the previous ping is a change: one transition per changing pair, in ping order |
| Transitions.PairwiseTransitionsSnoc | app5.py:78-118 | a new ping outside every geofence adds no transition; one inside adds exactly the transition from the last labelled ping, when that pair is a change, after all the earlier ones |
| Transitions.ChangesIff | app4.py:38-57 | a change is emitted iff some adjacent pair of labelled pings has different labels and a long enough gap |
| Transitions.SameLabelNeverPairs | app3.py:52-77 | pings that all share one label give no transition, however far apart |
| Scenarios.FirstVisit | app6_mejorado.py:143-174 | g at 0 s and 100 s, then transit at 200 s: one 200 s dwell in g, nothing open |
| Scenarios.SecondVisit | app6_mejorado.py:177-183 | the dwell still open at the last ping closes at that ping |
| Scenarios.SameLabelDwells | app6_mejorado.py:143-183 | leaving a geofence through transit and coming back gives two dwells in the same geofence |
| Scenarios.SameLabelTransitionPossible | app6_mejorado.py:186-208 | those dwells pair into a transition from g to itself, which the older pairwise rule can never produce |
| Classify.StatelessTestTable | test_app5.py:118-130 | the test table: stock→module and stock→pile are carga, module/pile→stock retorno, module/pile→dump descarga, stock→dump otro |
| Classify.ClassifyBySequence | app6_mejorado.py:227-231 | every transition is kept unchanged; only its `Proceso` is set |
| Classify.ClassifyRows | app6_mejorado.py:232-284 | the row-by-row loop, reading the label just written to the previous row, yields the recursively defined labelling |
| Classify.SequenceLabelsPrefix | app6_mejorado.py:232-284 | a row's label depends only on the rows up to it |
| Classify.SequenceOutcomes | app6_mejorado.py:246-279 | rule order per row: carga and descarga from the row alone; retorno from a dump only right after a descarga and to a stock only right after a carga; all else otro |
| Classify.ReturnFollowsLoadOrDump | app6_mejorado.py:263-284 | a vehicle's first transition is never retorno, and each retorno directly follows a carga or descarga |
| Classify.ReclassifyingIsStable | app6.py:349-350 | labels are reset first, so the result ignores incoming labels and classifying the output again changes nothing |
| Classify.ClassifiersAgreeOnLoads | app6.py:366-403 | the sequence and the stateless classifier agree on which rows are carga |
| Classify.ClassifiersDisagreeExactly | app6.py:362-436 | the two classifiers differ on a row exactly when it is operational and not a load, and either it is a dump move also ending in a stock, or it goes back to a stock while the sequence rule sees no return, or the reverse |
| Classify.RuleOrderDiffers | app6.py:414-436 | a module→(stock and dump) move is retorno for the stateless rule but descarga for the sequence rule |
| Cycles.CycleStarts | app6.py:484-525 | the cycle-opening positions, each exactly once, increasing |
| Cycles.CycleShape | app6.py:484-525 | a cycle opens on a carga or descarga and closes on a retorno |
| Cycles.CycleStartsAreSpaced | app6.py:484-525 | two cycles never share a transition: starts are at least two rows apart |
| Cycles.CycleCountBound | app6.py:467-530 | n transitions give at most n/2 improved cycles, hence at most n−1 |
| Cycles.ImprovedCyclesExactly | app6.py:467-530 | a cycle is in the improved table iff some adjacent pair of re-classified rows is a carga from a stock then a retorno to a stock, or a descarga from a module/pile then a retorno to a module/pile, and the cycle runs from the first row's origin and entry to the second row's destination and exit |
| Cycles.ImprovedCyclesSpec | app6.py:467-530 | the improved table is exactly the cycles closed by adjacent pairs of the re-classified rows, one per closing pair, in row order |
| Cycles.NumberCyclesSpec | app6.py:532-547 | the original table holds exactly the carga rows whose next same-vehicle row is retorno, one entry per such row, in row order, the k-th numbered k |
| Cycles.OriginalIgnoresStockCheck | app6.py:532-547 | a (carga, retorno) pair of one vehicle always opens an original cycle; it closes an improved one iff its origin and destination are stocks |
| Metrics.HourOf | app5.py:158 | `dt.floor("h")` gives the whole hour containing the instant |
| Metrics.TallyOverAll | app5.py:152-167 | over distinct keys covering every row, group sums add up to the table's sum |
| Metrics.HourlyTableSpec | app4.py:77-89 | one row per hour holding a transition, earliest first, each with exactly the requested columns |
| Metrics.AbsentProcessCountsZero | app4.py:81-84 | a process that never occurs counts zero in every hour |
| Metrics.UnstackedAgreesWithReindexed | app3.py:111-125 | app3 and app4/app5 tabulate the same hours and counts; app3 lacks the never-seen processes, which app4/app5 fill with 0 |
| Metrics.ProcessesPartitionAnHour | app5.py:152-167 | an hour's four process counts add up to its transitions |
| Metrics.HourlyCountsEveryTransition | app5.py:152-167 | the reindexed hourly table counts every transition exactly once |
| Metrics.ActivitySpec | app5.py:168-173 | exactly one activity row per (date, vehicle) with a transition, sorted by date then vehicle; each row holds the hours of exactly its transitions, and the rows add up to all transitions' hours |
| Metrics.ProductivitySpec | app5.py:168-184 | with non-negative durations loading hours ≤ active hours; `Prod_pct` is empty iff there are no active hours, else in [0, 100], 100 iff every active second was loading |
| Metrics.ProductivityExtendsActivity | app5.py:168-184 | the productivity rows are the activity rows with the loading share added |
| Metrics.ConstruirMetricasApp5 | app5.py:152-186 | the transitions are labelled with the stateless rule first; empty input gives empty tables; the hourly table counts every transition once, each cell counting the transitions of its hour with that stateless label, under all four process columns; the productivity table has one row per day and vehicle with a transition, ascending, each with the hours of that day's transitions, the hours of its stateless carga transitions, and their share in percent, missing iff no active hours and within 0–100 when durations are non-negative |
| Metrics.ProductivityOfTransitions | app5.py:168-184 | over the raw transitions, `productividad` has exactly one row per (date, vehicle) with a transition, ascending; each row's active and loading hours are the sums over that day's transitions and its stateless carga transitions; `Prod_pct` is missing iff no active hours, else their ratio in percent, within 0–100 for non-negative durations |
| Metrics.ConstruirMetricasApp3 | app3.py:111-127 | the transitions are labelled with the stateless rule first; the cycles argument comes back unchanged; empty input gives empty tables; each hourly cell counts the transitions of its hour with that stateless label; activity hours total the transitions' hours |
| Metrics.App4ArityMismatch | app4.py:77-89 | as written the result has three values iff the input is empty, two otherwise |
| Metrics.ConstruirMetricasApp4 | app4.py:77-89 | the intended result: always two tables, empty on empty input, counting every transition and every second |
| Metrics.App4AgreesOnNonEmptyInput | app4.py:80-89 | on non-empty input the code returns the intended two tables |
| Gaps.RunEnd | app6_mejorado.py:297-301 | the end of a transit run: every ping before it is in transit, the one at it is not |
| Gaps.LabelBefore | app6_mejorado.py:318-326 | the origin is the latest labelled ping before the run, or "DESCONOCIDO" when there is none |
| Gaps.LabelFrom | app6_mejorado.py:328-336 | the destination is the first labelled ping after the run, or "DESCONOCIDO" when there is none |
| Gaps.TransitGapsSpec | app6_mejorado.py:288-312 | trips are exactly the maximal transit runs of ≥ 2 pings lasting ≥ 30 s, each from its first to its last ping |
| Gaps.GapEndpoints | app6_mejorado.py:314-336 | a trip's origin is the label just before its run and its destination the label just after it, "DESCONOCIDO" at either edge; it lasts ≥ 30 s |
| Gaps.TransitGapsOrdered | app6_mejorado.py:293-360 | on time-ordered pings a vehicle's trips come in time order and do not overlap |
| Episodes.StoppedPings | app6_mejorado.py:577-601 | the stopped pings are exactly those with no label, speed unknown or ≤ the limit, and both coordinates present |
| Episodes.Split | app6_mejorado.py:607-611 | splitting gives no episode iff there is no stopped ping |
| Episodes.SplitSpec | app6_mejorado.py:607-611 | episodes concatenate back to the stopped pings and cut exactly at pauses over 300 s |
| Episodes.MinTime | app6_mejorado.py:613-618 | an episode's start is the earliest of its instants |
| Episodes.MaxTime | app6_mejorado.py:613-618 | an episode's end is the latest of its instants |
| Episodes.CandidatesOfSpec | app6_mejorado.py:613-622 | the candidates are exactly the kept episodes (≥ 3 pings, span ≥ the minimum minutes) |
| Episodes.CandidatesOfShape | app6_mejorado.py:613-622 | every candidate has ≥ 3 pings, spans at least the minimum minutes, and its minutes are that span |
| Episodes.EpisodesSpec | app6_mejorado.py:570-622 | fewer than 10 stopped pings give no candidates; otherwise a candidate is produced iff it is the candidate of a kept episode of some track, under that track's vehicle |
| Episodes.TrackCandidates | app6_mejorado.py:603-622 | one track's candidates are the kept episodes of its stopped pings, cut at long pauses |
| Episodes.EpisodePingsAreStopped | app6_mejorado.py:577-611 | every ping of an episode is a stopped ping |
| Zones.EarliestStart | app7tport.py:644 | a cluster's start is the earliest start among its zones |
| Zones.LatestEnd | app7tport.py:645 | a cluster's end is the latest end among its zones |
| Zones.ZoneOf | app7tport.py:614-649 | a zone has its cluster's total minutes and pings, spans earliest start to latest end, and counts and lists the candidates; a singleton keeps its vehicle's name, a larger cluster is `AGRUPADA (n zonas)` |
| Zones.GroupZonesSpec | app7tport.py:587-656 | the grouped zones come longest first and are, as a multiset, exactly one zone per cluster |
| Zones.GroupZonesConserves | app7tport.py:614-653 | grouping loses nothing: zones' minutes, pings and candidate counts add up to the candidates' |
| Port.FirstResembling | app7tport.py:137-140 | the first port geofence in iteration order that the label resembles; none iff it resembles none |
| Port.DomainsOf | app7tport.py:97-143 | found and not-found partition the port geofences; only the road can be an excluded find |
| Port.DomainsOfSpec | app7tport.py:127-143 | a port geofence is found iff a non-empty label not resembling the road has it as first resemblance; the road is seen iff some label resembles it |
| Port.ShortLabelTakenForTheRoad | app7tport.py:127-140 | the two-way resemblance takes "Mejillones" for the road, so no port geofence is found for it |
| Port.TakenForTheRoad | app7tport.py:127-140 | when every label resembles the road, nothing is found and the road is seen |
| Port.RutaEndsInMejillones | app7tport.py:104-118 | the road's normal form ends in "mejillones" |
| Port.PortProcessSpec | app7tport.py:272-294 | estadia_interna iff origin = destination; viaje_especifico iff both ends name a port geofence, viaje_parcial iff exactly one, neither mentioning the road; otherwise otro; independent of direction |
| Port.LongerNamesStillCount | app7tport.py:286-294 | a port geofence inside a longer label still counts: "Terquim Norte" → "TGN" is viaje_especifico |
| Port.Extend | app7tport.py:333-357 | folding a stay moves the trip's exit to the stay's exit, recomputes the duration from the entry and counts one more stay |
| Port.LastTripBefore | app7tport.py:324-331 | the backward search finds the latest trip before the row, or none when there is no earlier trip |
| Port.CorrectedSpec | app7tport.py:303-373 | corrected consolidation keeps exactly the rows that are not stays after a trip, in order; never adds rows; every input row is kept or counted once; no stay after a trip is left; each kept row has every stay whose latest earlier trip it is folded in: unchanged if none, else its exit is the last such stay's exit, its duration runs from its entry to that exit and its `Estadias_Consolidadas` grows by exactly their number |
| Port.CorrectedOnTheExample | app7tport.py:324-357 | on trip, stay, trip, otro, stay the corrected consolidation extends the first trip with the first stay and the second trip with the second, leaving the otro row as it was |
| Port.CorrectedCountsEveryFold | app7tport.py:333-357 | on fresh rows, the stays counted in `Estadias_Consolidadas` equal the rows removed |
| Port.CorrectedFixesSettled | app7tport.py:358-365 | a group with no stay after a trip comes back unchanged |
| Port.CorrectedIdempotent | app7tport.py:303-373 | consolidating twice is consolidating once |
| Port.AsWrittenAgreesWithoutStaysBetweenTrips | app7tport.py:317-369 | when no stay lies between two trips, the code succeeds and equals the corrected consolidation |
| Port.AsWrittenFailsAfterAFold | app7tport.py:324-357 | trip, stay, trip, stay: the code indexes past the output and fails; the corrected version folds each stay into its own trip |
| Port.AsWrittenExtendsTheWrongRow | app7tport.py:324-357 | trip, stay, trip, otro, stay: the code folds the last stay into the otro row; the corrected version extends the second trip |
| Stays.NotInTransit | app.py:20-37 | rows with no geofence become "En tránsito" and are dropped; the survivors are exactly the marks of the rows not in transit |
| Stays.NotInTransitAppend | app.py:20-37 | the filter keeps the rows' order: filtering a concatenation concatenates the filtered parts |
| Stays.RunHeadsAlternate | app.py:38-39 | after collapsing runs, adjacent survivors never share a geofence, and the last survivor has the last mark's geofence |
| Stays.RunHeadsAreRunStarts | app2.py:41-42 | a mark survives iff it is the first or its geofence differs from the mark before it |
| Stays.RunHeadsIdempotent | app.py:38-39 | collapsing runs twice is collapsing once |
| Stays.StaysOfSpec | app.py:40-44 | one stay per survivor after the first, coming from the previous survivor (another geofence), entered at its instant, left when the next is entered; only the last has no exit |
| Stays.StaysSpec | app2.py:100-107 | the single-vehicle stays: those of the survivors, never "En tránsito", chained exit-to-entry |
| Stays.RouteTaken | app.py:50-52 | every route in the trip table is taken by some stay |
| Stays.VueltasOfSpec | app2.py:51-53 | the trip table is exactly the routes taken, each with its number of stays; counts sum to the stays and no route returns to its origin |
| Stays.VueltasSpec | app.py:50-52 | a vehicle's trip table lists exactly its routes with their stay counts, summing to its stays, none from a geofence to itself |
| Stays.TotalHoursTelescopes | app.py:75-76 | summing stay durations while skipping the missing last one gives first entry to last entry, in hours |
| Stays.TotalHoursOfVehicle | app.py:75-76 | a vehicle's total hours run from its first stay's entry to its last stay's entry |
| Stays.FleetAgreesWithSingleVehicle | app2.py:38-107 | the all-vehicles table fails (`pd.concat` of no frames) iff no vehicle is listed; otherwise, restricted to a listed vehicle, it is what the single-vehicle branch computes, and an unlisted vehicle has no stays |

## Left out

- User interface: Streamlit widgets, the date-range filter, tabs, Altair charts, Folium maps (`crear_mapa_calor`), Excel export and `print` diagnostics. They display results and compute nothing the pipeline relies on.
- The `casos_desconocidos` counters of `extraer_tiempos_viaje`. They only feed a diagnostic print.
- main.py and streamlit_app.py. The first forwards webhooks over the network; the second only executes app6_mejorado.py.
- test_app5.py is not modelled as code. Its asserted cases are stated as `Shifts.ShiftBoundaries` and `Classify.StatelessTestTable`.
- The size assertions of `test_poblar_dominios` (at least 2 stocks, 3 modules, 3 piles, 2 dumps on a ten-label sample) are not restated. The membership rule they rely on is stated by `Taxonomy.VersionsAgreeOnSharedRoles` and `Taxonomy.NewestRolesAreSubstringMatches`.
- The DBSCAN clustering in `agrupar_zonas_cercanas`. It is a foreign library call, so the partition into clusters is an input.
- Haversine distances, weighted centroids, the standard-deviation radius, mean speed and other floating-point statistics of the zones. They are floating-point numerics outside the logic.
- Zones.GroupZonesSpec: sorting by duration is a stable insertion sort, so the order among zones of equal duration is not the one pandas' quicksort would produce.
- Random and estimated tonnage, `construir_metricas_viaje` minute formatting and `obtener_descripcion_turno`. These are randomness and string formatting.
- `extraer_coordenadas_url`. It parses URLs with a regex and floats.
- `construir_analisis_horario` of app7tport.py. It refers to a name defined nowhere (app7tport.py:480), so it cannot run.
- Timestamp parsing. `pd.to_datetime` is modelled only as "parses or not": each row carries an optional instant.
- Text.Lower: Python's `str.lower` also lower-cases capitals outside Latin-1 and can change a string's length ("İ" becomes two characters); only ASCII and Latin-1 capitals are modelled.
- Metrics: hours are exact quotients of seconds by 3600; floating-point rounding of `Duracion_h` and `Prod_pct` is not modelled.
- Text.Normalize: the accent stripping of `normalizar` (Unicode NFD decomposition) is modelled for ASCII and Latin-1 letters only; other non-ASCII characters are dropped.
- app2.py's all-vehicles trip table (`vueltas_totales`) and narrative summaries (`resumenes`): the trip table only tags and concatenates the per-vehicle `Stays.Vueltas`, raising the same ValueError on an empty fleet (app2.py:71), and the summaries are string formatting.
- pandas plumbing: `groupby` over vehicles, `concat` and row indexes. The model works on one vehicle's sequence, or on a table with an explicit "next row of the same vehicle".
- Port.FirstResembling: the iteration order of the Python set `GEOCERCAS_ESPECIFICAS` is not fixed by the language, so it is a parameter.
- Port.CorrectedSpec: the source's inner loop that absorbs a run of stays is modelled one stay per step, which gives the same result.

## Findings

| source | as written | input that shows it | evidently intended | confidence | as-written member | corrected member |
|---|---|---|---|---|---|---|
| app7tport.py:324-357 | the backward search returns a position in the input group, and that position indexes the output list; they diverge once a stay has been folded | trip, stay, trip, stay: index 2 of a 2-row output (IndexError). Trip, stay, trip, otro, stay: the last stay is folded into the otro row | fold each internal stay into the most recent earlier trip of the output | not executed | Port.AsWrittenFailsAfterAFold | Port.CorrectedSpec |
| app7tport.py:324-357 | same index mix-up, without an error | trip, stay, trip, otro, stay: the otro row is extended and the second trip is not | the second trip absorbs the stay | not executed | Port.AsWrittenExtendsTheWrongRow | Port.CorrectedOnTheExample |
| app4.py:77-89 | `construir_metricas` returns three empty frames on empty input and two tables otherwise | an empty transition table makes a caller unpacking two values fail; latent, since the only call (app4.py:116) sits under `if not trans.empty:` (app4.py:112) | always return the hourly and the activity table | not executed | Metrics.App4ArityMismatch | Metrics.ConstruirMetricasApp4 |

=== FILE: basics.dfy ===
/** Small shared vocabulary: optional values and sums over sequences. */
module Basics {

  /** A value that may be missing, as pandas' NaN / NaT or Python's None. */
  datatype Option<+T> = None | Some(value: T)

  /** Sum of a sequence of integers (pandas `Series.sum` on integer columns). */
  function SumInts(s: seq<int>): int
  {
    if |s| == 0 then 0 else SumInts(s[..|s| - 1]) + s[|s| - 1]
  }

  /** Sum of a sequence of reals (pandas `Series.sum` on float columns). */
  function SumReals(s: seq<real>): real
  {
    if |s| == 0 then 0.0 else SumReals(s[..|s| - 1]) + s[|s| - 1]
  }

  lemma ConcatAssociative<T>(x: seq<T>, y: seq<T>, z: seq<T>)
    ensures x + (y + z) == (x + y) + z
  {
  }

  lemma {:induction false} SumIntsAppend(a: seq<int>, b: seq<int>)
    ensures SumInts(a + b) == SumInts(a) + SumInts(b)
    decreases |b|
  {
    if |b| == 0 {
      assert a + b == a;
    } else {
      assert (a + b)[..|a + b| - 1] == a + b[..|b| - 1];
      SumIntsAppend(a, b[..|b| - 1]);
    }
  }

  lemma {:induction false} SumRealsAppend(a: seq<real>, b: seq<real>)
    ensures SumReals(a + b) == SumReals(a) + SumReals(b)
    decreases |b|
  {
    if |b| == 0 {
      assert a + b == a;
    } else {
      assert (a + b)[..|a + b| - 1] == a + b[..|b| - 1];
      SumRealsAppend(a, b[..|b| - 1]);
    }
  }

  lemma {:induction false} SumRealsNonNegative(s: seq<real>)
    requires forall i :: 0 <= i < |s| ==> s[i] >= 0.0
    ensures SumReals(s) >= 0.0
    decreases |s|
  {
    if |s| > 0 {
      SumRealsNonNegative(s[..|s| - 1]);
    }
  }
}

=== FILE: classify.dfy ===
/**
 * Process classification of transitions: the stateless `clasificar_proceso`
 * of app3 to app6 and the first-order `clasificar_proceso_con_secuencia` of
 * app6 and the newest version.
 *
 * Both read the geofence taxonomy; the roles a version does not know are
 * empty sets in its taxonomy (no piles in app3 and app4, no non-operational
 * sites before app6), which turns the corresponding tests off exactly as the
 * shorter conditions of those versions do.
 */
module Classify {

  import opened Basics
  import opened Taxonomy
  import opened Transitions

  /** The `Proceso` column. */
  datatype Process = Carga | Descarga | Retorno | Otro

  /** A transition with its `Proceso` cell. */
  datatype Classified = Classified(t: Transition, process: Process)

  /** Module or ROM pile: the places a truck is loaded into and dumps from. */
  predicate InModuleOrPile(tax: Taxonomy, g: string)
  {
    g in tax.modules || g in tax.pilas
  }

  /** Either end is a site installation or the casino. */
  predicate TouchesNonOperational(tax: Taxonomy, t: Transition)
  {
    t.origin in tax.nonOperational || t.destination in tax.nonOperational
  }

  /** Stock → module or pile. */
  predicate IsLoadMove(tax: Taxonomy, t: Transition)
  {
    t.origin in tax.stocks && InModuleOrPile(tax, t.destination)
  }

  /** Module or pile → dump. */
  predicate IsDumpMove(tax: Taxonomy, t: Transition)
  {
    InModuleOrPile(tax, t.origin) && t.destination in tax.botaderos
  }

  /** Dump → module or pile. */
  predicate IsBackFromDump(tax: Taxonomy, t: Transition)
  {
    t.origin in tax.botaderos && InModuleOrPile(tax, t.destination)
  }

  /** Module or pile → stock. */
  predicate IsBackToStock(tax: Taxonomy, t: Transition)
  {
    InModuleOrPile(tax, t.origin) && t.destination in tax.stocks
  }

  // ---------------------------------------------------------------------------
  // Stateless classifier
  // ---------------------------------------------------------------------------

  /**
   * `clasificar_proceso`: non-operational moves are "otro"; then load,
   * return to stock (with no look at the history), dump; else "otro".
   */
  function Stateless(tax: Taxonomy, t: Transition): Process
  {
    if TouchesNonOperational(tax, t) then Otro
    else if IsLoadMove(tax, t) then Carga
    else if IsBackToStock(tax, t) then Retorno
    else if IsDumpMove(tax, t) then Descarga
    else Otro
  }

  /** `trans.apply(clasificar_proceso, axis=1)`: each transition with its stateless `Proceso`. */
  function LabelStateless(tax: Taxonomy, ts: seq<Transition>): (r: seq<Classified>)
    ensures |r| == |ts|
    ensures forall i :: 0 <= i < |ts| ==> r[i].t == ts[i] && r[i].process == Stateless(tax, ts[i])
  {
    seq(|ts|, i requires 0 <= i < |ts| => Classified(ts[i], Stateless(tax, ts[i])))
  }

  /**
   * The stateless rule characterised by outcome: each process holds exactly
   * when its move holds and no earlier rule fired.
   */
  lemma StatelessOutcomes(tax: Taxonomy, t: Transition)
    ensures Stateless(tax, t) == Carga <==> !TouchesNonOperational(tax, t) && IsLoadMove(tax, t)
    ensures Stateless(tax, t) == Retorno <==>
              !TouchesNonOperational(tax, t) && !IsLoadMove(tax, t) && IsBackToStock(tax, t)
    ensures Stateless(tax, t) == Descarga <==>
              !TouchesNonOperational(tax, t) && !IsLoadMove(tax, t) && !IsBackToStock(tax, t) && IsDumpMove(tax, t)
    ensures Stateless(tax, t) == Otro <==>
              TouchesNonOperational(tax, t)
              || (!IsLoadMove(tax, t) && !IsBackToStock(tax, t) && !IsDumpMove(tax, t))
  {
  }

  /**
   * The classification table of the app5 tests, for any four distinct labels
   * playing a stock, a module, a ROM pile and a dump.
   */
  lemma StatelessTestTable(s: string, m: string, p: string, b: string, t: Transition)
    requires s != m && s != p && s != b && m != p && m != b && p != b
    ensures var tax := Taxonomy({s}, {m}, {b}, {p}, {});
      && Stateless(tax, t.(origin := s, destination := m)) == Carga
      && Stateless(tax, t.(origin := s, destination := p)) == Carga
      && Stateless(tax, t.(origin := m, destination := s)) == Retorno
      && Stateless(tax, t.(origin := p, destination := s)) == Retorno
      && Stateless(tax, t.(origin := m, destination := b)) == Descarga
      && Stateless(tax, t.(origin := p, destination := b)) == Descarga
      && Stateless(tax, t.(origin := s, destination := b)) == Otro
  {
  }

  // ---------------------------------------------------------------------------
  // Sequence classifier
  // ---------------------------------------------------------------------------

  /**
   * One row of `clasificar_proceso_con_secuencia`, given the label just
   * assigned to the previous row of the vehicle (`None` for its first row).
   */
  function Rule(tax: Taxonomy, t: Transition, prev: Option<Process>): Process
  {
    if TouchesNonOperational(tax, t) then Otro
    else if IsLoadMove(tax, t) then Carga
    else if IsDumpMove(tax, t) then Descarga
    else if IsBackFromDump(tax, t) then (if prev == Some(Descarga) then Retorno else Otro)
    else if IsBackToStock(tax, t) then (if prev == Some(Carga) then Retorno else Otro)
    else Otro
  }

  /** The rows' transitions, with any `Proceso` they carry dropped. */
  function TransitionsOf(rows: seq<Classified>): (ts: seq<Transition>)
    ensures |ts| == |rows| && forall i :: 0 <= i < |rows| ==> ts[i] == rows[i].t
  {
    if |rows| == 0 then [] else TransitionsOf(rows[..|rows| - 1]) + [rows[|rows| - 1].t]
  }

  /** The labels the sequence classifier assigns to one vehicle's transitions in entry order. */
  function SequenceLabels(tax: Taxonomy, ts: seq<Transition>): (r: seq<Process>)
    ensures |r| == |ts|
  {
    if |ts| == 0 then []
    else
      var before := SequenceLabels(tax, ts[..|ts| - 1]);
      before + [Rule(tax, ts[|ts| - 1], if |before| == 0 then None else Some(before[|before| - 1]))]
  }

  /**
   * `clasificar_proceso_con_secuencia` for one vehicle: every row is kept and
   * its `Proceso` is overwritten; the label it carried before plays no part.
   */
  function ClassifyBySequence(tax: Taxonomy, rows: seq<Classified>): (r: seq<Classified>)
    ensures |r| == |rows|
    ensures forall i :: 0 <= i < |r| ==> r[i].t == rows[i].t
  {
    var labels := SequenceLabels(tax, TransitionsOf(rows));
    seq(|rows|, i requires 0 <= i < |rows| => Classified(rows[i].t, labels[i]))
  }

  /** The loop of the source: row by row, reading the label just written to the previous row. */
  method ClassifyRows(tax: Taxonomy, rows: seq<Classified>) returns (r: seq<Classified>)
    ensures r == ClassifyBySequence(tax, rows)
  {
    r := [];
    var labels: seq<Process> := [];
    for i := 0 to |rows|
      invariant ClassifyInv(tax, rows, i, labels, r)
    {
      var prev := if i == 0 then None else Some(labels[i - 1]);
      var p := Rule(tax, rows[i].t, prev);
      ClassifyStep(tax, rows, i, labels, r);
      labels := labels + [p];
      r := r + [Classified(rows[i].t, p)];
    }
    assert rows[..|rows|] == rows;
    LabelledRows(tax, rows, r);
  }

  /** After `i` rows: the labels of the prefix, and each row so far carrying its label. */
  ghost predicate ClassifyInv(tax: Taxonomy, rows: seq<Classified>, i: int, labels: seq<Process>, r: seq<Classified>)
  {
    && 0 <= i <= |rows|
    && labels == SequenceLabels(tax, TransitionsOf(rows[..i]))
    && |r| == i
    && forall k :: 0 <= k < i ==> r[k] == Classified(rows[k].t, labels[k])
  }

  lemma ClassifyStep(tax: Taxonomy, rows: seq<Classified>, i: int, labels: seq<Process>, r: seq<Classified>)
    requires ClassifyInv(tax, rows, i, labels, r) && i < |rows|
    ensures var p := Rule(tax, rows[i].t, if i == 0 then None else Some(labels[i - 1]));
      ClassifyInv(tax, rows, i + 1, labels + [p], r + [Classified(rows[i].t, p)])
  {
    LabelsGrow(tax, rows, i);
  }

  /** The labels of one more row are the labels so far and the rule's verdict on it. */
  lemma LabelsGrow(tax: Taxonomy, rows: seq<Classified>, i: int)
    requires 0 <= i < |rows|
    ensures var before := SequenceLabels(tax, TransitionsOf(rows[..i]));
      SequenceLabels(tax, TransitionsOf(rows[..i + 1]))
        == before + [Rule(tax, rows[i].t, if i == 0 then None else Some(before[i - 1]))]
  {
    TransitionsOfPrefix(rows, i);
    SequenceLabelsSnoc(tax, TransitionsOf(rows[..i]), rows[i].t);
  }

  lemma LabelledRows(tax: Taxonomy, rows: seq<Classified>, r: seq<Classified>)
    requires |r| == |rows|
    requires forall k :: 0 <= k < |r| ==> r[k] == Classified(rows[k].t, SequenceLabels(tax, TransitionsOf(rows))[k])
    ensures r == ClassifyBySequence(tax, rows)
  {
  }

  lemma TransitionsOfPrefix(rows: seq<Classified>, i: int)
    requires 0 <= i < |rows|
    ensures TransitionsOf(rows[..i + 1]) == TransitionsOf(rows[..i]) + [rows[i].t]
  {
    assert rows[..i + 1][..i] == rows[..i];
  }

  lemma TransitionsOfSnoc(rows: seq<Classified>, x: Classified)
    ensures TransitionsOf(rows + [x]) == TransitionsOf(rows) + [x.t]
  {
    assert (rows + [x])[..|rows|] == rows;
  }

  lemma SequenceLabelsSnoc(tax: Taxonomy, ts: seq<Transition>, t: Transition)
    ensures var before := SequenceLabels(tax, ts);
      SequenceLabels(tax, ts + [t]) == before + [Rule(tax, t, if |before| == 0 then None else Some(before[|before| - 1]))]
  {
    assert (ts + [t])[..|ts|] == ts;
  }

  /** A prefix of the labels is the labelling of the prefix: a label depends only on the rows up to it. */
  lemma {:induction false} SequenceLabelsPrefix(tax: Taxonomy, ts: seq<Transition>, n: nat)
    requires n <= |ts|
    ensures SequenceLabels(tax, ts)[..n] == SequenceLabels(tax, ts[..n])
    decreases |ts|
  {
    if n < |ts| {
      assert ts[..|ts| - 1][..n] == ts[..n];
      SequenceLabelsPrefix(tax, ts[..|ts| - 1], n);
    } else {
      assert ts[..n] == ts;
    }
  }

  /** Label `i` is the rule applied to row `i` and label `i - 1`. */
  lemma SequenceLabelAt(tax: Taxonomy, ts: seq<Transition>, i: nat)
    requires i < |ts|
    ensures SequenceLabels(tax, ts)[i] == Rule(tax, ts[i], if i == 0 then None else Some(SequenceLabels(tax, ts)[i - 1]))
  {
    SequenceLabelsPrefix(tax, ts, i + 1);
    var pre := ts[..i + 1];
    assert pre[..|pre| - 1] == ts[..i];
    SequenceLabelsPrefix(tax, ts, i);
    assert SequenceLabels(tax, ts)[..i + 1][i] == SequenceLabels(tax, ts)[i];
    if i > 0 {
      assert SequenceLabels(tax, ts)[..i][i - 1] == SequenceLabels(tax, ts)[i - 1];
    }
  }

  /**
   * The rule order of the sequence classifier, stated per row: load and dump
   * are recognised from the row alone; a return is recognised only right
   * after the load or dump it closes; everything else is "otro".
   */
  lemma SequenceOutcomes(tax: Taxonomy, rows: seq<Classified>, i: nat)
    requires i < |rows|
    ensures var r := ClassifyBySequence(tax, rows); var t := rows[i].t;
      && (r[i].process == Carga <==> !TouchesNonOperational(tax, t) && IsLoadMove(tax, t))
      && (r[i].process == Descarga <==> !TouchesNonOperational(tax, t) && !IsLoadMove(tax, t) && IsDumpMove(tax, t))
      && (r[i].process == Retorno <==>
            && !TouchesNonOperational(tax, t) && !IsLoadMove(tax, t) && !IsDumpMove(tax, t)
            && i > 0
            && ((IsBackFromDump(tax, t) && r[i - 1].process == Descarga)
                || (!IsBackFromDump(tax, t) && IsBackToStock(tax, t) && r[i - 1].process == Carga)))
  {
    SequenceLabelAt(tax, TransitionsOf(rows), i);
  }

  /**
   * A vehicle's first transition is never a return, and every return
   * immediately follows a load or a dump.
   */
  lemma ReturnFollowsLoadOrDump(tax: Taxonomy, rows: seq<Classified>)
    ensures var r := ClassifyBySequence(tax, rows);
      && (|r| > 0 ==> r[0].process != Retorno)
      && forall i :: 0 < i < |r| && r[i].process == Retorno ==> r[i - 1].process in {Carga, Descarga}
  {
    var r := ClassifyBySequence(tax, rows);
    if |r| > 0 {
      SequenceOutcomes(tax, rows, 0);
    }
    forall i | 0 < i < |r| && r[i].process == Retorno ensures r[i - 1].process in {Carga, Descarga} {
      SequenceOutcomes(tax, rows, i);
    }
  }

  /**
   * Because every label is first reset, the result does not depend on the
   * labels the rows carried, and classifying the output again changes nothing.
   */
  lemma ReclassifyingIsStable(tax: Taxonomy, rows: seq<Classified>, other: seq<Classified>)
    requires |other| == |rows| && forall i :: 0 <= i < |rows| ==> other[i].t == rows[i].t
    ensures ClassifyBySequence(tax, other) == ClassifyBySequence(tax, rows)
    ensures ClassifyBySequence(tax, ClassifyBySequence(tax, rows)) == ClassifyBySequence(tax, rows)
  {
    assert TransitionsOf(other) == TransitionsOf(rows);
    var once := ClassifyBySequence(tax, rows);
    assert TransitionsOf(once) == TransitionsOf(rows);
  }

  /**
   * The two classifiers agree on loads; they differ on a move from a module
   * or pile to a place that is both a stock and a dump, which the stateless
   * rule calls a return and the sequence rule a dump.
   */
  lemma ClassifiersAgreeOnLoads(tax: Taxonomy, rows: seq<Classified>, i: nat)
    requires i < |rows|
    ensures ClassifyBySequence(tax, rows)[i].process == Carga <==> Stateless(tax, rows[i].t) == Carga
  {
    SequenceOutcomes(tax, rows, i);
  }

  /**
   * Exactly where the two classifiers part ways. Both agree on
   * non-operational moves and on loads. On a dump move the sequence rule says
   * "descarga" and the stateless rule disagrees iff the destination is also a
   * stock; on any other move they disagree iff the move goes back to a stock
   * but the sequence rule does not see a return, or the other way round.
   */
  lemma ClassifiersDisagreeExactly(tax: Taxonomy, rows: seq<Classified>, i: nat)
    requires i < |rows|
    ensures var r := ClassifyBySequence(tax, rows); var t := rows[i].t;
      var seqReturn := i > 0 && ((IsBackFromDump(tax, t) && r[i - 1].process == Descarga)
                                 || (!IsBackFromDump(tax, t) && IsBackToStock(tax, t) && r[i - 1].process == Carga));
      r[i].process != Stateless(tax, t) <==>
        && !TouchesNonOperational(tax, t) && !IsLoadMove(tax, t)
        && (if IsDumpMove(tax, t) then IsBackToStock(tax, t) else IsBackToStock(tax, t) != seqReturn)
  {
    SequenceOutcomes(tax, rows, i);
    StatelessOutcomes(tax, rows[i].t);
  }

  lemma RuleOrderDiffers(m: string, sb: string, t: Transition)
    requires m != sb
    ensures var tax := Taxonomy({sb}, {m}, {sb}, {}, {});
      var row := t.(origin := m, destination := sb);
      && Stateless(tax, row) == Retorno
      && ClassifyBySequence(tax, [Classified(row, Otro)])[0].process == Descarga
  {
    var tax := Taxonomy({sb}, {m}, {sb}, {}, {});
    var row := t.(origin := m, destination := sb);
    SequenceOutcomes(tax, [Classified(row, Otro)], 0);
  }
}

=== FILE: cycles.dfy ===
/**
 * Cycle detection over classified transitions: the improved
 * `detectar_ciclos_mejorados` (adjacent load/return and dump/return pairs of
 * one vehicle) and the original `detectar_ciclos` (load rows whose next row
 * of the same vehicle is a return, numbered in order).
 */
module Cycles {

  import opened Basics
  import opened Text
  import opened Taxonomy
  import opened Transitions
  import opened Classify
  import Sorting

  // ---------------------------------------------------------------------------
  // detectar_ciclos_mejorados
  // ---------------------------------------------------------------------------

  /** `Tipo_Ciclo`. */
  datatype CycleKind = LoadCycle | DumpCycle

  /** One row of the improved cycle table. */
  datatype Cycle = Cycle(
    vehicle: string,
    kind: CycleKind,
    origin: string,
    destination: string,
    start: int,
    end: int,
    duration: int,
    first: Process,
    second: Process)

  /**
   * The cycle the adjacent rows `i`, `i + 1` close, if any: a load followed by
   * a return from and back to a stock, or a dump followed by a return from
   * and back to a module or pile.
   */
  function CycleAt(tax: Taxonomy, vehicle: string, rows: seq<Classified>, i: nat): Option<Cycle>
    requires i + 1 < |rows|
  {
    var a, b := rows[i], rows[i + 1];
    var kind :=
      if a.process == Carga && b.process == Retorno then
        (if a.t.origin in tax.stocks && b.t.destination in tax.stocks then Some(LoadCycle) else None)
      else if a.process == Descarga && b.process == Retorno then
        (if InModuleOrPile(tax, a.t.origin) && InModuleOrPile(tax, b.t.destination) then Some(DumpCycle) else None)
      else None;
    match kind
    case None => None
    case Some(k) =>
      Some(Cycle(vehicle, k, a.t.origin, b.t.destination, a.t.entry, b.t.exit, b.t.exit - a.t.entry,
                 a.process, b.process))
  }

  /** The positions `i` below `n` at which a cycle starts, in increasing order. */
  function CycleStarts(tax: Taxonomy, vehicle: string, rows: seq<Classified>, n: nat): (r: seq<nat>)
    requires n < |rows|
    ensures forall k :: 0 <= k < |r| ==> r[k] < n && CycleAt(tax, vehicle, rows, r[k]).Some?
    ensures forall i :: 0 <= i < n && CycleAt(tax, vehicle, rows, i).Some? ==> i in r
    ensures forall k, l :: 0 <= k < l < |r| ==> r[k] < r[l]
  {
    if n == 0 then []
    else
      var before := CycleStarts(tax, vehicle, rows, n - 1);
      before + (if CycleAt(tax, vehicle, rows, n - 1).Some? then [n - 1] else [])
  }

  /** The cycles of one vehicle's classified rows. */
  function CyclesOfRows(tax: Taxonomy, vehicle: string, rows: seq<Classified>): seq<Cycle>
  {
    if |rows| < 2 then []
    else
      var starts := CycleStarts(tax, vehicle, rows, |rows| - 1);
      seq(|starts|, k requires 0 <= k < |starts| => CycleAt(tax, vehicle, rows, starts[k]).value)
  }

  /** `detectar_ciclos_mejorados` for one vehicle: classify by sequence, then pair. */
  function ImprovedCycles(tax: Taxonomy, vehicle: string, rows: seq<Classified>): seq<Cycle>
  {
    CyclesOfRows(tax, vehicle, ClassifyBySequence(tax, rows))
  }

  /**
   * A Carga cycle is emitted for an adjacent (carga, retorno) pair exactly
   * when the load left a stock and the return ended in a stock; a Descarga
   * cycle for an adjacent (descarga, retorno) pair exactly when both ends are
   * modules or piles. A cycle spans from the first row's entry to the second
   * row's exit.
   */
  lemma CycleAtSpec(tax: Taxonomy, vehicle: string, rows: seq<Classified>, i: nat)
    requires i + 1 < |rows|
    ensures var a, b := rows[i], rows[i + 1];
      && (CycleAt(tax, vehicle, rows, i).Some? && CycleAt(tax, vehicle, rows, i).value.kind == LoadCycle
          <==> a.process == Carga && b.process == Retorno && a.t.origin in tax.stocks && b.t.destination in tax.stocks)
      && (CycleAt(tax, vehicle, rows, i).Some? && CycleAt(tax, vehicle, rows, i).value.kind == DumpCycle
          <==> a.process == Descarga && b.process == Retorno
               && InModuleOrPile(tax, a.t.origin) && InModuleOrPile(tax, b.t.destination))
      && (CycleAt(tax, vehicle, rows, i).Some? ==>
            var c := CycleAt(tax, vehicle, rows, i).value;
            c.start == a.t.entry && c.end == b.t.exit && c.duration == c.end - c.start
            && c.origin == a.t.origin && c.destination == b.t.destination)
  {
  }

  /**
   * Improved cycles never share a transition: two cycle starts are at least
   * two rows apart, because the second row of a cycle is a return and a
   * return never opens one.
   */
  lemma CycleStartsAreSpaced(tax: Taxonomy, vehicle: string, rows: seq<Classified>, n: nat)
    requires n < |rows|
    ensures var r := CycleStarts(tax, vehicle, rows, n);
      forall k :: 0 <= k < |r| - 1 ==> r[k] + 2 <= r[k + 1]
  {
    var r := CycleStarts(tax, vehicle, rows, n);
    forall k | 0 <= k < |r| - 1 ensures r[k] + 2 <= r[k + 1] {
      CycleShape(tax, vehicle, rows, r[k]);
      CycleShape(tax, vehicle, rows, r[k + 1]);
    }
  }

  /** Positions at least two apart grow at least twice as fast as their rank. */
  lemma {:induction false} SpacedGrowth(r: seq<nat>, k: nat)
    requires forall j :: 0 <= j < |r| - 1 ==> r[j] + 2 <= r[j + 1]
    requires k < |r|
    ensures 2 * k <= r[k]
  {
    if k > 0 {
      SpacedGrowth(r, k - 1);
    }
  }

  /** A cycle opens on a load or dump and closes on a return. */
  lemma CycleShape(tax: Taxonomy, vehicle: string, rows: seq<Classified>, i: nat)
    requires i + 1 < |rows|
    ensures CycleAt(tax, vehicle, rows, i).Some? ==>
              rows[i].process in {Carga, Descarga} && rows[i + 1].process == Retorno
  {
  }

  /**
   * Hence a vehicle with n transitions has at most n / 2 improved cycles,
   * and in particular at most n - 1.
   */
  lemma CycleCountBound(tax: Taxonomy, vehicle: string, rows: seq<Classified>)
    ensures 2 * |ImprovedCycles(tax, vehicle, rows)| <= |rows|
    ensures |rows| > 0 ==> |ImprovedCycles(tax, vehicle, rows)| <= |rows| - 1
  {
    CyclesOfRowsBound(tax, vehicle, ClassifyBySequence(tax, rows));
  }

  lemma CyclesOfRowsBound(tax: Taxonomy, vehicle: string, cl: seq<Classified>)
    ensures 2 * |CyclesOfRows(tax, vehicle, cl)| <= |cl|
  {
    if |cl| >= 2 {
      var r := CycleStarts(tax, vehicle, cl, |cl| - 1);
      if |r| > 0 {
        CycleStartsAreSpaced(tax, vehicle, cl, |cl| - 1);
        SpacedGrowth(r, |r| - 1);
      }
    }
  }

  /**
   * The improved cycle table of a vehicle is exactly the cycles that its
   * sequence-classified rows close, in row order.
   */
  lemma ImprovedCyclesSpec(tax: Taxonomy, vehicle: string, rows: seq<Classified>, c: Cycle)
    ensures var cl := ClassifyBySequence(tax, rows);
      c in ImprovedCycles(tax, vehicle, rows) <==>
        exists i :: 0 <= i < |cl| - 1 && CycleAt(tax, vehicle, cl, i) == Some(c)
    ensures exists p :: ClosedInOrder(tax, vehicle, ClassifyBySequence(tax, rows), ImprovedCycles(tax, vehicle, rows), p)
  {
    CyclesOfRowsSpec(tax, vehicle, ClassifyBySequence(tax, rows), c);
  }

  /**
   * When two adjacent classified rows `a`, `b` close the cycle `c`: a load
   * from a stock answered by a return to a stock, or a dump from a module or
   * pile answered by a return to a module or pile; the cycle runs from the
   * load's or dump's origin and entry to the return's destination and exit.
   */
  predicate Closes(tax: Taxonomy, vehicle: string, a: Classified, b: Classified, c: Cycle)
  {
    && c.vehicle == vehicle
    && c.origin == a.t.origin && c.destination == b.t.destination
    && c.start == a.t.entry && c.end == b.t.exit && c.duration == c.end - c.start
    && c.first == a.process && c.second == b.process
    && b.process == Retorno
    && ((c.kind == LoadCycle && a.process == Carga && a.t.origin in tax.stocks && b.t.destination in tax.stocks)
        || (c.kind == DumpCycle && a.process == Descarga
            && InModuleOrPile(tax, a.t.origin) && InModuleOrPile(tax, b.t.destination)))
  }

  lemma CycleAtCloses(tax: Taxonomy, vehicle: string, rows: seq<Classified>, i: nat, c: Cycle)
    requires i + 1 < |rows|
    ensures CycleAt(tax, vehicle, rows, i) == Some(c) <==> Closes(tax, vehicle, rows[i], rows[i + 1], c)
  {
  }

  /**
   * The improved cycle table of a vehicle holds exactly the cycles that some
   * adjacent pair of its sequence-classified rows closes.
   */
  lemma ImprovedCyclesExactly(tax: Taxonomy, vehicle: string, rows: seq<Classified>, c: Cycle)
    ensures var cl := ClassifyBySequence(tax, rows);
      c in ImprovedCycles(tax, vehicle, rows) <==>
        exists i :: 0 <= i < |cl| - 1 && Closes(tax, vehicle, cl[i], cl[i + 1], c)
  {
    var cl := ClassifyBySequence(tax, rows);
    ImprovedCyclesSpec(tax, vehicle, rows, c);
    if c in ImprovedCycles(tax, vehicle, rows) {
      var i :| 0 <= i < |cl| - 1 && CycleAt(tax, vehicle, cl, i) == Some(c);
      CycleAtCloses(tax, vehicle, cl, i, c);
    }
    if exists i :: 0 <= i < |cl| - 1 && Closes(tax, vehicle, cl[i], cl[i + 1], c) {
      var i :| 0 <= i < |cl| - 1 && Closes(tax, vehicle, cl[i], cl[i + 1], c);
      CycleAtCloses(tax, vehicle, cl, i, c);
    }
  }

  /**
   * `p` lists, in increasing order, every adjacent pair of `cl` that closes a
   * cycle, and `cs[k]` is the cycle closed at `p[k]`.
   */
  ghost predicate ClosedInOrder(tax: Taxonomy, vehicle: string, cl: seq<Classified>, cs: seq<Cycle>, p: seq<nat>)
  {
    && |p| == |cs|
    && (forall k :: 0 <= k < |p| ==> p[k] + 1 < |cl| && CycleAt(tax, vehicle, cl, p[k]) == Some(cs[k]))
    && (forall k, l :: 0 <= k < l < |p| ==> p[k] < p[l])
    && (forall i :: 0 <= i < |cl| - 1 && CycleAt(tax, vehicle, cl, i).Some? ==> i in p)
  }

  /**
   * The cycles of classified rows are exactly the cycles closed at their
   * adjacent pairs, one per closing pair, in row order.
   */
  lemma {:induction false} CyclesOfRowsSpec(tax: Taxonomy, vehicle: string, cl: seq<Classified>, c: Cycle)
    ensures c in CyclesOfRows(tax, vehicle, cl) <==> exists i :: 0 <= i < |cl| - 1 && CycleAt(tax, vehicle, cl, i) == Some(c)
    ensures exists p :: ClosedInOrder(tax, vehicle, cl, CyclesOfRows(tax, vehicle, cl), p)
  {
    CyclesOfRowsInOrder(tax, vehicle, cl);
    if |cl| >= 2 {
      var cs := CyclesOfRows(tax, vehicle, cl);
      var starts := CycleStarts(tax, vehicle, cl, |cl| - 1);
      if c in cs {
        var k :| 0 <= k < |cs| && cs[k] == c;
        CyclesOfRowsAt(tax, vehicle, cl, k);
        var i := starts[k];
        assert 0 <= i < |cl| - 1 && CycleAt(tax, vehicle, cl, i) == Some(c);
      }
      if exists i :: 0 <= i < |cl| - 1 && CycleAt(tax, vehicle, cl, i) == Some(c) {
        var i :| 0 <= i < |cl| - 1 && CycleAt(tax, vehicle, cl, i) == Some(c);
        var k :| 0 <= k < |starts| && starts[k] == i;
        CyclesOfRowsAt(tax, vehicle, cl, k);
        assert cs[k] in cs;
      }
    }
  }

  /** The cycle starts witness the order of the cycles. */
  lemma CyclesOfRowsInOrder(tax: Taxonomy, vehicle: string, cl: seq<Classified>)
    ensures exists p :: ClosedInOrder(tax, vehicle, cl, CyclesOfRows(tax, vehicle, cl), p)
  {
    if |cl| < 2 {
      assert ClosedInOrder(tax, vehicle, cl, CyclesOfRows(tax, vehicle, cl), []);
    } else {
      var starts := CycleStarts(tax, vehicle, cl, |cl| - 1);
      forall k | 0 <= k < |starts|
        ensures starts[k] + 1 < |cl| && CycleAt(tax, vehicle, cl, starts[k]) == Some(CyclesOfRows(tax, vehicle, cl)[k])
      {
        CyclesOfRowsAt(tax, vehicle, cl, k);
      }
      assert ClosedInOrder(tax, vehicle, cl, CyclesOfRows(tax, vehicle, cl), starts);
    }
  }

  /** The `k`-th cycle is the one closed at the `k`-th cycle start. */
  lemma CyclesOfRowsAt(tax: Taxonomy, vehicle: string, cl: seq<Classified>, k: nat)
    requires |cl| >= 2 && k < |CycleStarts(tax, vehicle, cl, |cl| - 1)|
    ensures var starts := CycleStarts(tax, vehicle, cl, |cl| - 1);
      && |CyclesOfRows(tax, vehicle, cl)| == |starts|
      && starts[k] < |cl| - 1
      && CycleAt(tax, vehicle, cl, starts[k]).Some?
      && CyclesOfRows(tax, vehicle, cl)[k] == CycleAt(tax, vehicle, cl, starts[k]).value
  {
  }

  // ---------------------------------------------------------------------------
  // detectar_ciclos (original)
  // ---------------------------------------------------------------------------

  /** A row of the original cycle table: the load row and its `Ciclo_ID`. */
  datatype NumberedCycle = NumberedCycle(row: Classified, id: nat)

  /** Table order of transitions: by vehicle, then by entry instant. */
  predicate TransitionLeq(a: Transition, b: Transition)
  {
    (LexLeq(a.vehicle, b.vehicle) && a.vehicle != b.vehicle)
    || (a.vehicle == b.vehicle && a.entry <= b.entry)
  }

  lemma TransitionLeqIsTotalPreorder()
    ensures Sorting.TotalPreorder(TransitionLeq)
  {
    forall a: Transition, b: Transition ensures TransitionLeq(a, b) || TransitionLeq(b, a) {
      LexLeqTotal(a.vehicle, b.vehicle);
    }
    forall a: Transition, b: Transition, c: Transition | TransitionLeq(a, b) && TransitionLeq(b, c)
      ensures TransitionLeq(a, c)
    {
      if a.vehicle != b.vehicle && b.vehicle != c.vehicle {
        LexLeqTransitive(a.vehicle, b.vehicle, c.vehicle);
        if a.vehicle == c.vehicle {
          LexLeqAntisymmetric(a.vehicle, b.vehicle);
        }
      }
    }
  }

  /** The row at `i` is a load whose next row, of the same vehicle, is a return. */
  predicate OpensCycle(rows: seq<Classified>, i: int)
  {
    && 0 <= i < |rows| - 1
    && rows[i].process == Carga
    && rows[i + 1].t.vehicle == rows[i].t.vehicle
    && rows[i + 1].process == Retorno
  }

  /** The positions below `n` whose row opens a cycle, in increasing order. */
  function OpeningRows(rows: seq<Classified>, n: nat): (r: seq<nat>)
    requires n <= |rows|
    ensures forall k :: 0 <= k < |r| ==> r[k] < n && OpensCycle(rows, r[k])
    ensures forall i :: 0 <= i < n && OpensCycle(rows, i) ==> i in r
    ensures forall k, l :: 0 <= k < l < |r| ==> r[k] < r[l]
  {
    if n == 0 then []
    else OpeningRows(rows, n - 1) + (if OpensCycle(rows, n - 1) then [n - 1] else [])
  }

  /**
   * The mask and numbering of `detectar_ciclos` on rows already sorted and
   * carrying their `Proceso`: the opening rows, numbered 0, 1, 2, ...
   */
  function NumberCycles(rows: seq<Classified>): seq<NumberedCycle>
  {
    var open := OpeningRows(rows, |rows|);
    seq(|open|, k requires 0 <= k < |open| => NumberedCycle(rows[open[k]], k))
  }

  /** The transitions in table order, each with its stateless `Proceso`. */
  function SortedStateless(tax: Taxonomy, ts: seq<Transition>): (r: seq<Classified>)
    ensures |r| == |ts|
  {
    TransitionLeqIsTotalPreorder();
    var sorted := Sorting.SortBy(ts, TransitionLeq);
    seq(|sorted|, i requires 0 <= i < |sorted| => Classified(sorted[i], Stateless(tax, sorted[i])))
  }

  /**
   * `detectar_ciclos` of app3, app5 and app6: sort, classify each row with
   * the stateless rule, keep the load rows followed by a return of the same
   * vehicle. (app4 takes the `Proceso` column as given: that is
   * `NumberCycles` on its sorted rows.)
   */
  function DetectCycles(tax: Taxonomy, ts: seq<Transition>): seq<NumberedCycle>
  {
    NumberCycles(SortedStateless(tax, ts))
  }

  /**
   * `p` lists, in increasing order, every row that opens a cycle, and `cs[k]`
   * is the row at `p[k]` numbered `k`.
   */
  ghost predicate NumberedInOrder(rows: seq<Classified>, cs: seq<NumberedCycle>, p: seq<nat>)
  {
    && |p| == |cs|
    && (forall k :: 0 <= k < |p| ==> OpensCycle(rows, p[k]) && cs[k] == NumberedCycle(rows[p[k]], k))
    && (forall k, l :: 0 <= k < l < |p| ==> p[k] < p[l])
    && (forall i :: OpensCycle(rows, i) ==> i in p)
  }

  /**
   * The original cycle table holds exactly the load rows whose next row of
   * the same vehicle is a return, in table order, with `Ciclo_ID` running
   * 0, 1, 2, ... without gaps.
   */
  lemma {:induction false} NumberCyclesSpec(rows: seq<Classified>, x: Classified)
    ensures var cs := NumberCycles(rows);
      && (forall k :: 0 <= k < |cs| ==> cs[k].id == k && cs[k].row.process == Carga)
      && (x in (set c | c in cs :: c.row) <==> exists i :: OpensCycle(rows, i) && rows[i] == x)
      && |cs| <= |rows|
      && (exists p :: NumberedInOrder(rows, cs, p))
  {
    var open := OpeningRows(rows, |rows|);
    forall k | 0 <= k < |open|
      ensures OpensCycle(rows, open[k]) && NumberCycles(rows)[k] == NumberedCycle(rows[open[k]], k)
    {
      NumberedAt(rows, k);
    }
    assert NumberedInOrder(rows, NumberCycles(rows), open);
    NumberCyclesIds(rows);
    if x in (set c | c in NumberCycles(rows) :: c.row) {
      var i := NumberedRowOpens(rows, x);
    }
    if exists i :: OpensCycle(rows, i) && rows[i] == x {
      var i :| OpensCycle(rows, i) && rows[i] == x;
      OpeningRowNumbered(rows, i);
    }
    OpeningRowsBound(rows, |rows|);
  }

  lemma NumberCyclesIds(rows: seq<Classified>)
    ensures forall k :: 0 <= k < |NumberCycles(rows)| ==> NumberCycles(rows)[k].id == k && NumberCycles(rows)[k].row.process == Carga
  {
    forall k | 0 <= k < |NumberCycles(rows)| ensures NumberCycles(rows)[k].id == k && NumberCycles(rows)[k].row.process == Carga {
      NumberedAt(rows, k);
    }
  }

  /** A row of the original table opens a cycle: the position of one. */
  lemma NumberedRowOpens(rows: seq<Classified>, x: Classified) returns (i: int)
    requires x in (set c | c in NumberCycles(rows) :: c.row)
    ensures OpensCycle(rows, i) && rows[i] == x
  {
    var cs := NumberCycles(rows);
    var k :| 0 <= k < |cs| && cs[k].row == x;
    NumberedAt(rows, k);
    i := OpeningRows(rows, |rows|)[k];
  }

  /** A row that opens a cycle is in the original table. */
  lemma OpeningRowNumbered(rows: seq<Classified>, i: int)
    requires OpensCycle(rows, i)
    ensures rows[i] in (set c | c in NumberCycles(rows) :: c.row)
  {
    var open := OpeningRows(rows, |rows|);
    var k :| 0 <= k < |open| && open[k] == i;
    NumberedAt(rows, k);
    assert NumberCycles(rows)[k] in NumberCycles(rows);
  }

  /** The `k`-th cycle of the original table is the `k`-th opening row, numbered `k`. */
  lemma NumberedAt(rows: seq<Classified>, k: nat)
    requires k < |NumberCycles(rows)|
    ensures var open := OpeningRows(rows, |rows|);
      && |NumberCycles(rows)| == |open|
      && NumberCycles(rows)[k] == NumberedCycle(rows[open[k]], k)
      && OpensCycle(rows, open[k])
  {
  }

  lemma {:induction false} OpeningRowsBound(rows: seq<Classified>, n: nat)
    requires n <= |rows|
    ensures |OpeningRows(rows, n)| <= n
  {
    if n > 0 {
      OpeningRowsBound(rows, n - 1);
    }
  }

  /**
   * A (carga, retorno) pair of one vehicle always opens an original cycle;
   * it closes an improved one iff its origin and destination are stocks.
   */
  lemma OriginalIgnoresStockCheck(tax: Taxonomy, vehicle: string, rows: seq<Classified>, i: nat)
    requires i + 1 < |rows| && rows[i + 1].t.vehicle == rows[i].t.vehicle
    requires rows[i].process == Carga && rows[i + 1].process == Retorno
    ensures OpensCycle(rows, i)
    ensures CycleAt(tax, vehicle, rows, i).Some? <==> rows[i].t.origin in tax.stocks && rows[i + 1].t.destination in tax.stocks
  {
  }
}

=== FILE: episodes.dfy ===
/**
 * Off-geofence stops (the temporal part of `analizar_zonas_no_mapeadas`):
 * the pings in no geofence, with a low or missing speed and a position, are
 * cut per vehicle into episodes wherever more than five minutes pass between
 * two of them; an episode of at least three pings spanning at least
 * `tiempo_min_minutos` becomes a candidate zone. Fewer than ten such pings
 * in the whole fleet give no candidates at all.
 */
module Episodes {

  import opened Basics
  import opened Events

  /** Fewer stopped pings than this in the whole data set give no candidates. */
  const MinStoppedPings: int := 10

  /** A pause longer than this (seconds) starts a new episode. */
  const MaxPauseS: int := 300

  /** An episode needs this many pings to become a candidate. */
  const MinEpisodePings: int := 3

  /** One vehicle's pings in time order (a `groupby` group after its sort). */
  datatype Track = Track(vehicle: string, pings: seq<Ping>)

  /**
   * A candidate zone: the vehicle, `Duracion_Minutos`, `Registros`, `Inicio`
   * and `Fin`. The centre, radius and mean speed are not modelled.
   */
  datatype Candidate = Candidate(vehicle: string, minutes: real, records: nat, start: int, end: int)

  /**
   * A ping that takes part: in no geofence, with a missing speed (read as
   * stopped) or one of at most `vmax`, and with both coordinates.
   */
  predicate Stopped(p: Ping, vmax: real)
  {
    p.geofence == "" && (p.speed.None? || p.speed.value <= vmax) && p.lat.Some? && p.lon.Some?
  }

  /** The stopped pings of a track, in order. */
  function StoppedPings(ps: seq<Ping>, vmax: real): (r: seq<Ping>)
    ensures |r| <= |ps|
    ensures forall p :: p in r <==> p in ps && Stopped(p, vmax)
  {
    if |ps| == 0 then []
    else
      var n := |ps| - 1;
      StoppedPings(ps[..n], vmax) + (if Stopped(ps[n], vmax) then [ps[n]] else [])
  }

  /** The number of stopped pings over all tracks. */
  function TotalStopped(tracks: seq<Track>, vmax: real): nat
  {
    if |tracks| == 0 then 0
    else TotalStopped(tracks[..|tracks| - 1], vmax) + |StoppedPings(tracks[|tracks| - 1].pings, vmax)|
  }

  /**
   * `(diff > 300).cumsum()`: the pings cut into episodes, a new one starting
   * at every ping more than `MaxPauseS` after the one before it.
   */
  function Split(q: seq<Ping>): (gs: seq<seq<Ping>>)
    ensures |q| > 0 <==> |gs| > 0
  {
    if |q| == 0 then []
    else
      var n := |q| - 1;
      var prev := Split(q[..n]);
      if n == 0 || q[n].time - q[n - 1].time > MaxPauseS then prev + [[q[n]]]
      else prev[..|prev| - 1] + [prev[|prev| - 1] + [q[n]]]
  }

  function Flatten(gs: seq<seq<Ping>>): seq<Ping>
  {
    if |gs| == 0 then [] else Flatten(gs[..|gs| - 1]) + gs[|gs| - 1]
  }

  lemma FlattenSnoc(gs: seq<seq<Ping>>, g: seq<Ping>)
    ensures Flatten(gs + [g]) == Flatten(gs) + g
  {
    assert (gs + [g])[..|gs|] == gs;
  }

  /** The pings of an episode are no more than `MaxPauseS` apart, one to the next. */
  predicate Close(g: seq<Ping>)
  {
    forall m :: 0 <= m < |g| - 1 ==> g[m + 1].time - g[m].time <= MaxPauseS
  }

  /** Between two consecutive episodes more than `MaxPauseS` pass. */
  predicate Separated(gs: seq<seq<Ping>>)
    requires forall k :: 0 <= k < |gs| ==> |gs[k]| > 0
  {
    forall k :: 0 <= k < |gs| - 1 ==> gs[k + 1][0].time - gs[k][|gs[k]| - 1].time > MaxPauseS
  }

  /**
   * `gs` cuts `q` into episodes: they partition it in order, none is empty,
   * none has a long pause inside, consecutive ones are separated by a long
   * pause, and the last ping of `q` closes the last episode.
   */
  predicate WellSplit(gs: seq<seq<Ping>>, q: seq<Ping>)
  {
    && Flatten(gs) == q
    && (forall k :: 0 <= k < |gs| ==> |gs[k]| > 0 && Close(gs[k]))
    && Separated(gs)
    && (|q| > 0 ==> |gs| > 0 && gs[|gs| - 1][|gs[|gs| - 1]| - 1] == q[|q| - 1])
  }

  /** `Split` cuts exactly at the pauses longer than `MaxPauseS`. */
  lemma {:induction false} SplitSpec(q: seq<Ping>)
    ensures WellSplit(Split(q), q)
  {
    if |q| > 0 {
      var n := |q| - 1;
      SplitSpec(q[..n]);
      if n == 0 || q[n].time - q[n - 1].time > MaxPauseS {
        SplitNewStep(Split(q[..n]), q);
      } else {
        SplitJoinStep(Split(q[..n]), q);
      }
    }
  }

  lemma SplitNewStep(prev: seq<seq<Ping>>, q: seq<Ping>)
    requires |q| > 0 && WellSplit(prev, q[..|q| - 1])
    requires |q| == 1 || q[|q| - 1].time - q[|q| - 2].time > MaxPauseS
    ensures WellSplit(prev + [[q[|q| - 1]]], q)
  {
    var n := |q| - 1;
    FlattenSnoc(prev, [q[n]]);
    assert q[..n] + [q[n]] == q;
    if n > 0 {
      assert q[..n][n - 1] == q[n - 1];
    }
    SplitSnocNew(prev, q[n]);
  }

  lemma SplitJoinStep(prev: seq<seq<Ping>>, q: seq<Ping>)
    requires |q| > 1 && WellSplit(prev, q[..|q| - 1])
    requires q[|q| - 1].time - q[|q| - 2].time <= MaxPauseS
    ensures WellSplit(prev[..|prev| - 1] + [prev[|prev| - 1] + [q[|q| - 1]]], q)
  {
    var n := |q| - 1;
    var m := |prev| - 1;
    var last := prev[m];
    assert prev == prev[..m] + [last];
    FlattenSnoc(prev[..m], last);
    FlattenSnoc(prev[..m], last + [q[n]]);
    assert q[..n] + [q[n]] == q;
    assert q[..n][n - 1] == q[n - 1];
    SplitSnocJoin(prev, q[n]);
  }

  lemma SplitSnocNew(prev: seq<seq<Ping>>, x: Ping)
    requires forall k :: 0 <= k < |prev| ==> |prev[k]| > 0 && Close(prev[k])
    requires Separated(prev)
    requires |prev| > 0 ==> x.time - prev[|prev| - 1][|prev[|prev| - 1]| - 1].time > MaxPauseS
    ensures forall k :: 0 <= k < |prev + [[x]]| ==> |(prev + [[x]])[k]| > 0 && Close((prev + [[x]])[k])
    ensures Separated(prev + [[x]])
  {
  }

  lemma SplitSnocJoin(prev: seq<seq<Ping>>, x: Ping)
    requires |prev| > 0
    requires forall k :: 0 <= k < |prev| ==> |prev[k]| > 0 && Close(prev[k])
    requires Separated(prev)
    requires x.time - prev[|prev| - 1][|prev[|prev| - 1]| - 1].time <= MaxPauseS
    ensures var gs := prev[..|prev| - 1] + [prev[|prev| - 1] + [x]];
      && (forall k :: 0 <= k < |gs| ==> |gs[k]| > 0 && Close(gs[k]))
      && Separated(gs)
  {
    var m := |prev| - 1;
    var last := prev[m] + [x];
    var gs := prev[..m] + [last];
    assert Close(last) by {
      forall j | 0 <= j < |last| - 1 ensures last[j + 1].time - last[j].time <= MaxPauseS {
        if j + 1 < |prev[m]| {
          assert last[j] == prev[m][j] && last[j + 1] == prev[m][j + 1];
        }
      }
    }
    assert forall k :: 0 <= k < m ==> gs[k] == prev[k];
    assert gs[m][0] == prev[m][0];
  }

  /** The earliest and the latest instant of an episode (`min()` and `max()`). */
  function MinTime(g: seq<Ping>): (r: int)
    requires |g| > 0
    ensures forall k :: 0 <= k < |g| ==> r <= g[k].time
    ensures exists k :: 0 <= k < |g| && r == g[k].time
  {
    if |g| == 1 then g[0].time
    else
      var r := MinTime(g[..|g| - 1]);
      var x := g[|g| - 1].time;
      assert forall k :: 0 <= k < |g| - 1 ==> g[..|g| - 1][k] == g[k];
      if x < r then x else r
  }

  function MaxTime(g: seq<Ping>): (r: int)
    requires |g| > 0
    ensures forall k :: 0 <= k < |g| ==> g[k].time <= r
    ensures exists k :: 0 <= k < |g| && r == g[k].time
  {
    if |g| == 1 then g[0].time
    else
      var r := MaxTime(g[..|g| - 1]);
      var x := g[|g| - 1].time;
      assert forall k :: 0 <= k < |g| - 1 ==> g[..|g| - 1][k] == g[k];
      if x > r then x else r
  }

  /** `Duracion_Minutos`: the span of the episode in minutes. */
  function Minutes(g: seq<Ping>): real
    requires |g| > 0
  {
    (MaxTime(g) - MinTime(g)) as real / 60.0
  }

  /** An episode is kept when it has at least three pings and spans at least `tmin` minutes. */
  predicate Keep(g: seq<Ping>, tmin: int)
  {
    |g| >= MinEpisodePings && Minutes(g) >= tmin as real
  }

  function CandidateOf(vehicle: string, g: seq<Ping>): Candidate
    requires |g| > 0
  {
    Candidate(vehicle, Minutes(g), |g|, MinTime(g), MaxTime(g))
  }

  /** The candidates of one vehicle's episodes, in order. */
  function CandidatesOf(vehicle: string, gs: seq<seq<Ping>>, tmin: int): seq<Candidate>
  {
    if |gs| == 0 then []
    else
      var g := gs[|gs| - 1];
      CandidatesOf(vehicle, gs[..|gs| - 1], tmin) + (if Keep(g, tmin) then [CandidateOf(vehicle, g)] else [])
  }

  /** The candidates of every track, vehicle after vehicle. */
  function AllCandidates(tracks: seq<Track>, vmax: real, tmin: int): seq<Candidate>
  {
    if |tracks| == 0 then []
    else
      var t := tracks[|tracks| - 1];
      AllCandidates(tracks[..|tracks| - 1], vmax, tmin) + CandidatesOf(t.vehicle, Split(StoppedPings(t.pings, vmax)), tmin)
  }

  /** The candidate zones before they are grouped by proximity. */
  function Episodes(tracks: seq<Track>, vmax: real, tmin: int): seq<Candidate>
  {
    if TotalStopped(tracks, vmax) < MinStoppedPings then [] else AllCandidates(tracks, vmax, tmin)
  }

  /** A candidate is the candidate of a kept episode among `gs`, and every kept episode gives one. */
  lemma CandidatesOfSpec(vehicle: string, gs: seq<seq<Ping>>, tmin: int, c: Candidate)
    requires forall k :: 0 <= k < |gs| ==> |gs[k]| > 0
    ensures c in CandidatesOf(vehicle, gs, tmin) <==>
              exists k :: 0 <= k < |gs| && Keep(gs[k], tmin) && c == CandidateOf(vehicle, gs[k])
  {
    if c in CandidatesOf(vehicle, gs, tmin) {
      var k := CandidatesOfSound(vehicle, gs, tmin, c);
    }
    if exists k :: 0 <= k < |gs| && Keep(gs[k], tmin) && c == CandidateOf(vehicle, gs[k]) {
      var k :| 0 <= k < |gs| && Keep(gs[k], tmin) && c == CandidateOf(vehicle, gs[k]);
      CandidatesOfComplete(vehicle, gs, tmin, k);
    }
  }

  /** Each candidate comes from a kept episode: the index of one. */
  lemma {:induction false} CandidatesOfSound(vehicle: string, gs: seq<seq<Ping>>, tmin: int, c: Candidate) returns (k: nat)
    requires forall k :: 0 <= k < |gs| ==> |gs[k]| > 0
    requires c in CandidatesOf(vehicle, gs, tmin)
    ensures k < |gs| && Keep(gs[k], tmin) && c == CandidateOf(vehicle, gs[k])
  {
    var n := |gs| - 1;
    var prev := CandidatesOf(vehicle, gs[..n], tmin);
    if c in prev {
      k := CandidatesOfSound(vehicle, gs[..n], tmin, c);
      assert gs[..n][k] == gs[k];
    } else {
      k := n;
    }
  }

  /** Each kept episode gives a candidate. */
  lemma {:induction false} CandidatesOfComplete(vehicle: string, gs: seq<seq<Ping>>, tmin: int, k: nat)
    requires forall k :: 0 <= k < |gs| ==> |gs[k]| > 0
    requires k < |gs| && Keep(gs[k], tmin)
    ensures CandidateOf(vehicle, gs[k]) in CandidatesOf(vehicle, gs, tmin)
  {
    var n := |gs| - 1;
    if k < n {
      assert gs[..n][k] == gs[k];
      CandidatesOfComplete(vehicle, gs[..n], tmin, k);
    }
  }

  /**
   * Every candidate has at least three pings, spans at least `tmin` minutes
   * from its first to its last instant, and its minutes are that span.
   */
  lemma {:induction false} CandidatesOfShape(vehicle: string, gs: seq<seq<Ping>>, tmin: int)
    requires forall k :: 0 <= k < |gs| ==> |gs[k]| > 0
    ensures forall c :: c in CandidatesOf(vehicle, gs, tmin) ==>
              && c.vehicle == vehicle && c.records >= MinEpisodePings && c.minutes >= tmin as real
              && c.start <= c.end && c.minutes == (c.end - c.start) as real / 60.0
  {
    forall c | c in CandidatesOf(vehicle, gs, tmin)
      ensures && c.vehicle == vehicle && c.records >= MinEpisodePings && c.minutes >= tmin as real
              && c.start <= c.end && c.minutes == (c.end - c.start) as real / 60.0
    {
      CandidatesOfSpec(vehicle, gs, tmin, c);
      var k :| 0 <= k < |gs| && Keep(gs[k], tmin) && c == CandidateOf(vehicle, gs[k]);
      assert MinTime(gs[k]) <= gs[k][0].time <= MaxTime(gs[k]);
    }
  }

  /** A track's episodes: its stopped pings cut at the long pauses. */
  function EpisodesOf(t: Track, vmax: real): seq<seq<Ping>>
  {
    Split(StoppedPings(t.pings, vmax))
  }

  /** `c` is the candidate of a kept episode of track `t`. */
  predicate FromTrack(t: Track, vmax: real, tmin: int, c: Candidate)
  {
    exists k :: 0 <= k < |EpisodesOf(t, vmax)| && Keep(EpisodesOf(t, vmax)[k], tmin)
                && c == CandidateOf(t.vehicle, EpisodesOf(t, vmax)[k])
  }

  /**
   * With fewer than ten stopped pings over all tracks there are no
   * candidates; otherwise the candidates are exactly the kept episodes of
   * every track, each labelled with its track's vehicle.
   */
  lemma EpisodesSpec(tracks: seq<Track>, vmax: real, tmin: int, c: Candidate)
    ensures TotalStopped(tracks, vmax) < MinStoppedPings ==> Episodes(tracks, vmax, tmin) == []
    ensures c in Episodes(tracks, vmax, tmin) <==>
              TotalStopped(tracks, vmax) >= MinStoppedPings
              && exists j :: 0 <= j < |tracks| && FromTrack(tracks[j], vmax, tmin, c)
  {
    AllCandidatesSpec(tracks, vmax, tmin, c);
  }

  lemma {:induction false} AllCandidatesSpec(tracks: seq<Track>, vmax: real, tmin: int, c: Candidate)
    ensures c in AllCandidates(tracks, vmax, tmin) <==> exists j :: 0 <= j < |tracks| && FromTrack(tracks[j], vmax, tmin, c)
  {
    if |tracks| > 0 {
      var n := |tracks| - 1;
      var prev := AllCandidates(tracks[..n], vmax, tmin);
      var mine := CandidatesOf(tracks[n].vehicle, EpisodesOf(tracks[n], vmax), tmin);
      assert AllCandidates(tracks, vmax, tmin) == prev + mine;
      AllCandidatesSpec(tracks[..n], vmax, tmin, c);
      FromTrackIff(tracks[n], vmax, tmin, c);
      if c in prev {
        var j :| 0 <= j < n && FromTrack(tracks[..n][j], vmax, tmin, c);
        assert tracks[..n][j] == tracks[j];
      }
      if exists j :: 0 <= j < |tracks| && FromTrack(tracks[j], vmax, tmin, c) {
        var j :| 0 <= j < |tracks| && FromTrack(tracks[j], vmax, tmin, c);
        if j < n {
          assert tracks[..n][j] == tracks[j];
          assert c in prev;
        } else {
          assert j == n;
        }
      }
    }
  }

  lemma FromTrackIff(t: Track, vmax: real, tmin: int, c: Candidate)
    ensures c in CandidatesOf(t.vehicle, EpisodesOf(t, vmax), tmin) <==> FromTrack(t, vmax, tmin, c)
  {
    TrackCandidates(t, vmax, tmin, c);
  }

  /** One track's candidates: the kept episodes of its stopped pings, cut at long pauses. */
  lemma TrackCandidates(t: Track, vmax: real, tmin: int, c: Candidate)
    ensures var gs := Split(StoppedPings(t.pings, vmax));
      && WellSplit(gs, StoppedPings(t.pings, vmax))
      && (c in CandidatesOf(t.vehicle, gs, tmin) <==>
            exists k :: 0 <= k < |gs| && Keep(gs[k], tmin) && c == CandidateOf(t.vehicle, gs[k]))
  {
    var gs := Split(StoppedPings(t.pings, vmax));
    SplitSpec(StoppedPings(t.pings, vmax));
    CandidatesOfSpec(t.vehicle, gs, tmin, c);
  }

  /** Every ping of an episode is a stopped ping of the track. */
  lemma {:induction false} EpisodePingsAreStopped(gs: seq<seq<Ping>>, q: seq<Ping>, vmax: real)
    requires Flatten(gs) == q
    requires forall p :: p in q ==> Stopped(p, vmax)
    ensures forall k, p :: 0 <= k < |gs| && p in gs[k] ==> Stopped(p, vmax)
  {
    if |gs| > 0 {
      var n := |gs| - 1;
      EpisodePingsAreStopped(gs[..n], Flatten(gs[..n]), vmax);
      forall k, p | 0 <= k < |gs| && p in gs[k] ensures Stopped(p, vmax) {
        if k < n {
          assert gs[k] == gs[..n][k];
        } else {
          assert p in q;
        }
      }
    }
  }
}

=== FILE: events.dfy ===
/**
 * The event normaliser (`preparar_datos`): raw rows of the uploaded table
 * become typed pings sorted by vehicle and time.
 */
module Events {

  import opened Basics
  import opened Text
  import Sorting

  /**
   * One row of the uploaded table. `time` is `None` when the timestamp text
   * cannot be parsed (`errors="coerce"` turns it into NaT), `geofence` is `None`
   * for an empty "Geocercas" cell.
   */
  datatype RawRow = RawRow(
    vehicle: string,
    time: Option<int>,
    geofence: Option<string>,
    lat: Option<real>,
    lon: Option<real>,
    speed: Option<real>)

  /**
   * One GPS ping: "Nombre del Vehículo", "Tiempo de evento" (seconds),
   * the geofence label ("" when the vehicle is in no geofence), position and
   * speed in km/h (each possibly missing).
   */
  datatype Ping = Ping(
    vehicle: string,
    time: int,
    geofence: string,
    lat: Option<real>,
    lon: Option<real>,
    speed: Option<real>)

  /** The text of a label cell after `fillna("")` and `str.strip()`. */
  function CleanLabel(cell: Option<string>): string
  {
    match cell
    case None => ""
    case Some(s) => Strip(s)
  }

  /** A row with a parseable timestamp, as a ping; `None` for a row that is dropped. */
  function ToPing(r: RawRow): Option<Ping>
  {
    match r.time
    case None => None
    case Some(t) => Some(Ping(r.vehicle, t, CleanLabel(r.geofence), r.lat, r.lon, r.speed))
  }

  /** The pings of the rows that survive `dropna`, in input order. */
  function Parsed(rows: seq<RawRow>): (ps: seq<Ping>)
    ensures |ps| <= |rows|
  {
    if |rows| == 0 then []
    else
      var rest := Parsed(rows[1..]);
      match ToPing(rows[0])
      case None => rest
      case Some(p) => [p] + rest
  }

  /** Table order: by vehicle name (Python string order), then by time. */
  predicate PingLeq(a: Ping, b: Ping)
  {
    (LexLeq(a.vehicle, b.vehicle) && a.vehicle != b.vehicle)
    || (a.vehicle == b.vehicle && a.time <= b.time)
  }

  lemma PingLeqIsTotalPreorder()
    ensures Sorting.TotalPreorder(PingLeq)
  {
    forall a: Ping, b: Ping ensures PingLeq(a, b) || PingLeq(b, a) {
      LexLeqTotal(a.vehicle, b.vehicle);
    }
    forall a: Ping, b: Ping, c: Ping | PingLeq(a, b) && PingLeq(b, c) ensures PingLeq(a, c) {
      if a.vehicle != b.vehicle && b.vehicle != c.vehicle {
        LexLeqTransitive(a.vehicle, b.vehicle, c.vehicle);
        if a.vehicle == c.vehicle {
          LexLeqAntisymmetric(a.vehicle, b.vehicle);
        }
      }
    }
  }

  /** `preparar_datos`. */
  function Prepare(rows: seq<RawRow>): seq<Ping>
  {
    PingLeqIsTotalPreorder();
    Sorting.SortBy(Parsed(rows), PingLeq)
  }

  /** Whether pings are in table order. */
  predicate InTableOrder(ps: seq<Ping>)
  {
    forall i, j :: 0 <= i < j < |ps| ==> PingLeq(ps[i], ps[j])
  }

  /**
   * A ping survives iff some row with a parseable timestamp produced it, and
   * no row is lost exactly when every timestamp parses.
   */
  lemma {:induction false} ParsedKeepsExactlyParseable(rows: seq<RawRow>)
    ensures forall p :: p in Parsed(rows) <==> exists r :: r in rows && ToPing(r) == Some(p)
    ensures |Parsed(rows)| == |rows| <==> forall i :: 0 <= i < |rows| ==> rows[i].time.Some?
  {
    if |rows| > 0 {
      ParsedKeepsExactlyParseable(rows[1..]);
      forall p ensures p in Parsed(rows) <==> exists r :: r in rows && ToPing(r) == Some(p) {
        if exists r :: r in rows && ToPing(r) == Some(p) {
          var r :| r in rows && ToPing(r) == Some(p);
          if r != rows[0] {
            assert r in rows[1..];
          }
        }
        if p in Parsed(rows[1..]) {
          var r :| r in rows[1..] && ToPing(r) == Some(p);
          assert r in rows;
        }
      }
      if forall i :: 0 <= i < |rows| ==> rows[i].time.Some? {
        assert forall i :: 0 <= i < |rows[1..]| ==> rows[1..][i].time.Some? by {
          forall i | 0 <= i < |rows[1..]| ensures rows[1..][i].time.Some? {
            assert rows[1..][i] == rows[i + 1];
          }
        }
      }
      if |Parsed(rows)| == |rows| {
        forall i | 0 <= i < |rows| ensures rows[i].time.Some? {
          if i > 0 {
            assert rows[i] == rows[1..][i - 1];
          }
        }
      }
    }
  }

  /**
   * `preparar_datos` keeps exactly the rows whose timestamp parses, maps a
   * missing label to "" and strips every label, and sorts by vehicle and time.
   */
  lemma PrepareSpec(rows: seq<RawRow>)
    ensures InTableOrder(Prepare(rows))
    ensures multiset(Prepare(rows)) == multiset(Parsed(rows))
    ensures |Prepare(rows)| == |rows| <==> forall i :: 0 <= i < |rows| ==> rows[i].time.Some?
    ensures forall p :: p in Prepare(rows) <==> exists r :: r in rows && ToPing(r) == Some(p)
    ensures forall p :: p in Prepare(rows) ==> Strip(p.geofence) == p.geofence
  {
    PingLeqIsTotalPreorder();
    var ps := Prepare(rows);
    ParsedKeepsExactlyParseable(rows);
    forall p | p in ps ensures Strip(p.geofence) == p.geofence
      && (exists r :: r in rows && ToPing(r) == Some(p)) {
      assert p in multiset(ps);
      assert p in Parsed(rows);
      var r :| r in rows && ToPing(r) == Some(p);
      match r.geofence {
        case None =>
        case Some(s) => StripIdempotent(s);
      }
    }
    forall p | exists r :: r in rows && ToPing(r) == Some(p) ensures p in ps {
      assert p in multiset(Parsed(rows));
    }
  }
}

=== FILE: gaps.dfy ===
/**
 * Travel times between geofences (`extraer_tiempos_viaje` of
 * app6_mejorado.py): every maximal run of a vehicle's pings with an empty
 * geofence label is a trip when it has at least two pings and lasts at least
 * 30 s; it goes from the nearest earlier label to the nearest later one,
 * "DESCONOCIDO" when there is none.
 */
module Gaps {

  import opened Events
  import opened Shifts

  /** The endpoint reported when no labelled ping exists on that side. */
  const Desconocido: string := "DESCONOCIDO"

  /** A run needs this many pings to have a duration. */
  const MinTransitPings: int := 2

  /** Shorter runs are discarded. */
  const MinTransitS: int := 30

  /** One row of the travel-time table. */
  datatype TransitGap = TransitGap(
    vehicle: string,
    origin: string,
    destination: string,
    start: int,
    end: int,
    duration: int,
    tag: ShiftTag)

  /** `Geocercas == ""`: the ping lies in no geofence. The label is not stripped here. */
  predicate InTransit(p: Ping)
  {
    p.geofence == ""
  }

  /** The first index from `i` on whose ping is in a geofence, or `|ps|`. */
  function RunEnd(ps: seq<Ping>, i: nat): (j: nat)
    requires i <= |ps|
    ensures i <= j <= |ps|
    ensures forall k :: i <= k < j ==> InTransit(ps[k])
    ensures j < |ps| ==> !InTransit(ps[j])
    decreases |ps| - i
  {
    if i == |ps| || !InTransit(ps[i]) then i else RunEnd(ps, i + 1)
  }

  /**
   * The backward search for the origin: the label of the latest ping before
   * `i` that is in a geofence, or "DESCONOCIDO".
   */
  function LabelBefore(ps: seq<Ping>, i: nat): (r: string)
    requires i <= |ps|
    ensures (exists k :: 0 <= k < i && !InTransit(ps[k]) && r == ps[k].geofence
                         && forall m :: k < m < i ==> InTransit(ps[m]))
            || (r == Desconocido && forall m :: 0 <= m < i ==> InTransit(ps[m]))
  {
    if i == 0 then Desconocido
    else if !InTransit(ps[i - 1]) then ps[i - 1].geofence
    else LabelBefore(ps, i - 1)
  }

  /**
   * The forward search for the destination: the label of the first ping from
   * `j` on that is in a geofence, or "DESCONOCIDO".
   */
  function LabelFrom(ps: seq<Ping>, j: nat): (r: string)
    requires j <= |ps|
    ensures (exists k :: j <= k < |ps| && !InTransit(ps[k]) && r == ps[k].geofence
                         && forall m :: j <= m < k ==> InTransit(ps[m]))
            || (r == Desconocido && forall m :: j <= m < |ps| ==> InTransit(ps[m]))
    decreases |ps| - j
  {
    if j == |ps| then Desconocido
    else if !InTransit(ps[j]) then ps[j].geofence
    else LabelFrom(ps, j + 1)
  }

  /** The run `ps[i..j]` is long enough, in pings and in seconds, to count. */
  predicate Qualifies(ps: seq<Ping>, i: nat, j: nat)
    requires i < j <= |ps|
  {
    j - i >= MinTransitPings && ps[j - 1].time - ps[i].time >= MinTransitS
  }

  /** The trip of the run `ps[i..j]`. */
  function GapOf(vehicle: string, ps: seq<Ping>, i: nat, j: nat): TransitGap
    requires i < j <= |ps|
  {
    TransitGap(vehicle, LabelBefore(ps, i), LabelFrom(ps, j), ps[i].time, ps[j - 1].time,
               ps[j - 1].time - ps[i].time, TurnoConFecha(ps[i].time))
  }

  /** The trips of the runs that start at index `i` or later. */
  function GapsFrom(vehicle: string, ps: seq<Ping>, i: nat): seq<TransitGap>
    requires i <= |ps|
    decreases |ps| - i
  {
    if i == |ps| then []
    else if !InTransit(ps[i]) then GapsFrom(vehicle, ps, i + 1)
    else
      var j := RunEnd(ps, i);
      (if Qualifies(ps, i, j) then [GapOf(vehicle, ps, i, j)] else []) + GapsFrom(vehicle, ps, j)
  }

  /** `extraer_tiempos_viaje` for one vehicle's pings in time order. */
  function TransitGaps(vehicle: string, ps: seq<Ping>): seq<TransitGap>
  {
    GapsFrom(vehicle, ps, 0)
  }

  /** `ps[i..j]` is a maximal run of pings in no geofence. */
  predicate MaximalRun(ps: seq<Ping>, i: nat, j: nat)
  {
    && i < j <= |ps|
    && (forall k :: i <= k < j ==> InTransit(ps[k]))
    && (i == 0 || !InTransit(ps[i - 1]))
    && (j == |ps| || !InTransit(ps[j]))
  }

  /** A maximal run starting at `i` ends where the search from `i` stops. */
  lemma MaximalRunEnd(ps: seq<Ping>, i: nat, j: nat)
    requires MaximalRun(ps, i, j)
    ensures j == RunEnd(ps, i)
  {
  }

  /** `x` is the trip of a qualifying maximal run starting at `i` or later. */
  ghost predicate TripFrom(vehicle: string, ps: seq<Ping>, i: nat, x: TransitGap)
  {
    exists a, b :: i <= a && MaximalRun(ps, a, b) && Qualifies(ps, a, b) && x == GapOf(vehicle, ps, a, b)
  }

  /** No run starts at a ping that is in a geofence. */
  lemma TripFromSkips(vehicle: string, ps: seq<Ping>, i: nat, x: TransitGap)
    requires i < |ps| && !InTransit(ps[i])
    ensures TripFrom(vehicle, ps, i, x) <==> TripFrom(vehicle, ps, i + 1, x)
  {
    if TripFrom(vehicle, ps, i, x) {
      var a, b :| i <= a && MaximalRun(ps, a, b) && Qualifies(ps, a, b) && x == GapOf(vehicle, ps, a, b);
      assert a != i;
    }
  }

  /** The runs starting inside the run at `i` are that run alone. */
  lemma TripFromRun(vehicle: string, ps: seq<Ping>, i: nat, x: TransitGap)
    requires i < |ps| && InTransit(ps[i]) && (i == 0 || !InTransit(ps[i - 1]))
    ensures var j := RunEnd(ps, i);
      TripFrom(vehicle, ps, i, x) <==>
        (Qualifies(ps, i, j) && x == GapOf(vehicle, ps, i, j)) || TripFrom(vehicle, ps, j, x)
  {
    var j := RunEnd(ps, i);
    assert MaximalRun(ps, i, j);
    if TripFrom(vehicle, ps, i, x) {
      var a, b :| i <= a && MaximalRun(ps, a, b) && Qualifies(ps, a, b) && x == GapOf(vehicle, ps, a, b);
      if a == i {
        MaximalRunEnd(ps, a, b);
      }
    }
  }

  /** The trips from the start of a run: that run's trip, if it counts, then those after it. */
  lemma GapsFromRun(vehicle: string, ps: seq<Ping>, i: nat, x: TransitGap)
    requires i < |ps| && InTransit(ps[i])
    ensures var j := RunEnd(ps, i);
      x in GapsFrom(vehicle, ps, i) <==>
        (Qualifies(ps, i, j) && x == GapOf(vehicle, ps, i, j)) || x in GapsFrom(vehicle, ps, j)
    ensures RunEnd(ps, i) < |ps| ==> GapsFrom(vehicle, ps, RunEnd(ps, i)) == GapsFrom(vehicle, ps, RunEnd(ps, i) + 1)
    ensures var j := RunEnd(ps, i);
      GapsFrom(vehicle, ps, i) == (if Qualifies(ps, i, j) then [GapOf(vehicle, ps, i, j)] else []) + GapsFrom(vehicle, ps, j)
  {
  }

  /**
   * From a start that is not inside a run, the trips produced are exactly
   * those of the qualifying maximal runs that start there or later.
   */
  lemma {:induction false} GapsFromSpec(vehicle: string, ps: seq<Ping>, i: nat, x: TransitGap)
    requires i <= |ps|
    requires i == 0 || !InTransit(ps[i - 1])
    ensures x in GapsFrom(vehicle, ps, i) <==> TripFrom(vehicle, ps, i, x)
    decreases |ps| - i
  {
    if i < |ps| {
      if !InTransit(ps[i]) {
        GapsFromSpec(vehicle, ps, i + 1, x);
        GapsFromSkipStep(vehicle, ps, i, x);
      } else {
        var j := RunEnd(ps, i);
        if j < |ps| {
          GapsFromSpec(vehicle, ps, j + 1, x);
          GapsFromSkipStep(vehicle, ps, j, x);
        } else {
          NoTripFromTheEnd(vehicle, ps, x);
        }
        GapsFromRunStep(vehicle, ps, i, x);
      }
    } else {
      NoTripFromTheEnd(vehicle, ps, x);
    }
  }

  /** Past a ping in a geofence, the trips and the runs from there agree if they agree from the next ping. */
  lemma GapsFromSkipStep(vehicle: string, ps: seq<Ping>, i: nat, x: TransitGap)
    requires i < |ps| && !InTransit(ps[i])
    requires (x in GapsFrom(vehicle, ps, i + 1)) == TripFrom(vehicle, ps, i + 1, x)
    ensures (x in GapsFrom(vehicle, ps, i)) == TripFrom(vehicle, ps, i, x)
  {
    TripFromSkips(vehicle, ps, i, x);
    assert GapsFrom(vehicle, ps, i) == GapsFrom(vehicle, ps, i + 1);
  }

  /** From the start of a run, the trips and the runs agree if they agree from the run's end. */
  lemma GapsFromRunStep(vehicle: string, ps: seq<Ping>, i: nat, x: TransitGap)
    requires i < |ps| && InTransit(ps[i]) && (i == 0 || !InTransit(ps[i - 1]))
    requires (x in GapsFrom(vehicle, ps, RunEnd(ps, i))) == TripFrom(vehicle, ps, RunEnd(ps, i), x)
    ensures (x in GapsFrom(vehicle, ps, i)) == TripFrom(vehicle, ps, i, x)
  {
    GapsFromRun(vehicle, ps, i, x);
    TripFromRun(vehicle, ps, i, x);
  }

  lemma NoTripFromTheEnd(vehicle: string, ps: seq<Ping>, x: TransitGap)
    ensures GapsFrom(vehicle, ps, |ps|) == [] && !TripFrom(vehicle, ps, |ps|, x)
  {
  }

  /**
   * A vehicle's trips are exactly the maximal runs of pings in no geofence
   * with at least two pings lasting at least 30 s, each reported from its
   * first to its last ping.
   */
  lemma TransitGapsSpec(vehicle: string, ps: seq<Ping>, x: TransitGap)
    ensures x in TransitGaps(vehicle, ps) <==>
              exists a, b :: MaximalRun(ps, a, b) && Qualifies(ps, a, b) && x == GapOf(vehicle, ps, a, b)
  {
    GapsFromSpec(vehicle, ps, 0, x);
  }

  /**
   * The origin of the trip of a maximal run is the label of the ping just
   * before it and its destination the label of the ping just after it, or
   * "DESCONOCIDO" at either end of the data; its duration is at least 30 s.
   */
  lemma GapEndpoints(vehicle: string, ps: seq<Ping>, a: nat, b: nat)
    requires MaximalRun(ps, a, b) && Qualifies(ps, a, b)
    ensures GapOf(vehicle, ps, a, b).origin == if a == 0 then Desconocido else ps[a - 1].geofence
    ensures GapOf(vehicle, ps, a, b).destination == if b == |ps| then Desconocido else ps[b].geofence
    ensures GapOf(vehicle, ps, a, b).duration >= MinTransitS
    ensures GapOf(vehicle, ps, a, b).duration == GapOf(vehicle, ps, a, b).end - GapOf(vehicle, ps, a, b).start
    ensures GapOf(vehicle, ps, a, b).tag == TurnoConFecha(GapOf(vehicle, ps, a, b).start)
  {
  }

  /** Trips that start no earlier than `lo`, each in order, one after the other. */
  predicate Chronological(gs: seq<TransitGap>, lo: int)
  {
    && (forall k :: 0 <= k < |gs| ==> lo <= gs[k].start <= gs[k].end)
    && (forall k, l :: 0 <= k < l < |gs| ==> gs[k].end <= gs[l].start)
  }

  lemma ChronologicalCons(x: TransitGap, rest: seq<TransitGap>, lo: int)
    requires lo <= x.start <= x.end && Chronological(rest, x.end)
    ensures Chronological([x] + rest, lo)
  {
    var gs := [x] + rest;
    forall k, l | 0 <= k < l < |gs| ensures gs[k].end <= gs[l].start {
      if k > 0 {
        assert gs[k] == rest[k - 1] && gs[l] == rest[l - 1];
      } else {
        assert gs[l] == rest[l - 1];
      }
    }
  }

  /** On pings in time order the trips come in time order and do not overlap. */
  lemma {:induction false} GapsFromOrdered(vehicle: string, ps: seq<Ping>, i: nat, lo: int)
    requires i <= |ps|
    requires forall k, l :: 0 <= k < l < |ps| ==> ps[k].time <= ps[l].time
    requires i < |ps| ==> lo <= ps[i].time
    ensures Chronological(GapsFrom(vehicle, ps, i), lo)
    decreases |ps| - i
  {
    if i < |ps| {
      if !InTransit(ps[i]) {
        if i + 1 < |ps| {
          assert ps[i].time <= ps[i + 1].time;
        }
        GapsFromOrdered(vehicle, ps, i + 1, lo);
      } else {
        var j := RunEnd(ps, i);
        var rest := GapsFrom(vehicle, ps, j);
        GapsFromRun(vehicle, ps, i, GapOf(vehicle, ps, i, i + 1));
        if Qualifies(ps, i, j) {
          var x := GapOf(vehicle, ps, i, j);
          if j < |ps| {
            assert ps[j - 1].time <= ps[j].time;
          }
          GapsFromOrdered(vehicle, ps, j, x.end);
          assert ps[i].time <= ps[j - 1].time;
          ChronologicalCons(x, rest, lo);
        } else {
          assert GapsFrom(vehicle, ps, i) == [] + rest;
          if j < |ps| {
            assert ps[i].time <= ps[j].time;
          }
          GapsFromOrdered(vehicle, ps, j, lo);
        }
      }
    }
  }

  /** On pings in time order a vehicle's trips come in time order and do not overlap. */
  lemma TransitGapsOrdered(vehicle: string, ps: seq<Ping>)
    requires forall k, l :: 0 <= k < l < |ps| ==> ps[k].time <= ps[l].time
    ensures forall k :: 0 <= k < |TransitGaps(vehicle, ps)| ==>
              TransitGaps(vehicle, ps)[k].start <= TransitGaps(vehicle, ps)[k].end
    ensures forall k, l :: 0 <= k < l < |TransitGaps(vehicle, ps)| ==>
              TransitGaps(vehicle, ps)[k].end <= TransitGaps(vehicle, ps)[l].start
  {
    if |ps| > 0 {
      GapsFromOrdered(vehicle, ps, 0, ps[0].time);
    }
  }
}

=== FILE: metrics.dfy ===
/**
 * Aggregate metrics of the older dashboards (`construir_metricas` in app3,
 * app4 and app5): the number of transitions of each process per clock hour,
 * the active hours of each vehicle per calendar day, and in app5 the share
 * of those hours spent on loading trips.
 *
 * app3 and app5 label the raw transitions with the stateless rule before
 * counting; app4 counts the `Proceso` its rows already carry. Durations are
 * whole seconds and hours are their exact quotients by 3600.
 */
module Metrics {

  import opened Basics
  import opened Shifts
  import opened Transitions
  import opened Classify
  import opened Text
  import opened Taxonomy

  const SecondsPerHour: int := 3600

  /** `dt.floor("h")`: the start of the clock hour holding `t`. */
  function HourOf(t: int): (r: int)
    ensures r % SecondsPerHour == 0 && r <= t < r + SecondsPerHour
  {
    t - t % SecondsPerHour
  }

  // ---------------------------------------------------------------------
  // Tallies by key: the `groupby(...).sum()` / `.size()` behind every table
  // ---------------------------------------------------------------------

  /** The sum of `w` over the elements whose key is `k`. */
  function Tally<T, K(==)>(xs: seq<T>, key: T -> K, k: K, w: T -> int): int
  {
    if |xs| == 0 then 0
    else
      var n := |xs| - 1;
      Tally(xs[..n], key, k, w) + (if key(xs[n]) == k then w(xs[n]) else 0)
  }

  /** The sum of `w` over all the elements. */
  function Total<T>(xs: seq<T>, w: T -> int): int
  {
    if |xs| == 0 then 0 else Total(xs[..|xs| - 1], w) + w(xs[|xs| - 1])
  }

  /** The tallies of the keys `ks`, added up. */
  function TallyOver<T, K(==)>(xs: seq<T>, key: T -> K, ks: seq<K>, w: T -> int): int
  {
    if |ks| == 0 then 0 else Tally(xs, key, ks[0], w) + TallyOver(xs, key, ks[1..], w)
  }

  /** `v` once for every occurrence of `k` in `ks`. */
  function Hits<K(==)>(k: K, ks: seq<K>, v: int): int
  {
    if |ks| == 0 then 0 else (if ks[0] == k then v else 0) + Hits(k, ks[1..], v)
  }

  predicate Distinct<K(==)>(ks: seq<K>)
  {
    forall i, j :: 0 <= i < j < |ks| ==> ks[i] != ks[j]
  }

  lemma {:induction false} HitsOfDistinct<K>(k: K, ks: seq<K>, v: int)
    requires Distinct(ks)
    ensures Hits(k, ks, v) == if k in ks then v else 0
  {
    if |ks| > 0 {
      assert forall i :: 0 <= i < |ks| - 1 ==> ks[1..][i] == ks[i + 1];
      HitsOfDistinct(k, ks[1..], v);
      assert k in ks <==> k == ks[0] || k in ks[1..];
    }
  }

  lemma {:induction false} TallyOverEmpty<T, K>(xs: seq<T>, key: T -> K, ks: seq<K>, w: T -> int)
    requires |xs| == 0
    ensures TallyOver(xs, key, ks, w) == 0
  {
    if |ks| > 0 {
      TallyOverEmpty(xs, key, ks[1..], w);
    }
  }

  lemma {:induction false} TallyOverSnoc<T, K>(xs: seq<T>, x: T, key: T -> K, ks: seq<K>, w: T -> int)
    ensures TallyOver(xs + [x], key, ks, w) == TallyOver(xs, key, ks, w) + Hits(key(x), ks, w(x))
  {
    if |ks| > 0 {
      TallyOverSnoc(xs, x, key, ks[1..], w);
      assert (xs + [x])[..|xs|] == xs;
    }
  }

  /**
   * Grouping by a key loses nothing: over distinct keys that cover every
   * element, the group sums add up to the sum of the whole table.
   */
  lemma {:induction false} TallyOverAll<T, K>(xs: seq<T>, key: T -> K, ks: seq<K>, w: T -> int)
    requires Distinct(ks)
    requires forall i :: 0 <= i < |xs| ==> key(xs[i]) in ks
    ensures TallyOver(xs, key, ks, w) == Total(xs, w)
  {
    if |xs| == 0 {
      TallyOverEmpty(xs, key, ks, w);
    } else {
      var n := |xs| - 1;
      TallyOverAll(xs[..n], key, ks, w);
      assert xs == xs[..n] + [xs[n]];
      TallyOverSnoc(xs[..n], xs[n], key, ks, w);
      HitsOfDistinct(key(xs[n]), ks, w(xs[n]));
    }
  }

  /** A tally of non-negative weights is non-negative and below any tally of larger weights. */
  lemma {:induction false} TallyBetween<T, K>(xs: seq<T>, key: T -> K, k: K, lo: T -> int, hi: T -> int)
    requires forall i :: 0 <= i < |xs| ==> 0 <= lo(xs[i]) <= hi(xs[i])
    ensures 0 <= Tally(xs, key, k, lo) <= Tally(xs, key, k, hi)
  {
    if |xs| > 0 {
      TallyBetween(xs[..|xs| - 1], key, k, lo, hi);
    }
  }

  // ---------------------------------------------------------------------
  // Transitions per hour and process (`viajes_h`)
  // ---------------------------------------------------------------------

  function HourOfTrip(c: Classified): int { HourOf(c.t.entry) }

  function HourAndProcess(c: Classified): (int, Process) { (HourOf(c.t.entry), c.process) }

  function One(c: Classified): int { 1 }

  /** The number of transitions of process `p` entered in the hour `h`. */
  function CountIn(trips: seq<Classified>, h: int, p: Process): int
  {
    Tally(trips, HourAndProcess, (h, p), One)
  }

  predicate Increasing(hs: seq<int>)
  {
    forall i, j :: 0 <= i < j < |hs| ==> hs[i] < hs[j]
  }

  function InsertHour(h: int, hs: seq<int>): (r: seq<int>)
    requires Increasing(hs)
    ensures Increasing(r)
    ensures forall x :: x in r <==> x == h || x in hs
  {
    if |hs| == 0 then [h]
    else if h < hs[0] then [h] + hs
    else if h == hs[0] then hs
    else
      var rest := InsertHour(h, hs[1..]);
      assert forall x :: x in hs <==> x == hs[0] || x in hs[1..];
      assert forall j :: 0 <= j < |rest| ==> hs[0] < rest[j] by {
        forall j | 0 <= j < |rest| ensures hs[0] < rest[j] {
          assert rest[j] in rest;
          if rest[j] != h {
            var m :| 0 <= m < |hs| - 1 && hs[1..][m] == rest[j];
            assert hs[1..][m] == hs[m + 1];
          }
        }
      }
      [hs[0]] + rest
  }

  /** The hours that hold a transition, earliest first (the grouped index). */
  function HoursSeen(trips: seq<Classified>): (r: seq<int>)
    ensures Increasing(r)
    ensures forall h :: h in r <==> exists i :: 0 <= i < |trips| && HourOfTrip(trips[i]) == h
  {
    if |trips| == 0 then []
    else
      var n := |trips| - 1;
      assert forall i :: 0 <= i < n ==> trips[..n][i] == trips[i];
      InsertHour(HourOfTrip(trips[n]), HoursSeen(trips[..n]))
  }

  /** One row of `viajes_h`: an hour and the count in each process column. */
  datatype HourRow = HourRow(hour: int, counts: map<Process, int>)

  /** The four columns the table is reindexed to in app4 and app5. */
  const Columns: set<Process> := {Carga, Retorno, Descarga, Otro}

  /** The processes that occur at all: the columns `unstack` produces in app3. */
  function Present(trips: seq<Classified>): set<Process>
  {
    set i | 0 <= i < |trips| :: trips[i].process
  }

  function RowOf(trips: seq<Classified>, h: int, columns: set<Process>): HourRow
  {
    HourRow(h, map p | p in columns :: CountIn(trips, h, p))
  }

  function RowsOf(trips: seq<Classified>, hs: seq<int>, columns: set<Process>): (r: seq<HourRow>)
    ensures |r| == |hs|
    ensures forall k :: 0 <= k < |hs| ==> r[k] == RowOf(trips, hs[k], columns)
  {
    if |hs| == 0 then [] else [RowOf(trips, hs[0], columns)] + RowsOf(trips, hs[1..], columns)
  }

  /** `viajes_h` with the given process columns. */
  function HourlyTable(trips: seq<Classified>, columns: set<Process>): seq<HourRow>
  {
    RowsOf(trips, HoursSeen(trips), columns)
  }

  /** app4 and app5: reindexed to all four processes, missing counts 0. */
  function HourlyReindexed(trips: seq<Classified>): seq<HourRow>
  {
    HourlyTable(trips, Columns)
  }

  /** app3: only the processes that occur become columns. */
  function HourlyUnstacked(trips: seq<Classified>): seq<HourRow>
  {
    HourlyTable(trips, Present(trips))
  }

  /**
   * The table has one row for each hour that holds a transition (the hours
   * of `HoursSeen`), earliest first, and every row has exactly the requested
   * columns.
   */
  lemma HourlyTableSpec(trips: seq<Classified>, columns: set<Process>)
    ensures |HourlyTable(trips, columns)| == |HoursSeen(trips)|
    ensures forall k :: 0 <= k < |HourlyTable(trips, columns)| ==>
              HourlyTable(trips, columns)[k].hour == HoursSeen(trips)[k]
              && HourlyTable(trips, columns)[k].counts.Keys == columns
    ensures forall i, j :: 0 <= i < j < |HourlyTable(trips, columns)| ==>
              HourlyTable(trips, columns)[i].hour < HourlyTable(trips, columns)[j].hour
  {
    RowsAreHours(trips, HoursSeen(trips), columns);
  }

  lemma RowsAreHours(trips: seq<Classified>, hs: seq<int>, columns: set<Process>)
    requires Increasing(hs)
    ensures var t := RowsOf(trips, hs, columns);
      && (forall i, j :: 0 <= i < j < |t| ==> t[i].hour < t[j].hour)
      && (forall k :: 0 <= k < |t| ==> t[k].hour == hs[k] && t[k].counts.Keys == columns)
  {
  }

  /** A process that never occurs counts zero in every hour. */
  lemma {:induction false} AbsentProcessCountsZero(trips: seq<Classified>, h: int, p: Process)
    requires p !in Present(trips)
    ensures CountIn(trips, h, p) == 0
  {
    if |trips| > 0 {
      var n := |trips| - 1;
      assert Present(trips[..n]) <= Present(trips) by {
        forall q | q in Present(trips[..n]) ensures q in Present(trips) {
          var i :| 0 <= i < n && trips[..n][i].process == q;
          assert trips[i] == trips[..n][i];
        }
      }
      AbsentProcessCountsZero(trips[..n], h, p);
      assert trips[n].process in Present(trips);
    }
  }

  /**
   * app3 and app4/app5 tabulate the same hours with the same counts; app3
   * lacks the columns of the processes that never occur, which app4 and app5
   * fill with zero.
   */
  lemma UnstackedAgreesWithReindexed(trips: seq<Classified>)
    ensures |HourlyUnstacked(trips)| == |HourlyReindexed(trips)|
    ensures forall k, p :: 0 <= k < |HourlyUnstacked(trips)| && p in Present(trips) ==>
              && HourlyUnstacked(trips)[k].hour == HourlyReindexed(trips)[k].hour
              && p in HourlyUnstacked(trips)[k].counts && p in HourlyReindexed(trips)[k].counts
              && HourlyUnstacked(trips)[k].counts[p] == HourlyReindexed(trips)[k].counts[p]
    ensures forall k, p :: 0 <= k < |HourlyReindexed(trips)| && p !in Present(trips) ==>
              && p !in HourlyUnstacked(trips)[k].counts
              && p in HourlyReindexed(trips)[k].counts && HourlyReindexed(trips)[k].counts[p] == 0
  {
    var hs := HoursSeen(trips);
    forall k, p | 0 <= k < |hs| && p !in Present(trips)
      ensures p !in HourlyUnstacked(trips)[k].counts && p in HourlyReindexed(trips)[k].counts
              && HourlyReindexed(trips)[k].counts[p] == 0
    {
      AbsentProcessCountsZero(trips, hs[k], p);
      EveryProcessIsAColumn(p);
    }
    forall k, p | 0 <= k < |hs| && p in Present(trips)
      ensures p in HourlyReindexed(trips)[k].counts
    {
      EveryProcessIsAColumn(p);
    }
  }

  lemma EveryProcessIsAColumn(p: Process)
    ensures p in Columns
  {
    match p
    case Carga =>
    case Retorno =>
    case Descarga =>
    case Otro =>
  }

  /** The four process counts of an hour add up to the transitions of that hour. */
  lemma {:induction false} ProcessesPartitionAnHour(trips: seq<Classified>, h: int)
    ensures CountIn(trips, h, Carga) + CountIn(trips, h, Retorno) + CountIn(trips, h, Descarga) + CountIn(trips, h, Otro)
            == Tally(trips, HourOfTrip, h, One)
  {
    if |trips| > 0 {
      var n := |trips| - 1;
      ProcessesPartitionAnHour(trips[..n], h);
      var c := trips[n];
      assert HourAndProcess(c) == (HourOfTrip(c), c.process);
      match c.process
      case Carga =>
      case Retorno =>
      case Descarga =>
      case Otro =>
    }
  }

  /** The total of a row over the four columns. */
  function RowTotal(r: HourRow): int
  {
    (if Carga in r.counts then r.counts[Carga] else 0)
    + (if Retorno in r.counts then r.counts[Retorno] else 0)
    + (if Descarga in r.counts then r.counts[Descarga] else 0)
    + (if Otro in r.counts then r.counts[Otro] else 0)
  }

  function TableTotal(rows: seq<HourRow>): int
  {
    if |rows| == 0 then 0 else RowTotal(rows[0]) + TableTotal(rows[1..])
  }

  lemma {:induction false} RowsTotal(trips: seq<Classified>, hs: seq<int>)
    ensures TableTotal(RowsOf(trips, hs, Columns)) == TallyOver(trips, HourOfTrip, hs, One)
  {
    if |hs| > 0 {
      RowsTotal(trips, hs[1..]);
      ProcessesPartitionAnHour(trips, hs[0]);
      assert RowsOf(trips, hs, Columns)[1..] == RowsOf(trips, hs[1..], Columns);
    }
  }

  lemma {:induction false} TotalOfOnes(trips: seq<Classified>)
    ensures Total(trips, One) == |trips|
  {
    if |trips| > 0 {
      TotalOfOnes(trips[..|trips| - 1]);
    }
  }

  /** Every transition is counted exactly once in the reindexed hourly table. */
  lemma HourlyCountsEveryTransition(trips: seq<Classified>)
    ensures TableTotal(HourlyReindexed(trips)) == |trips|
  {
    var hs := HoursSeen(trips);
    RowsTotal(trips, hs);
    forall i | 0 <= i < |trips| ensures HourOfTrip(trips[i]) in hs {
    }
    TallyOverAll(trips, HourOfTrip, hs, One);
    TotalOfOnes(trips);
  }

  // ---------------------------------------------------------------------
  // Active hours and productivity per day and vehicle
  // ---------------------------------------------------------------------

  /** The (`Fecha`, `Nombre del Vehículo`) group of a transition. */
  datatype DayKey = DayKey(date: int, vehicle: string)

  function DayOf(c: Classified): DayKey { DayKey(DateOf(c.t.entry), c.t.vehicle) }

  /**
   * The order of the grouped index on (`Fecha`, `Nombre del Vehículo`):
   * by date, then by vehicle name as Python compares strings.
   */
  predicate DayBefore(a: DayKey, b: DayKey)
  {
    a.date < b.date || (a.date == b.date && a.vehicle != b.vehicle && LexLeq(a.vehicle, b.vehicle))
  }

  lemma DayBeforeTransitive(a: DayKey, b: DayKey, c: DayKey)
    requires DayBefore(a, b) && DayBefore(b, c)
    ensures DayBefore(a, c)
  {
    if a.date == b.date == c.date {
      LexLeqTransitive(a.vehicle, b.vehicle, c.vehicle);
      if a.vehicle == c.vehicle {
        LexLeqAntisymmetric(a.vehicle, b.vehicle);
      }
    }
  }

  lemma DayBeforeTotal(a: DayKey, b: DayKey)
    ensures a == b || DayBefore(a, b) || DayBefore(b, a)
  {
    LexLeqTotal(a.vehicle, b.vehicle);
  }

  predicate DaysAscending(ks: seq<DayKey>)
  {
    forall i, j :: 0 <= i < j < |ks| ==> DayBefore(ks[i], ks[j])
  }

  function InsertDay(k: DayKey, ks: seq<DayKey>): (r: seq<DayKey>)
    requires DaysAscending(ks)
    ensures DaysAscending(r)
    ensures forall x :: x in r <==> x == k || x in ks
  {
    if |ks| == 0 then [k]
    else if k == ks[0] then ks
    else if DayBefore(k, ks[0]) then
      assert forall j :: 0 <= j < |ks| ==> DayBefore(k, ks[j]) by {
        forall j | 0 <= j < |ks| ensures DayBefore(k, ks[j]) {
          if j > 0 { DayBeforeTransitive(k, ks[0], ks[j]); }
        }
      }
      [k] + ks
    else
      DayBeforeTotal(k, ks[0]);
      var rest := InsertDay(k, ks[1..]);
      assert forall x :: x in ks <==> x == ks[0] || x in ks[1..];
      assert forall j :: 0 <= j < |rest| ==> DayBefore(ks[0], rest[j]) by {
        forall j | 0 <= j < |rest| ensures DayBefore(ks[0], rest[j]) {
          assert rest[j] in rest;
          if rest[j] != k {
            var m :| 0 <= m < |ks| - 1 && ks[1..][m] == rest[j];
            assert ks[1..][m] == ks[m + 1];
          }
        }
      }
      [ks[0]] + rest
  }

  /** The (date, vehicle) groups that hold a transition, in the grouped index's order. */
  function DaysSeen(trips: seq<Classified>): (r: seq<DayKey>)
    ensures DaysAscending(r)
    ensures forall k :: k in r <==> exists i :: 0 <= i < |trips| && DayOf(trips[i]) == k
  {
    if |trips| == 0 then []
    else
      var n := |trips| - 1;
      assert forall i :: 0 <= i < n ==> trips[..n][i] == trips[i];
      InsertDay(DayOf(trips[n]), DaysSeen(trips[..n]))
  }

  function Seconds(c: Classified): int { c.t.duration }

  /** The seconds of a loading transition; other transitions contribute none. */
  function LoadSeconds(c: Classified): int { if c.process == Carga then c.t.duration else 0 }

  function ToHours(s: int): real { s as real / SecondsPerHour as real }

  /** One row of `actividad`: a day, a vehicle and its hours in transitions. */
  datatype ActivityRow = ActivityRow(date: int, vehicle: string, hours: real)

  function ActivityOf(trips: seq<Classified>, k: DayKey): ActivityRow
  {
    ActivityRow(k.date, k.vehicle, ToHours(Tally(trips, DayOf, k, Seconds)))
  }

  function ActivityRows(trips: seq<Classified>, ks: seq<DayKey>): (r: seq<ActivityRow>)
    ensures |r| == |ks|
    ensures forall j :: 0 <= j < |ks| ==> r[j] == ActivityOf(trips, ks[j])
  {
    if |ks| == 0 then [] else [ActivityOf(trips, ks[0])] + ActivityRows(trips, ks[1..])
  }

  /** `actividad`: one row per day and vehicle that has a transition. */
  function Activity(trips: seq<Classified>): seq<ActivityRow>
  {
    ActivityRows(trips, DaysSeen(trips))
  }

  function ActivityHours(rows: seq<ActivityRow>): real
  {
    if |rows| == 0 then 0.0 else rows[0].hours + ActivityHours(rows[1..])
  }

  lemma {:induction false} ActivityRowsHours(trips: seq<Classified>, ks: seq<DayKey>)
    ensures ActivityHours(ActivityRows(trips, ks)) == ToHours(TallyOver(trips, DayOf, ks, Seconds))
  {
    if |ks| > 0 {
      ActivityRowsHours(trips, ks[1..]);
      assert ActivityRows(trips, ks)[1..] == ActivityRows(trips, ks[1..]);
    }
  }

  function RowDay(a: ActivityRow): DayKey { DayKey(a.date, a.vehicle) }

  lemma ActivityKeys(trips: seq<Classified>)
    ensures |Activity(trips)| == |DaysSeen(trips)|
    ensures forall j :: 0 <= j < |Activity(trips)| ==>
              RowDay(Activity(trips)[j]) == DaysSeen(trips)[j]
              && Activity(trips)[j].hours == ToHours(Tally(trips, DayOf, DaysSeen(trips)[j], Seconds))
  {
  }

  lemma AscendingDaysAreDistinct(ks: seq<DayKey>)
    requires DaysAscending(ks)
    ensures Distinct(ks)
  {
    forall i, j | 0 <= i < j < |ks| ensures ks[i] != ks[j] {
      assert DayBefore(ks[i], ks[j]);
    }
  }

  /**
   * `actividad` has one row per day and vehicle with a transition and no
   * other rows, sorted by date and then vehicle; each row holds the hours of
   * exactly the transitions of its day and vehicle, and together the rows
   * hold the hours of all the transitions.
   */
  lemma ActivitySpec(trips: seq<Classified>)
    ensures forall i :: 0 <= i < |trips| ==>
              exists j :: 0 <= j < |Activity(trips)| && RowDay(Activity(trips)[j]) == DayOf(trips[i])
    ensures forall j :: 0 <= j < |Activity(trips)| ==>
              exists i :: 0 <= i < |trips| && DayOf(trips[i]) == RowDay(Activity(trips)[j])
    ensures forall j :: 0 <= j < |Activity(trips)| ==>
              Activity(trips)[j].hours == ToHours(Tally(trips, DayOf, RowDay(Activity(trips)[j]), Seconds))
    ensures forall j, l :: 0 <= j < l < |Activity(trips)| ==>
              DayBefore(RowDay(Activity(trips)[j]), RowDay(Activity(trips)[l]))
    ensures ActivityHours(Activity(trips)) == ToHours(Total(trips, Seconds))
  {
    var ks := DaysSeen(trips);
    var rows := Activity(trips);
    ActivityKeys(trips);
    forall j, l | 0 <= j < l < |rows| ensures DayBefore(RowDay(rows[j]), RowDay(rows[l])) {
      assert DayBefore(ks[j], ks[l]);
    }
    ActivityCoversDays(trips, ks, rows);
    ActivityTotal(trips);
  }

  lemma ActivityCoversDays(trips: seq<Classified>, ks: seq<DayKey>, rows: seq<ActivityRow>)
    requires ks == DaysSeen(trips) && |rows| == |ks|
    requires forall j :: 0 <= j < |rows| ==> RowDay(rows[j]) == ks[j]
    ensures forall i :: 0 <= i < |trips| ==> exists j :: 0 <= j < |rows| && RowDay(rows[j]) == DayOf(trips[i])
    ensures forall j :: 0 <= j < |rows| ==> exists i :: 0 <= i < |trips| && DayOf(trips[i]) == RowDay(rows[j])
  {
    forall i | 0 <= i < |trips|
      ensures exists j :: 0 <= j < |rows| && RowDay(rows[j]) == DayOf(trips[i])
    {
      assert DayOf(trips[i]) in ks;
      var j :| 0 <= j < |ks| && ks[j] == DayOf(trips[i]);
      assert RowDay(rows[j]) == ks[j];
    }
    forall j | 0 <= j < |rows| ensures exists i :: 0 <= i < |trips| && DayOf(trips[i]) == RowDay(rows[j]) {
      assert ks[j] in ks;
    }
  }

  lemma ActivityTotal(trips: seq<Classified>)
    ensures ActivityHours(Activity(trips)) == ToHours(Total(trips, Seconds))
  {
    var ks := DaysSeen(trips);
    AscendingDaysAreDistinct(ks);
    ActivityRowsHours(trips, ks);
    TallyOverAll(trips, DayOf, ks, Seconds);
  }

  /** One row of app5's `productividad`. `pct` is None where pandas leaves NaN. */
  datatype ProdRow = ProdRow(date: int, vehicle: string, activeHours: real, loadHours: real, pct: Option<real>)

  /**
   * `Prod_pct`: loading hours over active hours, in percent. A zero
   * denominator is replaced by NaN before the division, and the later
   * replacement of infinities does not touch NaN, so the cell stays empty.
   */
  function ProductivityOf(trips: seq<Classified>, k: DayKey): ProdRow
  {
    var active := ToHours(Tally(trips, DayOf, k, Seconds));
    var load := ToHours(Tally(trips, DayOf, k, LoadSeconds));
    ProdRow(k.date, k.vehicle, active, load, if active == 0.0 then None else Some(load / active * 100.0))
  }

  function ProductivityRows(trips: seq<Classified>, ks: seq<DayKey>): (r: seq<ProdRow>)
    ensures |r| == |ks|
    ensures forall j :: 0 <= j < |ks| ==> r[j] == ProductivityOf(trips, ks[j])
  {
    if |ks| == 0 then [] else [ProductivityOf(trips, ks[0])] + ProductivityRows(trips, ks[1..])
  }

  /** `productividad`: one row per day and vehicle with a transition. */
  function Productivity(trips: seq<Classified>): seq<ProdRow>
  {
    ProductivityRows(trips, DaysSeen(trips))
  }

  lemma QuotientIsOne(load: real, active: real)
    requires active > 0.0
    ensures load / active == 1.0 <==> load == active
  {
  }

  lemma QuotientWithin(load: real, active: real)
    requires 0.0 <= load <= active && active > 0.0
    ensures 0.0 <= load / active <= 1.0
  {
  }

  lemma PercentOf(q: real)
    ensures q * 100.0 == 100.0 <==> q == 1.0
    ensures 0.0 <= q <= 1.0 ==> 0.0 <= q * 100.0 <= 100.0
  {
  }

  lemma RatioWithin(load: real, active: real)
    requires 0.0 <= load <= active && active > 0.0
    ensures 0.0 <= load / active * 100.0 <= 100.0
    ensures load / active * 100.0 == 100.0 <==> load == active
  {
    QuotientIsOne(load, active);
    QuotientWithin(load, active);
    PercentOf(load / active);
  }

  /**
   * With non-negative durations the loading hours are part of the active
   * hours, the share is missing exactly when there are no active hours, and
   * otherwise lies between 0 and 100 percent; it is 100 exactly when every
   * active second was spent loading.
   */
  lemma ProductivitySpec(trips: seq<Classified>, k: DayKey)
    requires forall i :: 0 <= i < |trips| ==> trips[i].t.duration >= 0
    ensures var r := ProductivityOf(trips, k);
      && 0.0 <= r.loadHours <= r.activeHours
      && (r.pct.None? <==> r.activeHours == 0.0)
      && (r.pct.Some? ==> 0.0 <= r.pct.value <= 100.0)
      && (r.pct.Some? ==> (r.pct.value == 100.0 <==> r.loadHours == r.activeHours))
  {
    var r := ProductivityOf(trips, k);
    TallyBetween(trips, DayOf, k, LoadSeconds, Seconds);
    if r.pct.Some? {
      RatioWithin(r.loadHours, r.activeHours);
    }
  }

  /** The productivity rows are the activity rows with the loading share added. */
  lemma ProductivityExtendsActivity(trips: seq<Classified>)
    ensures |Productivity(trips)| == |Activity(trips)|
    ensures forall j :: 0 <= j < |Activity(trips)| ==>
              var p := Productivity(trips)[j];
              var a := Activity(trips)[j];
              p.date == a.date && p.vehicle == a.vehicle && p.activeHours == a.hours
  {
  }

  // ---------------------------------------------------------------------
  // The three versions of `construir_metricas`
  // ---------------------------------------------------------------------

  /**
   * The number of transitions entered in hour `h` whose stateless label is
   * `p`: what `groupby(["Hora_cal", "Proceso"]).size()` counts after
   * `clasificar_proceso` has labelled every row.
   */
  function StatelessCount(tax: Taxonomy, ts: seq<Transition>, h: int, p: Process): int
  {
    if |ts| == 0 then 0
    else
      var n := |ts| - 1;
      StatelessCount(tax, ts[..n], h, p) + (if HourOf(ts[n].entry) == h && Stateless(tax, ts[n]) == p then 1 else 0)
  }

  /** The seconds of all the transitions. */
  function DurationTotal(ts: seq<Transition>): int
  {
    if |ts| == 0 then 0 else DurationTotal(ts[..|ts| - 1]) + ts[|ts| - 1].duration
  }

  lemma LabelStatelessPrefix(tax: Taxonomy, ts: seq<Transition>, n: nat)
    requires n <= |ts|
    ensures LabelStateless(tax, ts)[..n] == LabelStateless(tax, ts[..n])
  {
  }

  /** Counting the labelled rows counts the stateless labels of the raw transitions. */
  lemma {:induction false} CountInLabelled(tax: Taxonomy, ts: seq<Transition>, h: int, p: Process)
    ensures CountIn(LabelStateless(tax, ts), h, p) == StatelessCount(tax, ts, h, p)
  {
    if |ts| > 0 {
      var n := |ts| - 1;
      var trips := LabelStateless(tax, ts);
      CountInLabelled(tax, ts[..n], h, p);
      LabelStatelessPrefix(tax, ts, n);
      assert trips[..n] == LabelStateless(tax, ts[..n]);
      assert HourAndProcess(trips[n]) == (HourOf(ts[n].entry), Stateless(tax, ts[n]));
    }
  }

  lemma {:induction false} TotalLabelled(tax: Taxonomy, ts: seq<Transition>)
    ensures Total(LabelStateless(tax, ts), Seconds) == DurationTotal(ts)
  {
    if |ts| > 0 {
      var n := |ts| - 1;
      TotalLabelled(tax, ts[..n]);
      LabelStatelessPrefix(tax, ts, n);
    }
  }

  /** Every cell of an hourly table over the labelled rows is a stateless count. */
  lemma HourlyCellsAreStatelessCounts(tax: Taxonomy, ts: seq<Transition>, columns: set<Process>)
    ensures var t := HourlyTable(LabelStateless(tax, ts), columns);
      forall k, p :: 0 <= k < |t| && p in t[k].counts ==> t[k].counts[p] == StatelessCount(tax, ts, t[k].hour, p)
  {
    var trips := LabelStateless(tax, ts);
    var t := HourlyTable(trips, columns);
    HourlyTableSpec(trips, columns);
    forall k, p | 0 <= k < |t| && p in t[k].counts ensures t[k].counts[p] == StatelessCount(tax, ts, t[k].hour, p) {
      assert t[k] == RowOf(trips, HoursSeen(trips)[k], columns);
      CountInLabelled(tax, ts, t[k].hour, p);
    }
  }

  /** The (date, vehicle) group of a raw transition. */
  function TransitionDay(t: Transition): DayKey { DayKey(DateOf(t.entry), t.vehicle) }

  function ProdDay(r: ProdRow): DayKey { DayKey(r.date, r.vehicle) }

  /** The seconds of the transitions of day and vehicle `k`. */
  function DaySeconds(ts: seq<Transition>, k: DayKey): int
  {
    if |ts| == 0 then 0
    else
      var n := |ts| - 1;
      DaySeconds(ts[..n], k) + (if TransitionDay(ts[n]) == k then ts[n].duration else 0)
  }

  /** The seconds of the transitions of day and vehicle `k` that the stateless rule calls carga. */
  function DayLoadSeconds(tax: Taxonomy, ts: seq<Transition>, k: DayKey): int
  {
    if |ts| == 0 then 0
    else
      var n := |ts| - 1;
      DayLoadSeconds(tax, ts[..n], k) + (if TransitionDay(ts[n]) == k && Stateless(tax, ts[n]) == Carga then ts[n].duration else 0)
  }

  /**
   * What app5's `productividad` holds, stated over the raw transitions: one
   * row per day and vehicle with a transition and no other, ascending by
   * date then vehicle; each row's active hours are the hours of its
   * transitions, its loading hours those of its stateless carga
   * transitions, and its share is missing exactly when there are no active
   * hours, else loading over active in percent. With non-negative durations
   * the share lies between 0 and 100.
   */
  ghost predicate ProductivityDescribes(tax: Taxonomy, ts: seq<Transition>, rows: seq<ProdRow>)
  {
    && (forall i :: 0 <= i < |ts| ==> HasRowFor(rows, TransitionDay(ts[i])))
    && (forall j :: 0 <= j < |rows| ==> HasTransitionOn(ts, ProdDay(rows[j])))
    && (forall j, l :: 0 <= j < l < |rows| ==> DayBefore(ProdDay(rows[j]), ProdDay(rows[l])))
    && (forall j :: 0 <= j < |rows| ==> ProdRowOfDay(tax, ts, rows[j]))
    && ((forall i :: 0 <= i < |ts| ==> ts[i].duration >= 0) ==>
          forall j :: 0 <= j < |rows| ==> ProdRowBounded(rows[j]))
  }

  ghost predicate HasRowFor(rows: seq<ProdRow>, k: DayKey)
  {
    exists j :: 0 <= j < |rows| && ProdDay(rows[j]) == k
  }

  ghost predicate HasTransitionOn(ts: seq<Transition>, k: DayKey)
  {
    exists i :: 0 <= i < |ts| && TransitionDay(ts[i]) == k
  }

  /** A row's hours are those of its day's transitions, and its share is their quotient. */
  ghost predicate ProdRowOfDay(tax: Taxonomy, ts: seq<Transition>, row: ProdRow)
  {
    && row.activeHours == ToHours(DaySeconds(ts, ProdDay(row)))
    && row.loadHours == ToHours(DayLoadSeconds(tax, ts, ProdDay(row)))
    && row.pct == if row.activeHours == 0.0 then None else Some(row.loadHours / row.activeHours * 100.0)
  }

  /** Loading hours within active hours, and the share within 0 to 100 percent. */
  ghost predicate ProdRowBounded(row: ProdRow)
  {
    && 0.0 <= row.loadHours <= row.activeHours
    && (row.pct.Some? ==> 0.0 <= row.pct.value <= 100.0)
  }

  /** Summing the labelled rows of a day sums the raw transitions of that day. */
  lemma {:induction false} DayTalliesLabelled(tax: Taxonomy, ts: seq<Transition>, k: DayKey)
    ensures Tally(LabelStateless(tax, ts), DayOf, k, Seconds) == DaySeconds(ts, k)
    ensures Tally(LabelStateless(tax, ts), DayOf, k, LoadSeconds) == DayLoadSeconds(tax, ts, k)
  {
    if |ts| > 0 {
      var n := |ts| - 1;
      var trips := LabelStateless(tax, ts);
      DayTalliesLabelled(tax, ts[..n], k);
      LabelStatelessPrefix(tax, ts, n);
      assert trips[..n] == LabelStateless(tax, ts[..n]);
      assert DayOf(trips[n]) == TransitionDay(ts[n]);
    }
  }

  /** The productivity rows are keyed by exactly the days of the transitions, in ascending order. */
  lemma ProductivityDays(tax: Taxonomy, ts: seq<Transition>)
    ensures var rows := Productivity(LabelStateless(tax, ts));
      && (forall i :: 0 <= i < |ts| ==> HasRowFor(rows, TransitionDay(ts[i])))
      && (forall j :: 0 <= j < |rows| ==> HasTransitionOn(ts, ProdDay(rows[j])))
      && (forall j, l :: 0 <= j < l < |rows| ==> DayBefore(ProdDay(rows[j]), ProdDay(rows[l])))
  {
    var trips := LabelStateless(tax, ts);
    var rows := Productivity(trips);
    var ks := DaysSeen(trips);
    assert forall j :: 0 <= j < |rows| ==> ProdDay(rows[j]) == ks[j];
    forall i | 0 <= i < |ts| ensures HasRowFor(rows, TransitionDay(ts[i])) {
      assert DayOf(trips[i]) == TransitionDay(ts[i]);
      assert DayOf(trips[i]) in ks;
      var j :| 0 <= j < |ks| && ks[j] == DayOf(trips[i]);
      assert ProdDay(rows[j]) == TransitionDay(ts[i]);
    }
    forall j | 0 <= j < |rows| ensures HasTransitionOn(ts, ProdDay(rows[j])) {
      assert ks[j] in ks;
      var i :| 0 <= i < |trips| && DayOf(trips[i]) == ks[j];
      assert TransitionDay(ts[i]) == ProdDay(rows[j]);
    }
    forall j, l | 0 <= j < l < |rows| ensures DayBefore(ProdDay(rows[j]), ProdDay(rows[l])) {
      assert DayBefore(ks[j], ks[l]);
    }
  }

  /** Each productivity row holds the hours of its day's raw transitions. */
  lemma ProductivityRowsOfDay(tax: Taxonomy, ts: seq<Transition>)
    ensures var rows := Productivity(LabelStateless(tax, ts));
      forall j :: 0 <= j < |rows| ==> ProdRowOfDay(tax, ts, rows[j])
  {
    var trips := LabelStateless(tax, ts);
    var rows := Productivity(trips);
    forall j | 0 <= j < |rows| ensures ProdRowOfDay(tax, ts, rows[j]) {
      DayTalliesLabelled(tax, ts, ProdDay(rows[j]));
      assert rows[j] == ProductivityOf(trips, DaysSeen(trips)[j]);
    }
  }

  lemma ProductivityRowsBounded(tax: Taxonomy, ts: seq<Transition>)
    requires forall i :: 0 <= i < |ts| ==> ts[i].duration >= 0
    ensures var rows := Productivity(LabelStateless(tax, ts));
      forall j :: 0 <= j < |rows| ==> ProdRowBounded(rows[j])
  {
    var trips := LabelStateless(tax, ts);
    var rows := Productivity(trips);
    forall j | 0 <= j < |rows| ensures ProdRowBounded(rows[j]) {
      ProductivitySpec(trips, ProdDay(rows[j]));
      assert rows[j] == ProductivityOf(trips, DaysSeen(trips)[j]);
    }
  }

  lemma ProductivityOfTransitions(tax: Taxonomy, ts: seq<Transition>)
    ensures ProductivityDescribes(tax, ts, Productivity(LabelStateless(tax, ts)))
  {
    ProductivityDays(tax, ts);
    ProductivityRowsOfDay(tax, ts);
    if forall i :: 0 <= i < |ts| ==> ts[i].duration >= 0 {
      ProductivityRowsBounded(tax, ts);
    }
  }

  /** app5: the reindexed hourly table and the productivity table. */
  datatype MetricsApp5 = MetricsApp5(hourly: seq<HourRow>, productivity: seq<ProdRow>)

  /**
   * app5's `construir_metricas`: label every transition with the stateless
   * rule, then tabulate. Empty input gives empty tables; otherwise every
   * transition is counted once, every cell counts the transitions of its
   * hour with that stateless label, the four process columns are present,
   * and the productivity table is what `ProductivityDescribes` says.
   */
  function ConstruirMetricasApp5(tax: Taxonomy, ts: seq<Transition>): (r: MetricsApp5)
    ensures ts == [] ==> r.hourly == [] && r.productivity == []
    ensures TableTotal(r.hourly) == |ts|
    ensures forall k, p :: 0 <= k < |r.hourly| && p in r.hourly[k].counts ==>
              r.hourly[k].counts[p] == StatelessCount(tax, ts, r.hourly[k].hour, p)
    ensures forall k :: 0 <= k < |r.hourly| ==> r.hourly[k].counts.Keys == Columns
    ensures ProductivityDescribes(tax, ts, r.productivity)
  {
    var trips := LabelStateless(tax, ts);
    ProductivityOfTransitions(tax, ts);
    HourlyCountsEveryTransition(trips);
    HourlyCellsAreStatelessCounts(tax, ts, Columns);
    HourlyTableSpec(trips, Columns);
    if |ts| == 0 then MetricsApp5([], [])
    else MetricsApp5(HourlyReindexed(trips), Productivity(trips))
  }

  /** app3: the hourly table, the cycles passed through untouched, and the activity table. */
  datatype MetricsApp3<C> = MetricsApp3(hourly: seq<HourRow>, cycles: seq<C>, activity: seq<ActivityRow>)

  /**
   * app3's `construir_metricas`: label with the stateless rule, then
   * tabulate. The cycles pass through; every cell counts the transitions of
   * its hour with that stateless label; the activity hours add up to the
   * hours of all the transitions.
   */
  function ConstruirMetricasApp3<C>(tax: Taxonomy, ts: seq<Transition>, cycles: seq<C>): (r: MetricsApp3<C>)
    ensures r.cycles == cycles
    ensures ts == [] ==> r.hourly == [] && r.activity == []
    ensures forall k, p :: 0 <= k < |r.hourly| && p in r.hourly[k].counts ==>
              r.hourly[k].counts[p] == StatelessCount(tax, ts, r.hourly[k].hour, p)
    ensures ActivityHours(r.activity) == ToHours(DurationTotal(ts))
  {
    var trips := LabelStateless(tax, ts);
    ActivitySpec(trips);
    TotalLabelled(tax, ts);
    HourlyCellsAreStatelessCounts(tax, ts, Present(trips));
    if |ts| == 0 then MetricsApp3([], cycles, [])
    else MetricsApp3(HourlyUnstacked(trips), cycles, Activity(trips))
  }

  /** What app4's `construir_metricas` returns: three tables on empty input, two otherwise. */
  datatype App4Result =
    | Three(first: seq<HourRow>, second: seq<ActivityRow>, third: seq<ActivityRow>)
    | Two(hourly: seq<HourRow>, activity: seq<ActivityRow>)

  /** app4's `construir_metricas` as written. */
  function ConstruirMetricasApp4AsWritten(trips: seq<Classified>): App4Result
  {
    if |trips| == 0 then Three([], [], []) else Two(HourlyReindexed(trips), Activity(trips))
  }

  /**
   * The result's arity depends on the input: the empty table yields three
   * values, so a caller that unpacks the usual two fails on it.
   */
  lemma App4ArityMismatch(trips: seq<Classified>)
    ensures ConstruirMetricasApp4AsWritten(trips).Three? <==> trips == []
    ensures ConstruirMetricasApp4AsWritten(trips).Two? <==> trips != []
  {
  }

  /** app4's `construir_metricas` as intended: always the hourly and the activity table. */
  datatype MetricsApp4 = MetricsApp4(hourly: seq<HourRow>, activity: seq<ActivityRow>)

  function ConstruirMetricasApp4(trips: seq<Classified>): (r: MetricsApp4)
    ensures trips == [] ==> r.hourly == [] && r.activity == []
    ensures TableTotal(r.hourly) == |trips|
    ensures ActivityHours(r.activity) == ToHours(Total(trips, Seconds))
  {
    HourlyCountsEveryTransition(trips);
    ActivitySpec(trips);
    MetricsApp4(HourlyReindexed(trips), Activity(trips))
  }

  /** On non-empty input the intended result is what the code returns. */
  lemma App4AgreesOnNonEmptyInput(trips: seq<Classified>)
    requires trips != []
    ensures ConstruirMetricasApp4AsWritten(trips)
            == Two(ConstruirMetricasApp4(trips).hourly, ConstruirMetricasApp4(trips).activity)
  {
  }
}

=== FILE: port.dfy ===
/**
 * The port view of app7tport.py: which of the port-area geofences the data
 * mentions (`poblar_dominios`), the trip labels of the port classifier
 * (`clasificar_proceso_con_secuencia`) and the folding of internal stays
 * into the trip before them (`consolidar_estadias_internas`).
 *
 * The consolidation is modelled twice: `AsWritten` follows the source, which
 * uses the index of the earlier trip in the INPUT group to address the OUTPUT
 * list; `Corrected` addresses the output row of that trip. The two agree as
 * long as no internal stay lies between two trips (`NoStayBetweenTrips`);
 * otherwise the source merges into the wrong row or fails.
 */
module Port {

  import opened Basics
  import opened Text
  import opened Transitions

  /** `GEOCERCAS_ESPECIFICAS`: the port-area geofences whose trips are analysed. */
  const Especificas: set<string> := {
    "Ciudad Mejillones", "Oxiquim", "Puerto Mejillones", "Terquim", "Interacid",
    "Puerto Angamos", "TGN", "GNLM", "Muelle Centinela"}

  /** The only geofence of `GEOCERCAS_EXCLUIDAS`, a road. */
  const Ruta: string := "Ruta - Afta Mejillones"

  /** `GEOCERCAS_EXCLUIDAS`. */
  const Excluidas: set<string> := {Ruta}

  // ---------------------------------------------------------------------------
  // poblar_dominios
  // ---------------------------------------------------------------------------

  /**
   * The detection test of `poblar_dominios`: after normalisation either name
   * contains the other.
   */
  predicate Resembles(geo: string, name: string)
  {
    Contains(Normalize(geo), Normalize(name)) || Contains(Normalize(name), Normalize(geo))
  }

  /**
   * The first name of `order` that the label resembles: the `for ... break`
   * over a set, whose iteration order is given here as `order`.
   */
  function FirstResembling(geo: string, order: seq<string>): (r: Option<string>)
    ensures r.None? <==> forall i :: 0 <= i < |order| ==> !Resembles(geo, order[i])
    ensures r.Some? ==>
              exists i :: 0 <= i < |order| && order[i] == r.value && Resembles(geo, order[i])
                          && forall j :: 0 <= j < i ==> !Resembles(geo, order[j])
  {
    if |order| == 0 then None
    else if Resembles(geo, order[0]) then Some(order[0])
    else
      var r := FirstResembling(geo, order[1..]);
      assert r.Some? ==> exists i :: 0 <= i < |order| && order[i] == r.value && Resembles(geo, order[i])
                                     && forall j :: 0 <= j < i ==> !Resembles(geo, order[j]) by {
        if r.Some? {
          var i :| 0 <= i < |order[1..]| && order[1..][i] == r.value && Resembles(geo, order[1..][i])
                   && forall j :: 0 <= j < i ==> !Resembles(geo, order[1..][j]);
          assert forall j :: 0 <= j < i + 1 ==> !Resembles(geo, order[j]) by {
            forall j | 0 <= j < i + 1 ensures !Resembles(geo, order[j]) {
              if j > 0 {
                assert order[j] == order[1..][j - 1];
              }
            }
          }
          assert order[i + 1] == r.value && Resembles(geo, order[i + 1]);
        }
      }
      assert r.None? ==> forall i :: 0 <= i < |order| ==> !Resembles(geo, order[i]) by {
        if r.None? {
          forall i | 0 <= i < |order| ensures !Resembles(geo, order[i]) {
            if i > 0 {
              assert order[i] == order[1..][i - 1];
            }
          }
        }
      }
      r
  }

  /** The three sets `poblar_dominios` publishes. */
  datatype Domains = Domains(found: set<string>, notFound: set<string>, excludedFound: set<string>)

  /**
   * `poblar_dominios` over port geofences `esp`, listed in the set's
   * iteration order `order`, and the road `road`: every distinct non-empty
   * label is first tested against the road; a label resembling it marks the
   * road as seen and is not tested further; any other label marks the first
   * resembling port geofence as found.
   */
  function DomainsOf(labels: seq<string>, order: seq<string>, esp: set<string>, road: string): (d: Domains)
    requires forall e :: e in order <==> e in esp
    ensures d.found !! d.notFound && d.found + d.notFound == esp
    ensures d.excludedFound <= {road}
  {
    var geos := set g | g in labels && g != "";
    var found := set g | g in geos && !Resembles(g, road) && FirstResembling(g, order).Some?
                   :: FirstResembling(g, order).value;
    var excluded := set g | g in geos && Resembles(g, road) :: road;
    assert found <= esp by {
      forall e | e in found ensures e in esp {
        var g :| g in geos && !Resembles(g, road) && FirstResembling(g, order) == Some(e);
      }
    }
    Domains(found, esp - found, excluded)
  }

  /** `poblar_dominios` with the source's constants. */
  function PoblarDominios(labels: seq<string>, order: seq<string>): Domains
    requires forall e :: e in order <==> e in Especificas
  {
    DomainsOf(labels, order, Especificas, Ruta)
  }

  /**
   * A port geofence counts as found exactly when some non-empty label that
   * does not resemble the road has it as its first resembling port geofence;
   * the road counts as seen exactly when some non-empty label resembles it.
   */
  lemma DomainsOfSpec(labels: seq<string>, order: seq<string>, esp: set<string>, road: string, e: string)
    requires forall e :: e in order <==> e in esp
    ensures e in DomainsOf(labels, order, esp, road).found <==>
              exists g :: g in labels && g != "" && !Resembles(g, road) && FirstResembling(g, order) == Some(e)
    ensures e in DomainsOf(labels, order, esp, road).excludedFound <==>
              e == road && exists g :: g in labels && g != "" && Resembles(g, road)
  {
    var d := DomainsOf(labels, order, esp, road);
    if exists g :: g in labels && g != "" && Resembles(g, road) {
      var g :| g in labels && g != "" && Resembles(g, road);
      assert g in set g | g in labels && g != "";
      assert road in d.excludedFound;
    }
    if exists g :: g in labels && g != "" && !Resembles(g, road) && FirstResembling(g, order) == Some(e) {
      var g :| g in labels && g != "" && !Resembles(g, road) && FirstResembling(g, order) == Some(e);
      assert g in set g | g in labels && g != "";
    }
  }

  /**
   * The test runs in both directions, so a label that is a piece of the road's
   * name is taken for the road: "Mejillones" marks the road as seen and no
   * port geofence as found, although two port geofences end in that word.
   */
  lemma ShortLabelTakenForTheRoad(order: seq<string>)
    requires forall e :: e in order <==> e in Especificas
    ensures PoblarDominios(["Mejillones"], order).found == {}
    ensures PoblarDominios(["Mejillones"], order).excludedFound == Excluidas
    ensures PoblarDominios(["Mejillones"], order).notFound == Especificas
  {
    MejillonesResemblesTheRoad();
    OneLabelTakenForTheRoad("Mejillones", order, Especificas, Ruta);
  }

  lemma MejillonesResemblesTheRoad()
    ensures Resembles("Mejillones", Ruta)
  {
    MejillonesNormalises();
    RutaEndsInMejillones();
  }

  lemma OneLabelTakenForTheRoad(g: string, order: seq<string>, esp: set<string>, road: string)
    requires forall e :: e in order <==> e in esp
    requires g != "" && Resembles(g, road)
    ensures DomainsOf([g], order, esp, road).found == {}
    ensures DomainsOf([g], order, esp, road).excludedFound == {road}
    ensures DomainsOf([g], order, esp, road).notFound == esp
  {
    TakenForTheRoad([g], order, esp, road);
  }

  /** When every label resembles the road, nothing is found and the road is seen. */
  lemma TakenForTheRoad(labels: seq<string>, order: seq<string>, esp: set<string>, road: string)
    requires forall e :: e in order <==> e in esp
    requires |labels| > 0 && forall g :: g in labels ==> g != "" && Resembles(g, road)
    ensures DomainsOf(labels, order, esp, road).found == {}
    ensures DomainsOf(labels, order, esp, road).excludedFound == {road}
  {
    DomainsOfSpec(labels, order, esp, road, road);
    assert labels[0] in labels;
    forall e ensures e !in DomainsOf(labels, order, esp, road).found {
      DomainsOfSpec(labels, order, esp, road, e);
    }
  }

  lemma MejillonesNormalises()
    ensures Normalize("Mejillones") == "mejillones"
  {
    CapitalisedWordNormalises('M', "ejillones");
    MejillonesSpelling();
  }

  lemma MejillonesSpelling()
    ensures "Mejillones" == ['M'] + "ejillones"
    ensures [LowerChar('M')] + "ejillones" == "mejillones"
  {
  }

  /** The road's normal form ends in "mejillones". */
  lemma RutaEndsInMejillones()
    ensures Contains(Normalize(Ruta), "mejillones")
  {
    var head := Ruta[..12];
    RutaSpelling();
    NormalizeAppend(head, "Mejillones");
    MejillonesNormalises();
    ContainsSuffix(Normalize(head), "mejillones");
  }

  lemma RutaSpelling()
    ensures Ruta == Ruta[..12] + "Mejillones"
  {
  }

  // ---------------------------------------------------------------------------
  // clasificar_proceso_con_secuencia
  // ---------------------------------------------------------------------------

  datatype PortProcess = ViajeEspecifico | ViajeParcial | EstadiaInterna | OtroPort

  /** A trip row of the port view: the transition, its label and `Estadias_Consolidadas`. */
  datatype PortTrip = PortTrip(t: Transition, process: PortProcess, merged: Option<nat>)

  /** Python's `any(x in s for x in names)`: some name is a raw substring of `s`. */
  predicate MentionsAny(s: string, names: set<string>)
  {
    exists x :: x in names && Contains(s, x)
  }

  /**
   * The label of one transition. The sets are parameters because the source
   * reads them from globals that are empty until `poblar_dominios` has run;
   * the tests here are raw substring tests, without normalisation.
   */
  function PortProcessOf(origin: string, destination: string, esp: set<string>, excl: set<string>): PortProcess
  {
    if origin == destination then EstadiaInterna
    else if MentionsAny(origin, excl) || MentionsAny(destination, excl) then OtroPort
    else if MentionsAny(origin, esp) && MentionsAny(destination, esp) then ViajeEspecifico
    else if MentionsAny(origin, esp) || MentionsAny(destination, esp) then ViajeParcial
    else OtroPort
  }

  /**
   * Each label in terms of the endpoints: an internal stay is a self
   * transition; a specific trip joins two port geofences; a partial trip
   * touches exactly one; neither may mention the road. And the label does
   * not depend on the direction of travel.
   */
  lemma PortProcessSpec(o: string, d: string, esp: set<string>, excl: set<string>)
    ensures PortProcessOf(o, d, esp, excl) == EstadiaInterna <==> o == d
    ensures PortProcessOf(o, d, esp, excl) == ViajeEspecifico <==>
              o != d && !MentionsAny(o, excl) && !MentionsAny(d, excl) && MentionsAny(o, esp) && MentionsAny(d, esp)
    ensures PortProcessOf(o, d, esp, excl) == ViajeParcial <==>
              o != d && !MentionsAny(o, excl) && !MentionsAny(d, excl) && (MentionsAny(o, esp) != MentionsAny(d, esp))
    ensures PortProcessOf(o, d, esp, excl) == OtroPort <==>
              o != d && (MentionsAny(o, excl) || MentionsAny(d, excl) || (!MentionsAny(o, esp) && !MentionsAny(d, esp)))
    ensures PortProcessOf(o, d, esp, excl) == PortProcessOf(d, o, esp, excl)
  {
  }

  /** Every transition labelled, in order, with no stays consolidated yet. */
  function ClassifyPort(rows: seq<Transition>, esp: set<string>, excl: set<string>): (r: seq<PortTrip>)
    ensures |r| == |rows|
    ensures forall k :: 0 <= k < |r| ==>
              && r[k].t == rows[k] && r[k].merged.None?
              && r[k].process == PortProcessOf(rows[k].origin, rows[k].destination, esp, excl)
  {
    seq(|rows|, k requires 0 <= k < |rows| =>
      PortTrip(rows[k], PortProcessOf(rows[k].origin, rows[k].destination, esp, excl), None))
  }

  /**
   * With the published sets, a label naming a port geofence inside a longer
   * name still counts: "Terquim Norte" to "TGN" is a specific trip.
   */
  lemma LongerNamesStillCount()
    ensures PortProcessOf("Terquim Norte", "TGN", Especificas, Excluidas) == ViajeEspecifico
  {
    var o, d := "Terquim Norte", "TGN";
    MentionsByPrefix(o, "Terquim", Especificas);
    MentionsByPrefix(d, "TGN", Especificas);
    NotMentionedWhenShorter(o, Excluidas);
    NotMentionedWhenShorter(d, Excluidas);
    PortProcessSpec(o, d, Especificas, Excluidas);
  }

  lemma MentionsByPrefix(s: string, p: string, names: set<string>)
    requires p in names && StartsWith(s, p)
    ensures MentionsAny(s, names)
  {
    assert Contains(s, p);
  }

  lemma NotMentionedWhenShorter(s: string, names: set<string>)
    requires forall x :: x in names ==> |s| < |x|
    ensures !MentionsAny(s, names)
  {
    forall x | x in names ensures !Contains(s, x) {
      ContainsFits(s, x);
    }
  }

  // ---------------------------------------------------------------------------
  // consolidar_estadias_internas
  // ---------------------------------------------------------------------------

  /** `viaje_especifico` or `viaje_parcial`: a trip an internal stay can be folded into. */
  predicate IsTrip(p: PortTrip)
  {
    p.process == ViajeEspecifico || p.process == ViajeParcial
  }

  predicate IsStay(p: PortTrip)
  {
    p.process == EstadiaInterna
  }

  /** `Estadias_Consolidadas`, with a missing value read as 0. */
  function Count(p: PortTrip): nat
  {
    match p.merged
    case None => 0
    case Some(n) => n
  }

  function Merged(ps: seq<PortTrip>): nat
  {
    if |ps| == 0 then 0 else Merged(ps[..|ps| - 1]) + Count(ps[|ps| - 1])
  }

  /**
   * Folding one internal stay into a trip: the trip now ends when the stay
   * ends, its duration runs from its own entry, and one more stay is counted.
   */
  function Extend(target: PortTrip, stay: PortTrip): (r: PortTrip)
    ensures r.t.exit == stay.t.exit && r.t.duration == r.t.exit - r.t.entry
    ensures Count(r) == Count(target) + 1
    ensures Key(r) == Key(target)
  {
    PortTrip(target.t.(exit := stay.t.exit, duration := stay.t.exit - target.t.entry),
             target.process, Some(Count(target) + 1))
  }

  /** What consolidation never changes about a row. */
  datatype TripKey = TripKey(vehicle: string, origin: string, destination: string, entry: int, process: PortProcess)

  function Key(p: PortTrip): TripKey
  {
    TripKey(p.t.vehicle, p.t.origin, p.t.destination, p.t.entry, p.process)
  }

  /** The backward search: the index in the group of the latest trip before row `i`. */
  function LastTripBefore(g: seq<PortTrip>, i: nat): (r: Option<nat>)
    requires i <= |g|
    ensures r.Some? ==> r.value < i && IsTrip(g[r.value])
                        && forall j :: r.value < j < i ==> !IsTrip(g[j])
    ensures r.None? ==> forall j :: 0 <= j < i ==> !IsTrip(g[j])
  {
    if i == 0 then None
    else if IsTrip(g[i - 1]) then Some(i - 1)
    else LastTripBefore(g, i - 1)
  }

  /** An internal stay with a trip somewhere before it: the rows consolidation folds away. */
  predicate Absorbed(g: seq<PortTrip>, i: nat)
    requires i < |g|
  {
    IsStay(g[i]) && LastTripBefore(g, i).Some?
  }

  /** The rows among the first `i` that consolidation keeps, in order. */
  function KeptUpTo(g: seq<PortTrip>, i: nat): (r: seq<PortTrip>)
    requires i <= |g|
    ensures |r| <= i
    ensures forall p :: p in r ==> p in g
  {
    if i == 0 then [] else KeptUpTo(g, i - 1) + (if Absorbed(g, i - 1) then [] else [g[i - 1]])
  }

  function Kept(g: seq<PortTrip>): seq<PortTrip>
  {
    KeptUpTo(g, |g|)
  }

  /** No internal stay lies between two trips of the group. */
  predicate NoStayBetweenTrips(g: seq<PortTrip>)
  {
    forall a, b, c :: 0 <= a < b < c < |g| && IsTrip(g[a]) && IsTrip(g[c]) ==> !IsStay(g[b])
  }

  /** No internal stay comes after a trip: what a consolidated group looks like. */
  predicate NoStayAfterTrip(g: seq<PortTrip>)
  {
    forall a, b :: 0 <= a < b < |g| && IsTrip(g[a]) ==> !IsStay(g[b])
  }

  /**
   * The source's loop over one vehicle's group, from row `i` with output
   * `rf`: a row that is not an internal stay, or one with no trip before it,
   * is appended; otherwise the stay is folded into `rf[j]`, where `j` is the
   * index of the earlier trip IN THE GROUP, and indexing past the end of
   * `rf` is Python's IndexError (`None`). The source's inner loop, which
   * folds the stays right after into the same `rf[j]`, is the same as
   * handling them here one by one: for each of them the search finds the
   * same `j` and `rf` has not grown.
   */
  function AsWrittenFrom(g: seq<PortTrip>, i: nat, rf: seq<PortTrip>): Option<seq<PortTrip>>
    requires i <= |g|
    decreases |g| - i
  {
    if i == |g| then Some(rf)
    else if IsStay(g[i]) && LastTripBefore(g, i).Some? then
      var j := LastTripBefore(g, i).value;
      if j < |rf| then AsWrittenFrom(g, i + 1, rf[j := Extend(rf[j], g[i])])
      else None
    else AsWrittenFrom(g, i + 1, rf + [g[i]])
  }

  /** `consolidar_estadias_internas` on one vehicle's group, as written; `None` is an IndexError. */
  function AsWritten(g: seq<PortTrip>): Option<seq<PortTrip>>
  {
    AsWrittenFrom(g, 0, [])
  }

  /**
   * One step of the corrected loop: `last` is the index IN THE OUTPUT of the
   * latest trip appended so far.
   */
  function CorrectedNext(g: seq<PortTrip>, i: nat, rf: seq<PortTrip>, last: Option<nat>): (r: (seq<PortTrip>, Option<nat>))
    requires i < |g|
    requires last.Some? ==> last.value < |rf|
    ensures r.1.Some? ==> r.1.value < |r.0|
  {
    if IsStay(g[i]) && last.Some? then (rf[last.value := Extend(rf[last.value], g[i])], last)
    else (rf + [g[i]], if IsTrip(g[i]) then Some(|rf|) else last)
  }

  function CorrectedFrom(g: seq<PortTrip>, i: nat, rf: seq<PortTrip>, last: Option<nat>): seq<PortTrip>
    requires i <= |g|
    requires last.Some? ==> last.value < |rf|
    decreases |g| - i
  {
    if i == |g| then rf
    else
      var next := CorrectedNext(g, i, rf, last);
      CorrectedFrom(g, i + 1, next.0, next.1)
  }

  /** The consolidation the source intends: each stay goes into the output row of the latest trip before it. */
  function Corrected(g: seq<PortTrip>): seq<PortTrip>
  {
    CorrectedFrom(g, 0, [], None)
  }

  /** The identifying part of every row, in order. */
  function Keys(ps: seq<PortTrip>): (r: seq<TripKey>)
    ensures |r| == |ps| && forall k :: 0 <= k < |ps| ==> r[k] == Key(ps[k])
  {
    if |ps| == 0 then [] else Keys(ps[..|ps| - 1]) + [Key(ps[|ps| - 1])]
  }

  /** What holds of the corrected loop after the first `i` rows. */
  ghost predicate CorrectedInv(g: seq<PortTrip>, i: nat, rf: seq<PortTrip>, last: Option<nat>)
  {
    && i <= |g|
    && Keys(rf) == Keys(KeptUpTo(g, i))
    && |rf| + Merged(rf) == i + Merged(KeptUpTo(g, i))
    && last == LastTripBefore(rf, |rf|)
    && (last.None? <==> LastTripBefore(g, i).None?)
    && NoStayAfterTrip(rf)
  }

  lemma MergedSnoc(ps: seq<PortTrip>, p: PortTrip)
    ensures Merged(ps + [p]) == Merged(ps) + Count(p)
  {
    assert (ps + [p])[..|ps|] == ps;
  }

  lemma {:induction false} MergedUpdate(ps: seq<PortTrip>, k: nat, p: PortTrip)
    requires k < |ps|
    ensures Merged(ps[k := p]) == Merged(ps) - Count(ps[k]) + Count(p)
    decreases |ps|
  {
    var n := |ps| - 1;
    if k < n {
      MergedUpdate(ps[..n], k, p);
      assert ps[k := p][..n] == ps[..n][k := p];
    } else {
      assert ps[k := p][..n] == ps[..n];
    }
  }

  /** The backward search only looks at which rows are trips. */
  lemma {:induction false} LastTripBeforeAgree(a: seq<PortTrip>, b: seq<PortTrip>, n: nat)
    requires n <= |a| && n <= |b|
    requires forall k :: 0 <= k < n ==> IsTrip(a[k]) == IsTrip(b[k])
    ensures LastTripBefore(a, n) == LastTripBefore(b, n)
  {
    if n > 0 {
      LastTripBeforeAgree(a, b, n - 1);
    }
  }

  /** Folding a stay into the latest trip keeps the invariant. */
  lemma CorrectedFoldStep(g: seq<PortTrip>, i: nat, rf: seq<PortTrip>, x: nat)
    requires i < |g| && IsStay(g[i])
    requires CorrectedInv(g, i, rf, Some(x))
    ensures CorrectedInv(g, i + 1, rf[x := Extend(rf[x], g[i])], Some(x))
  {
    var rf' := rf[x := Extend(rf[x], g[i])];
    KeptAbsorbed(g, i);
    MergedUpdate(rf, x, Extend(rf[x], g[i]));
    ExtendKeepsShape(rf, x, g[i]);
  }

  /** An absorbed stay leaves the kept rows, and the latest trip, as they were. */
  lemma KeptAbsorbed(g: seq<PortTrip>, i: nat)
    requires i < |g| && IsStay(g[i]) && LastTripBefore(g, i).Some?
    ensures KeptUpTo(g, i + 1) == KeptUpTo(g, i)
    ensures LastTripBefore(g, i + 1) == LastTripBefore(g, i)
  {
  }

  /** Extending one row changes neither the keys, nor which rows are trips or stays. */
  lemma ExtendKeepsShape(rf: seq<PortTrip>, x: nat, stay: PortTrip)
    requires x < |rf|
    ensures var rf' := rf[x := Extend(rf[x], stay)];
      && Keys(rf') == Keys(rf)
      && LastTripBefore(rf', |rf'|) == LastTripBefore(rf, |rf|)
      && (NoStayAfterTrip(rf) ==> NoStayAfterTrip(rf'))
  {
    var rf' := rf[x := Extend(rf[x], stay)];
    assert forall k :: 0 <= k < |rf| ==> Key(rf'[k]) == Key(rf[k]) && rf'[k].process == rf[k].process;
    LastTripBeforeAgree(rf, rf', |rf|);
  }

  lemma KeysSnoc(ps: seq<PortTrip>, p: PortTrip)
    ensures Keys(ps + [p]) == Keys(ps) + [Key(p)]
  {
    assert (ps + [p])[..|ps|] == ps;
  }

  /** Appending a row that is not a stay after a trip keeps a group consolidated. */
  lemma NoStayAfterTripSnoc(rf: seq<PortTrip>, p: PortTrip)
    requires NoStayAfterTrip(rf)
    requires IsStay(p) ==> LastTripBefore(rf, |rf|).None?
    ensures NoStayAfterTrip(rf + [p])
  {
    var rf' := rf + [p];
    forall a, b | 0 <= a < b < |rf'| && IsTrip(rf'[a]) ensures !IsStay(rf'[b]) {
      assert rf'[a] == rf[a];
      if b < |rf| {
        assert rf'[b] == rf[b];
      }
    }
  }

  /** A row that is not absorbed is kept. */
  lemma KeptAppend(g: seq<PortTrip>, i: nat)
    requires i < |g| && !Absorbed(g, i)
    ensures Keys(KeptUpTo(g, i + 1)) == Keys(KeptUpTo(g, i)) + [Key(g[i])]
    ensures Merged(KeptUpTo(g, i + 1)) == Merged(KeptUpTo(g, i)) + Count(g[i])
  {
    assert KeptUpTo(g, i + 1) == KeptUpTo(g, i) + [g[i]];
    KeysSnoc(KeptUpTo(g, i), g[i]);
    MergedSnoc(KeptUpTo(g, i), g[i]);
  }

  /** After appending a row, `last` still points at the latest trip of the output. */
  lemma LastAfterAppend(g: seq<PortTrip>, i: nat, rf: seq<PortTrip>, last: Option<nat>)
    requires i < |g| && last == LastTripBefore(rf, |rf|)
    requires last.None? <==> LastTripBefore(g, i).None?
    ensures var last' := if IsTrip(g[i]) then Some(|rf|) else last;
      && last' == LastTripBefore(rf + [g[i]], |rf| + 1)
      && (last'.None? <==> LastTripBefore(g, i + 1).None?)
  {
    LastTripBeforeAgree(rf, rf + [g[i]], |rf|);
  }

  /** Appending a row keeps the invariant. */
  lemma CorrectedAppendStep(g: seq<PortTrip>, i: nat, rf: seq<PortTrip>, last: Option<nat>)
    requires i < |g| && !(IsStay(g[i]) && last.Some?)
    requires CorrectedInv(g, i, rf, last)
    ensures CorrectedInv(g, i + 1, rf + [g[i]], if IsTrip(g[i]) then Some(|rf|) else last)
  {
    assert !Absorbed(g, i);
    KeptAppend(g, i);
    KeysSnoc(rf, g[i]);
    MergedSnoc(rf, g[i]);
    LastAfterAppend(g, i, rf, last);
    NoStayAfterTripSnoc(rf, g[i]);
  }

  lemma CorrectedStep(g: seq<PortTrip>, i: nat, rf: seq<PortTrip>, last: Option<nat>)
    requires i < |g|
    requires CorrectedInv(g, i, rf, last)
    ensures CorrectedInv(g, i + 1, CorrectedNext(g, i, rf, last).0, CorrectedNext(g, i, rf, last).1)
  {
    if IsStay(g[i]) && last.Some? {
      CorrectedFoldStep(g, i, rf, last.value);
    } else {
      CorrectedAppendStep(g, i, rf, last);
    }
  }

  /**
   * The corrected loop from row `i` on: the rows kept are exactly the ones
   * that are not stays after a trip, in order and unchanged in what
   * identifies them; every row is either kept or counted once more in
   * `Estadias_Consolidadas`; and no stay is left after a trip.
   */
  lemma {:induction false} CorrectedFromSpec(g: seq<PortTrip>, i: nat, rf: seq<PortTrip>, last: Option<nat>)
    requires CorrectedInv(g, i, rf, last)
    ensures Keys(CorrectedFrom(g, i, rf, last)) == Keys(Kept(g))
    ensures |CorrectedFrom(g, i, rf, last)| + Merged(CorrectedFrom(g, i, rf, last)) == |g| + Merged(Kept(g))
    ensures NoStayAfterTrip(CorrectedFrom(g, i, rf, last))
    decreases |g| - i
  {
    if i < |g| {
      CorrectedStep(g, i, rf, last);
      var next := CorrectedNext(g, i, rf, last);
      CorrectedFromSpec(g, i + 1, next.0, next.1);
    }
  }

  /** Row `j` is an internal stay whose latest earlier trip is row `m`. */
  predicate AbsorbedInto(g: seq<PortTrip>, j: nat, m: nat)
  {
    j < |g| && Absorbed(g, j) && LastTripBefore(g, j) == Some(m)
  }

  /** How many of the rows below `n` are absorbed into row `m`. */
  function FoldCount(g: seq<PortTrip>, m: nat, n: nat): nat
  {
    if n == 0 then 0 else FoldCount(g, m, n - 1) + (if AbsorbedInto(g, n - 1, m) then 1 else 0)
  }

  /** The last of the rows below `n` absorbed into row `m`, if any. */
  function LastFold(g: seq<PortTrip>, m: nat, n: nat): (r: Option<nat>)
    ensures r.Some? ==> r.value < n && AbsorbedInto(g, r.value, m)
                        && forall j :: r.value < j < n ==> !AbsorbedInto(g, j, m)
    ensures r.None? <==> FoldCount(g, m, n) == 0
  {
    if n == 0 then None
    else if AbsorbedInto(g, n - 1, m) then Some(n - 1)
    else LastFold(g, m, n - 1)
  }

  /**
   * Row `m` once the stays below `n` absorbed into it are folded in: as it
   * was if there are none; otherwise it ends when the last of them ends, its
   * duration runs from its own entry to that exit, and its
   * `Estadias_Consolidadas` grows by their number.
   */
  function FoldedRow(g: seq<PortTrip>, m: nat, n: nat): PortTrip
    requires m < |g|
  {
    match LastFold(g, m, n)
    case None => g[m]
    case Some(j) =>
      PortTrip(g[m].t.(exit := g[j].t.exit, duration := g[j].t.exit - g[m].t.entry),
               g[m].process, Some(Count(g[m]) + FoldCount(g, m, n)))
  }

  /** The indices below `n` of the rows consolidation keeps, in increasing order. */
  function KeptIndices(g: seq<PortTrip>, n: nat): (r: seq<nat>)
    requires n <= |g|
    ensures forall k :: 0 <= k < |r| ==> r[k] < n && !Absorbed(g, r[k])
    ensures forall i :: 0 <= i < n && !Absorbed(g, i) ==> i in r
    ensures forall k, l :: 0 <= k < l < |r| ==> r[k] < r[l]
  {
    if n == 0 then [] else KeptIndices(g, n - 1) + (if Absorbed(g, n - 1) then [] else [n - 1])
  }

  /** Nothing at or before row `m` is absorbed into it. */
  lemma {:induction false} NothingFoldsBefore(g: seq<PortTrip>, m: nat, n: nat)
    requires n <= m + 1
    ensures FoldCount(g, m, n) == 0
  {
    if n > 0 {
      NothingFoldsBefore(g, m, n - 1);
    }
  }

  /** `out` holds, in order, the rows among the first `n` that are kept, each with its stays folded in. */
  ghost predicate RowsFolded(g: seq<PortTrip>, n: nat, out: seq<PortTrip>)
    requires n <= |g|
  {
    var idx := KeptIndices(g, n);
    |out| == |idx| && forall k :: 0 <= k < |idx| ==> out[k] == FoldedRow(g, idx[k], n)
  }

  /** What holds of the corrected loop's output row by row after the first `i` rows. */
  ghost predicate FoldInv(g: seq<PortTrip>, i: nat, rf: seq<PortTrip>, last: Option<nat>)
  {
    && i <= |g|
    && var idx := KeptIndices(g, i);
    && RowsFolded(g, i, rf)
    && (last.None? <==> LastTripBefore(g, i).None?)
    && (last.Some? ==> last.value < |idx| && idx[last.value] == LastTripBefore(g, i).value)
  }

  /** A row that is not absorbed into `m` leaves `m`'s folded row as it was. */
  lemma FoldedRowSkips(g: seq<PortTrip>, m: nat, i: nat)
    requires m < |g| && !AbsorbedInto(g, i, m)
    ensures FoldedRow(g, m, i + 1) == FoldedRow(g, m, i)
  {
  }

  /** Folding the next absorbed stay into `m`'s row gives the next folded row. */
  lemma FoldedRowExtends(g: seq<PortTrip>, m: nat, i: nat)
    requires m < |g| && AbsorbedInto(g, i, m)
    ensures FoldedRow(g, m, i + 1) == Extend(FoldedRow(g, m, i), g[i])
  {
  }

  lemma FoldStep(g: seq<PortTrip>, i: nat, rf: seq<PortTrip>, last: Option<nat>)
    requires i < |g| && FoldInv(g, i, rf, last)
    requires last.Some? ==> last.value < |rf|
    ensures FoldInv(g, i + 1, CorrectedNext(g, i, rf, last).0, CorrectedNext(g, i, rf, last).1)
  {
    var idx := KeptIndices(g, i);
    var next := CorrectedNext(g, i, rf, last);
    if IsStay(g[i]) && last.Some? {
      var x := last.value;
      assert AbsorbedInto(g, i, idx[x]);
      assert KeptIndices(g, i + 1) == idx;
      forall k | 0 <= k < |idx| ensures next.0[k] == FoldedRow(g, idx[k], i + 1) {
        if k == x {
          FoldedRowExtends(g, idx[k], i);
        } else {
          assert idx[k] != idx[x];
          FoldedRowSkips(g, idx[k], i);
        }
      }
    } else {
      assert !Absorbed(g, i);
      var idx' := KeptIndices(g, i + 1);
      assert idx' == idx + [i];
      forall k | 0 <= k < |idx'| ensures next.0[k] == FoldedRow(g, idx'[k], i + 1) {
        if k < |idx| {
          FoldedRowSkips(g, idx[k], i);
        } else {
          NothingFoldsBefore(g, i, i + 1);
        }
      }
    }
  }

  lemma {:induction false} FoldFrom(g: seq<PortTrip>, i: nat, rf: seq<PortTrip>, last: Option<nat>)
    requires FoldInv(g, i, rf, last)
    requires last.Some? ==> last.value < |rf|
    ensures RowsFolded(g, |g|, CorrectedFrom(g, i, rf, last))
    decreases |g| - i
  {
    if i < |g| {
      FoldStep(g, i, rf, last);
      var next := CorrectedNext(g, i, rf, last);
      FoldFrom(g, i + 1, next.0, next.1);
    }
  }

  /**
   * The corrected consolidation of a group: the kept rows in order, every
   * input row accounted for once, and no internal stay left after a trip.
   * Row by row, the `k`-th output row is the `k`-th row that is not an
   * absorbed stay, with every stay whose latest earlier trip it is folded
   * in: if there are none it is unchanged; otherwise its exit is the last
   * such stay's exit, its duration runs from its entry to that exit, and its
   * `Estadias_Consolidadas` grows by exactly their number.
   */
  lemma CorrectedSpec(g: seq<PortTrip>)
    ensures Keys(Corrected(g)) == Keys(Kept(g)) && |Corrected(g)| <= |g|
    ensures |Corrected(g)| + Merged(Corrected(g)) == |g| + Merged(Kept(g))
    ensures NoStayAfterTrip(Corrected(g))
    ensures var out, idx := Corrected(g), KeptIndices(g, |g|);
      |out| == |idx| && forall k :: 0 <= k < |idx| ==> out[k] == FoldedRow(g, idx[k], |g|)
  {
    CorrectedFromSpec(g, 0, [], None);
    FoldFrom(g, 0, [], None);
    assert RowsFolded(g, |g|, Corrected(g));
  }

  /**
   * On rows fresh from the classifier, with no `Estadias_Consolidadas` yet,
   * every row the consolidation removes is counted exactly once in the rows
   * it keeps.
   */
  lemma CorrectedCountsEveryFold(g: seq<PortTrip>)
    requires forall k :: 0 <= k < |g| ==> g[k].merged.None?
    ensures Merged(Corrected(g)) == |g| - |Corrected(g)|
  {
    CorrectedSpec(g);
    MergedOfFresh(Kept(g));
  }

  lemma {:induction false} MergedOfFresh(ps: seq<PortTrip>)
    requires forall p :: p in ps ==> p.merged.None?
    ensures Merged(ps) == 0
  {
    if |ps| > 0 {
      assert ps[|ps| - 1] in ps;
      MergedOfFresh(ps[..|ps| - 1]);
    }
  }

  /** A group with no stay after a trip has nothing to consolidate. */
  lemma {:induction false} CorrectedFixesSettled(g: seq<PortTrip>, i: nat)
    requires NoStayAfterTrip(g) && i <= |g|
    ensures CorrectedFrom(g, i, g[..i], LastTripBefore(g, i)) == g
    decreases |g| - i
  {
    if i < |g| {
      var last := LastTripBefore(g, i);
      if IsStay(g[i]) && last.Some? {
        assert false;
      }
      assert g[..i] + [g[i]] == g[..i + 1];
      CorrectedFixesSettled(g, i + 1);
    } else {
      assert g[..i] == g;
    }
  }

  /** Consolidating twice is consolidating once. */
  lemma CorrectedIdempotent(g: seq<PortTrip>)
    ensures Corrected(Corrected(g)) == Corrected(g)
  {
    var c := Corrected(g);
    CorrectedSpec(g);
    assert c[..0] == [];
    CorrectedFixesSettled(c, 0);
  }

  /**
   * What holds of the source's loop and the corrected one side by side, on
   * a group with no stay between two trips: they hold the same output, and
   * until the first stay is folded every row has been appended, so an index
   * into the group is an index into the output.
   */
  ghost predicate AgreeInv(g: seq<PortTrip>, i: nat, rf: seq<PortTrip>, last: Option<nat>)
  {
    && i <= |g|
    && last == LastTripBefore(g, i)
    && (last.Some? ==> last.value < |rf|)
    && (|rf| == i || forall c :: i <= c < |g| ==> !IsTrip(g[c]))
  }

  lemma {:induction false} AgreeFrom(g: seq<PortTrip>, i: nat, rf: seq<PortTrip>, last: Option<nat>)
    requires NoStayBetweenTrips(g)
    requires AgreeInv(g, i, rf, last)
    ensures AsWrittenFrom(g, i, rf) == Some(CorrectedFrom(g, i, rf, last))
    decreases |g| - i
  {
    if i < |g| {
      var next := CorrectedNext(g, i, rf, last);
      if IsStay(g[i]) && last.Some? {
        assert forall c :: i + 1 <= c < |g| ==> !IsTrip(g[c]) by {
          forall c | i + 1 <= c < |g| ensures !IsTrip(g[c]) {
            assert IsTrip(g[last.value]) && last.value < i < c;
          }
        }
        assert LastTripBefore(g, i + 1) == last;
        AgreeFrom(g, i + 1, next.0, next.1);
      } else {
        AgreeFrom(g, i + 1, next.0, next.1);
      }
    }
  }

  /**
   * Where no internal stay lies between two trips (the case the source
   * describes: a trip followed by internal stays) the source's consolidation
   * succeeds and equals the corrected one.
   */
  lemma AsWrittenAgreesWithoutStaysBetweenTrips(g: seq<PortTrip>)
    requires NoStayBetweenTrips(g)
    ensures AsWritten(g) == Some(Corrected(g))
  {
    AgreeFrom(g, 0, [], None);
  }

  lemma AsWrittenAppends(g: seq<PortTrip>, i: nat, rf: seq<PortTrip>)
    requires i < |g| && !(IsStay(g[i]) && LastTripBefore(g, i).Some?)
    ensures AsWrittenFrom(g, i, rf) == AsWrittenFrom(g, i + 1, rf + [g[i]])
  {
  }

  lemma AsWrittenFolds(g: seq<PortTrip>, i: nat, rf: seq<PortTrip>, j: nat)
    requires i < |g| && IsStay(g[i]) && LastTripBefore(g, i) == Some(j)
    ensures j < |rf| ==> AsWrittenFrom(g, i, rf) == AsWrittenFrom(g, i + 1, rf[j := Extend(rf[j], g[i])])
    ensures j >= |rf| ==> AsWrittenFrom(g, i, rf).None?
  {
  }

  lemma CorrectedMoves(g: seq<PortTrip>, i: nat, rf: seq<PortTrip>, last: Option<nat>)
    requires i < |g| && (last.Some? ==> last.value < |rf|)
    ensures IsStay(g[i]) && last.Some? ==>
              CorrectedFrom(g, i, rf, last) == CorrectedFrom(g, i + 1, rf[last.value := Extend(rf[last.value], g[i])], last)
    ensures !(IsStay(g[i]) && last.Some?) ==>
              CorrectedFrom(g, i, rf, last) == CorrectedFrom(g, i + 1, rf + [g[i]], if IsTrip(g[i]) then Some(|rf|) else last)
  {
  }

  /**
   * A trip, a stay folded into it, a second trip and a stay: the source
   * looks for the second trip at group index 2 of an output list of length
   * 2 and fails, while the corrected consolidation folds each stay into its
   * own trip.
   */
  lemma AsWrittenFailsAfterAFold(v: PortTrip, e: PortTrip, w: PortTrip, e2: PortTrip)
    requires IsTrip(v) && IsStay(e) && IsTrip(w) && IsStay(e2)
    ensures AsWritten([v, e, w, e2]).None?
    ensures Corrected([v, e, w, e2]) == [Extend(v, e), Extend(w, e2)]
  {
    var g := [v, e, w, e2];
    var ve := Extend(v, e);
    assert LastTripBefore(g, 1) == Some(0);
    assert LastTripBefore(g, 3) == Some(2);
    AsWrittenAppends(g, 0, []);
    assert [] + [g[0]] == [v];
    AsWrittenFolds(g, 1, [v], 0);
    assert [v][0 := Extend([v][0], g[1])] == [ve];
    AsWrittenAppends(g, 2, [ve]);
    assert [ve] + [g[2]] == [ve, w];
    AsWrittenFolds(g, 3, [ve, w], 2);
    CorrectedMoves(g, 0, [], None);
    CorrectedMoves(g, 1, [v], Some(0));
    CorrectedMoves(g, 2, [ve], Some(0));
    CorrectedMoves(g, 3, [ve, w], Some(1));
    assert [ve, w][1 := Extend([ve, w][1], g[3])] == [ve, Extend(w, e2)];
  }

  /**
   * Trip, stay, trip, other, stay: the source folds the last stay into the
   * "otro" row (output index 2, the group index of the second trip) and
   * leaves the second trip alone; the corrected consolidation extends the
   * second trip.
   */
  lemma AsWrittenExtendsTheWrongRow(v: PortTrip, e: PortTrip, w: PortTrip, o: PortTrip, e2: PortTrip)
    requires IsTrip(v) && IsStay(e) && IsTrip(w) && o.process == OtroPort && IsStay(e2)
    ensures AsWritten([v, e, w, o, e2]) == Some([Extend(v, e), w, Extend(o, e2)])
    ensures Corrected([v, e, w, o, e2]) == [Extend(v, e), Extend(w, e2), o]
    ensures Extend(o, e2) != o && w != Extend(w, e2)
  {
    AsWrittenOnTheExample(v, e, w, o, e2);
    CorrectedOnTheExample(v, e, w, o, e2);
    assert Count(Extend(o, e2)) != Count(o);
    assert Count(Extend(w, e2)) != Count(w);
  }

  lemma AsWrittenOnTheExample(v: PortTrip, e: PortTrip, w: PortTrip, o: PortTrip, e2: PortTrip)
    requires IsTrip(v) && IsStay(e) && IsTrip(w) && o.process == OtroPort && IsStay(e2)
    ensures AsWritten([v, e, w, o, e2]) == Some([Extend(v, e), w, Extend(o, e2)])
  {
    var g := [v, e, w, o, e2];
    var ve := Extend(v, e);
    assert LastTripBefore(g, 1) == Some(0);
    assert LastTripBefore(g, 4) == Some(2);
    AsWrittenAppends(g, 0, []);
    assert [] + [g[0]] == [v];
    AsWrittenFolds(g, 1, [v], 0);
    assert [v][0 := Extend([v][0], g[1])] == [ve];
    AsWrittenAppends(g, 2, [ve]);
    assert [ve] + [g[2]] == [ve, w];
    AsWrittenAppends(g, 3, [ve, w]);
    assert [ve, w] + [g[3]] == [ve, w, o];
    AsWrittenFolds(g, 4, [ve, w, o], 2);
    assert [ve, w, o][2 := Extend([ve, w, o][2], g[4])] == [ve, w, Extend(o, e2)];
  }

  lemma CorrectedOnTheExample(v: PortTrip, e: PortTrip, w: PortTrip, o: PortTrip, e2: PortTrip)
    requires IsTrip(v) && IsStay(e) && IsTrip(w) && o.process == OtroPort && IsStay(e2)
    ensures Corrected([v, e, w, o, e2]) == [Extend(v, e), Extend(w, e2), o]
  {
    var g := [v, e, w, o, e2];
    var ve := Extend(v, e);
    CorrectedMoves(g, 0, [], None);
    assert [] + [g[0]] == [v];
    CorrectedMoves(g, 1, [v], Some(0));
    assert [v][0 := Extend([v][0], g[1])] == [ve];
    CorrectedMoves(g, 2, [ve], Some(0));
    assert [ve] + [g[2]] == [ve, w];
    CorrectedExampleTail(g, ve, w, o, e2);
  }

  lemma CorrectedExampleTail(g: seq<PortTrip>, ve: PortTrip, w: PortTrip, o: PortTrip, e2: PortTrip)
    requires |g| == 5 && g[3] == o && g[4] == e2
    requires IsTrip(w) && o.process == OtroPort && IsStay(e2)
    ensures CorrectedFrom(g, 3, [ve, w], Some(1)) == [ve, Extend(w, e2), o]
  {
    CorrectedMoves(g, 3, [ve, w], Some(1));
    assert [ve, w] + [g[3]] == [ve, w, o];
    CorrectedMoves(g, 4, [ve, w, o], Some(1));
    assert [ve, w, o][1 := Extend([ve, w, o][1], g[4])] == [ve, Extend(w, e2), o];
  }
}

=== FILE: scenarios.dfy ===
/**
 * Worked examples: small concrete inputs and what the model gives for them,
 * stating the outputs the source's behaviour and its test table promise.
 */
module Scenarios {

  import opened Basics
  import opened Text
  import opened Shifts
  import opened Events
  import opened Transitions

  /** g at 0 s and 100 s, then transit at 200 s: one dwell of 200 s, nothing open. */
  lemma FirstVisit(g: string, p0: Ping, p1: Ping, p2: Ping)
    requires g != "" && Strip(g) == g
    requires p0.geofence == g && p1.geofence == g && p2.geofence == ""
    requires p0.time == 0 && p2.time == 200
    ensures Run([p0, p1, p2], true) == Pass(None, [Dwell(g, 0, 200)])
  {
    FirstTwo(g, p0, p1);
    var s2 := [p0, p1];
    RunSnoc(s2, p2, true);
    TransitCloses(Pass(Some(Open(g, 0)), []), p2);
    assert s2 + [p2] == [p0, p1, p2];
  }

  /** A ping with no geofence closes the open dwell. */
  lemma TransitCloses(st: Pass, p: Ping)
    requires st.open.Some? && p.geofence == ""
    ensures Step(st, p, true) == Pass(None, st.dwells + Close(st.open.value, p.time, true))
  {
    StripAllSpace("");
    StepLeaves(st, p);
  }

  /** g at 0 s and again at the next ping: one dwell open since 0 s. */
  lemma FirstTwo(g: string, p0: Ping, p1: Ping)
    requires g != "" && Strip(g) == g
    requires p0.geofence == g && p1.geofence == g && p0.time == 0
    ensures Run([p0, p1], true) == Pass(Some(Open(g, 0)), [])
  {
    var s0: seq<Ping> := [];
    var s1 := s0 + [p0];
    RunSnoc(s0, p0, true);
    StepEnters(Pass(None, []), p0, g);
    RepeatedLabelKeepsDwell(s1, [p1], true);
    assert s1 + [p1] == [p0, p1];
  }

  /** Back in g at 300 s: a second dwell opens. */
  lemma Reentry(g: string, s3: seq<Ping>, p3: Ping, d: Dwell)
    requires g != "" && Strip(g) == g
    requires Run(s3, true) == Pass(None, [d])
    requires p3.geofence == g
    ensures Run(s3 + [p3], true) == Pass(Some(Open(g, p3.time)), [d])
  {
    RunSnoc(s3, p3, true);
    StepEnters(Run(s3, true), p3, g);
  }

  /** Still in g at 400 s, the last ping: the open dwell closes there. */
  lemma SecondVisit(g: string, s4: seq<Ping>, p4: Ping, d: Dwell)
    requires g != "" && Strip(g) == g
    requires Run(s4, true) == Pass(Some(Open(g, 300)), [d])
    requires p4.geofence == g && p4.time == 400
    ensures Dwells(s4 + [p4]) == [d, Dwell(g, 300, 400)]
  {
    RepeatedLabelKeepsDwell(s4, [p4], true);
  }

  /**
   * The five pings of the same-geofence example: in g at 0 s and 100 s, in
   * transit at 200 s, in g again at 300 s and 400 s.
   */
  predicate GoAwayAndBack(ps: seq<Ping>, g: string)
  {
    && |ps| == 5
    && ps[0].geofence == g && ps[1].geofence == g && ps[2].geofence == ""
    && ps[3].geofence == g && ps[4].geofence == g
    && ps[0].time == 0 && ps[1].time == 100 && ps[2].time == 200 && ps[3].time == 300 && ps[4].time == 400
  }

  /** The first three pings of the example leave one closed dwell. */
  lemma AwayStep(ps: seq<Ping>, g: string)
    requires g != "" && Strip(g) == g
    requires GoAwayAndBack(ps, g)
    ensures Run(ps[..3], true) == Pass(None, [Dwell(g, 0, 200)])
  {
    var p0, p1, p2 := ps[0], ps[1], ps[2];
    assert ps[..3] == [p0, p1, p2];
    FirstVisit(g, p0, p1, p2);
  }

  /** The fourth ping reopens a dwell in the same geofence. */
  lemma BackStep(ps: seq<Ping>, g: string)
    requires g != "" && Strip(g) == g
    requires GoAwayAndBack(ps, g)
    requires Run(ps[..3], true) == Pass(None, [Dwell(g, 0, 200)])
    ensures Run(ps[..4], true) == Pass(Some(Open(g, 300)), [Dwell(g, 0, 200)])
  {
    Reentry(g, ps[..3], ps[3], Dwell(g, 0, 200));
    assert ps[..4] == ps[..3] + [ps[3]];
  }

  /** The fifth and last ping closes the reopened dwell. */
  lemma StayStep(ps: seq<Ping>, g: string)
    requires g != "" && Strip(g) == g
    requires GoAwayAndBack(ps, g)
    requires Run(ps[..4], true) == Pass(Some(Open(g, 300)), [Dwell(g, 0, 200)])
    ensures Dwells(ps) == [Dwell(g, 0, 200), Dwell(g, 300, 400)]
  {
    SecondVisit(g, ps[..4], ps[4], Dwell(g, 0, 200));
    assert ps[..4] + [ps[4]] == ps;
  }

  /** Leaving a geofence and coming back gives two dwells in the same geofence. */
  lemma SameLabelDwells(ps: seq<Ping>, g: string)
    requires g != "" && Strip(g) == g
    requires GoAwayAndBack(ps, g)
    ensures Dwells(ps) == [Dwell(g, 0, 200), Dwell(g, 300, 400)]
  {
    AwayStep(ps, g);
    BackStep(ps, g);
    StayStep(ps, g);
  }

  /**
   * The same-geofence dwells above are paired into a transition from the
   * geofence to itself, a pair the older rule can never produce.
   */
  lemma SameLabelTransitionPossible(vehicle: string, ps: seq<Ping>, g: string)
    requires g != "" && Strip(g) == g
    requires GoAwayAndBack(ps, g)
    ensures NewestTransitions(vehicle, ps) == [Transition(vehicle, g, g, 0, 200, 200, TurnoConFecha(0))]
  {
    SameLabelDwells(ps, g);
    var ds := [Dwell(g, 0, 200), Dwell(g, 300, 400)];
    assert ds[1..][1..] == [];
  }
}

=== FILE: shifts.dfy ===
/**
 * The shift tagger: `turno` and `turno_con_fecha`.
 *
 * A timestamp is an integer number of seconds since 1970-01-01 00:00 in the
 * site's local time. The calendar date is the day number `t / 86400`
 * (`Timestamp.normalize()`), the time of day is `t % 86400`; both are floor
 * operations, which is what Dafny's Euclidean `/` and `%` give for the
 * positive divisor.
 */
module Shifts {

  const SecondsPerDay: int := 86400
  /** SHIFT_DAY_START = 08:00. */
  const DayStart: int := 8 * 3600
  /** SHIFT_NIGHT_START = 20:00. */
  const NightStart: int := 20 * 3600
  /** Both shifts last twelve hours. */
  const ShiftLength: int := 12 * 3600

  datatype Shift = Dia | Noche

  /** A shift tag with the date (day number) the shift started on. */
  datatype ShiftTag = ShiftTag(shift: Shift, date: int)

  function TimeOfDay(t: int): (r: int)
    ensures 0 <= r < SecondsPerDay
  {
    t % SecondsPerDay
  }

  /** The calendar date of a timestamp, as a day number. */
  function DateOf(t: int): int
  {
    t / SecondsPerDay
  }

  /** `turno`: "dia" from 08:00 up to but excluding 20:00, "noche" otherwise. */
  function Turno(t: int): Shift
  {
    if DayStart <= TimeOfDay(t) < NightStart then Dia else Noche
  }

  /**
   * `turno_con_fecha`: the shift and the date it belongs to; a night shift
   * observed before 08:00 belongs to the shift that started the previous day.
   */
  function TurnoConFecha(t: int): ShiftTag
  {
    var h := TimeOfDay(t);
    if DayStart <= h < NightStart then ShiftTag(Dia, DateOf(t))
    else if h < DayStart then ShiftTag(Noche, DateOf(t) - 1)
    else ShiftTag(Noche, DateOf(t))
  }

  /** The instant at which the shift `tag` begins. */
  function ShiftStart(tag: ShiftTag): int
  {
    tag.date * SecondsPerDay + (if tag.shift == Dia then DayStart else NightStart)
  }

  /** The instant belongs to the twelve-hour window of the shift `tag`. */
  predicate Within(t: int, tag: ShiftTag)
  {
    ShiftStart(tag) <= t < ShiftStart(tag) + ShiftLength
  }

  /**
   * Every instant has exactly one shift: the tag `turno_con_fecha` returns is
   * the one and only shift whose twelve-hour window, starting at 08:00 or
   * 20:00 of its date, contains the instant. Boundary instants belong to the
   * shift that starts at them.
   */
  lemma TurnoConFechaIsTheEnclosingShift(t: int, tag: ShiftTag)
    ensures TurnoConFecha(t) == tag <==> Within(t, tag)
  {
    var d := DateOf(t);
    var h := TimeOfDay(t);
    assert t == d * SecondsPerDay + h;
    var r := TurnoConFecha(t);
    assert Within(t, r);
    if Within(t, tag) {
      // Two windows that both contain t start less than 12 hours apart, while
      // distinct shift starts are a multiple of 12 hours apart.
      assert ShiftStart(tag) == (2 * tag.date + (if tag.shift == Dia then 0 else 1)) * ShiftLength + DayStart;
      assert ShiftStart(r) == (2 * r.date + (if r.shift == Dia then 0 else 1)) * ShiftLength + DayStart;
    }
  }

  /** The two taggers agree on the shift. */
  lemma TurnoConFechaAgreesWithTurno(t: int)
    ensures TurnoConFecha(t).shift == Turno(t)
  {
  }

  /**
   * Day shift holds exactly from 08:00 to 20:00 with the same date; before
   * 08:00 it is the previous date's night, from 20:00 the same date's night.
   */
  lemma TurnoConFechaCases(t: int)
    ensures TurnoConFecha(t).shift == Dia <==> DayStart <= TimeOfDay(t) < NightStart
    ensures TimeOfDay(t) < DayStart ==> TurnoConFecha(t) == ShiftTag(Noche, DateOf(t) - 1)
    ensures NightStart <= TimeOfDay(t) ==> TurnoConFecha(t) == ShiftTag(Noche, DateOf(t))
    ensures TurnoConFecha(t).date == DateOf(t) || TurnoConFecha(t).date == DateOf(t) - 1
  {
  }

  /** 2025-01-15 as a day number. */
  const Jan15th2025: int := 20103

  /**
   * The boundary instants of 2025-01-15: 07:59:59 is the night of the 14th,
   * 08:00 and 19:59:59 are the day of the 15th, 20:00 the night of the 15th;
   * and the hour-level cases of the `turno` test table.
   */
  lemma ShiftBoundaries()
    ensures TurnoConFecha(Jan15th2025 * SecondsPerDay + 7 * 3600 + 59 * 60 + 59) == ShiftTag(Noche, Jan15th2025 - 1)
    ensures TurnoConFecha(Jan15th2025 * SecondsPerDay + 8 * 3600) == ShiftTag(Dia, Jan15th2025)
    ensures TurnoConFecha(Jan15th2025 * SecondsPerDay + 19 * 3600 + 59 * 60 + 59) == ShiftTag(Dia, Jan15th2025)
    ensures TurnoConFecha(Jan15th2025 * SecondsPerDay + 20 * 3600) == ShiftTag(Noche, Jan15th2025)
    ensures Turno(Jan15th2025 * SecondsPerDay + 12 * 3600) == Dia
    ensures Turno(Jan15th2025 * SecondsPerDay + 19 * 3600 + 59 * 60) == Dia
    ensures Turno(Jan15th2025 * SecondsPerDay + 23 * 3600) == Noche
    ensures Turno(Jan15th2025 * SecondsPerDay + 2 * 3600) == Noche
    ensures Turno(Jan15th2025 * SecondsPerDay + 7 * 3600 + 59 * 60) == Noche
  {
  }
}

=== FILE: sorting.dfy ===
/**
 * A stable insertion sort over sequences, parameterised by the ordering.
 * It stands for pandas' `sort_values` wherever the pipeline sorts a table;
 * for rows that compare equal pandas promises no particular order, and the
 * stable order produced here is one of the orders it may produce.
 */
module Sorting {

  /** `leq` is a total preorder: any two values compare, and it is transitive. */
  ghost predicate TotalPreorder<T(!new)>(leq: (T, T) -> bool)
  {
    && (forall a, b :: leq(a, b) || leq(b, a))
    && (forall a, b, c :: leq(a, b) && leq(b, c) ==> leq(a, c))
  }

  /** Every element is `leq` each one after it. */
  ghost predicate SortedBy<T>(s: seq<T>, leq: (T, T) -> bool)
  {
    forall i, j :: 0 <= i < j < |s| ==> leq(s[i], s[j])
  }

  /** Insert `x` into the sorted `s`, before the first element it is `leq` to. */
  function Insert<T(!new)>(x: T, s: seq<T>, leq: (T, T) -> bool): (r: seq<T>)
    requires TotalPreorder(leq)
    requires SortedBy(s, leq)
    ensures SortedBy(r, leq)
    ensures multiset(r) == multiset(s) + multiset{x}
    ensures |r| == |s| + 1
  {
    if |s| == 0 then [x]
    else if leq(x, s[0]) then
      BelowHead(x, s, leq);
      ConsSorted(x, s, leq);
      [x] + s
    else
      var rest := Insert(x, s[1..], leq);
      HeadBelowTail(s, leq);
      AllAbove(s[0], x, s[1..], rest, leq);
      ConsSorted(s[0], rest, leq);
      assert s == [s[0]] + s[1..];
      [s[0]] + rest
  }

  /** An element `leq` to everything in a sorted sequence can go in front of it. */
  lemma ConsSorted<T>(a: T, s: seq<T>, leq: (T, T) -> bool)
    requires SortedBy(s, leq)
    requires forall k :: 0 <= k < |s| ==> leq(a, s[k])
    ensures SortedBy([a] + s, leq)
  {
    var r := [a] + s;
    forall i, j | 0 <= i < j < |r| ensures leq(r[i], r[j]) {
      assert r[j] == s[j - 1];
      if i > 0 {
        assert r[i] == s[i - 1];
      }
    }
  }

  /** Below the head of a sorted sequence is below all of it. */
  lemma BelowHead<T(!new)>(x: T, s: seq<T>, leq: (T, T) -> bool)
    requires TotalPreorder(leq) && SortedBy(s, leq) && |s| > 0 && leq(x, s[0])
    ensures forall k :: 0 <= k < |s| ==> leq(x, s[k])
  {
    forall k | 0 <= k < |s| ensures leq(x, s[k]) {
      if k > 0 {
        assert leq(s[0], s[k]);
      }
    }
  }

  /** The head of a sorted sequence is below its tail, which is sorted too. */
  lemma HeadBelowTail<T>(s: seq<T>, leq: (T, T) -> bool)
    requires SortedBy(s, leq) && |s| > 0
    ensures SortedBy(s[1..], leq)
    ensures forall k :: 0 <= k < |s[1..]| ==> leq(s[0], s[1..][k])
  {
    forall k | 0 <= k < |s[1..]| ensures leq(s[0], s[1..][k]) {
      assert s[1..][k] == s[k + 1];
    }
  }

  /** Whatever is below `x` and all of `tail` is below every element of a rearrangement of both. */
  lemma AllAbove<T>(a: T, x: T, tail: seq<T>, rest: seq<T>, leq: (T, T) -> bool)
    requires leq(a, x)
    requires forall k :: 0 <= k < |tail| ==> leq(a, tail[k])
    requires multiset(rest) == multiset(tail) + multiset{x}
    ensures forall k :: 0 <= k < |rest| ==> leq(a, rest[k])
  {
    forall k | 0 <= k < |rest| ensures leq(a, rest[k]) {
      assert rest[k] in multiset(rest);
      if rest[k] != x {
        assert rest[k] in multiset(tail);
        var j :| 0 <= j < |tail| && tail[j] == rest[k];
      }
    }
  }

  /** Sort `s` by `leq`, keeping equal elements in their input order. */
  function SortBy<T(!new)>(s: seq<T>, leq: (T, T) -> bool): (r: seq<T>)
    requires TotalPreorder(leq)
    ensures SortedBy(r, leq)
    ensures multiset(r) == multiset(s)
    ensures |r| == |s|
  {
    if |s| == 0 then []
    else
      assert s == [s[0]] + s[1..];
      Insert(s[0], SortBy(s[1..], leq), leq)
  }

  /** The sum of `f` over the elements of `s`. */
  function SumBy<T>(s: seq<T>, f: T -> real): real
  {
    if |s| == 0 then 0.0 else f(s[0]) + SumBy(s[1..], f)
  }

  /** The sum of the integer `f` over the elements of `s`. */
  function SumIntBy<T>(s: seq<T>, f: T -> int): int
  {
    if |s| == 0 then 0 else f(s[0]) + SumIntBy(s[1..], f)
  }

  /** Sorting keeps exactly the elements it was given. */
  lemma SortByMembers<T(!new)>(s: seq<T>, leq: (T, T) -> bool)
    requires TotalPreorder(leq)
    ensures forall x :: x in SortBy(s, leq) <==> x in s
  {
    var r := SortBy(s, leq);
    forall x ensures x in r <==> x in s {
      assert x in r <==> x in multiset(r);
      assert x in s <==> x in multiset(s);
    }
  }

  lemma {:induction false} InsertKeepsSums<T(!new)>(x: T, s: seq<T>, leq: (T, T) -> bool, f: T -> real, g: T -> int)
    requires TotalPreorder(leq)
    requires SortedBy(s, leq)
    ensures SumBy(Insert(x, s, leq), f) == f(x) + SumBy(s, f)
    ensures SumIntBy(Insert(x, s, leq), g) == g(x) + SumIntBy(s, g)
  {
    if |s| == 0 {
    } else if leq(x, s[0]) {
      assert ([x] + s)[1..] == s;
    } else {
      InsertKeepsSums(x, s[1..], leq, f, g);
      var rest := Insert(x, s[1..], leq);
      assert ([s[0]] + rest)[1..] == rest;
    }
  }

  /** Reordering a table does not change any column's total. */
  lemma {:induction false} SortByKeepsSums<T(!new)>(s: seq<T>, leq: (T, T) -> bool, f: T -> real, g: T -> int)
    requires TotalPreorder(leq)
    ensures SumBy(SortBy(s, leq), f) == SumBy(s, f)
    ensures SumIntBy(SortBy(s, leq), g) == SumIntBy(s, g)
  {
    if |s| > 0 {
      SortByKeepsSums(s[1..], leq, f, g);
      InsertKeepsSums(s[0], SortBy(s[1..], leq), leq, f, g);
    }
  }
}

=== FILE: stays.dfy ===
/**
 * The stays ("estadías") and trips ("vueltas") of app.py and app2.py.
 *
 * A missing geofence cell becomes the state "En tránsito"; those rows are
 * dropped; of the rest only the rows whose state differs from the row before
 * survive (the first row of each run); each survivor after the first is a
 * stay entered at its instant, coming from the previous survivor's geofence,
 * and left at the next survivor's instant (absent for the last one).
 */
module Stays {

  import opened Basics

  /** The state given to a row with no geofence. */
  const Transit: string := "En tránsito"

  /** One row of one vehicle: its instant and its "Geocercas" cell. */
  datatype StateRow = StateRow(time: int, cell: Option<string>)

  /** `Geocerca_estado`: the cell, or "En tránsito" when it is missing. */
  function State(r: StateRow): string
  {
    match r.cell
    case None => Transit
    case Some(g) => g
  }

  /** A surviving row: its state and instant. */
  datatype Mark = Mark(geofence: string, time: int)

  /** The rows whose state is not "En tránsito", as marks, in order. */
  function NotInTransit(rs: seq<StateRow>): (r: seq<Mark>)
    ensures |r| <= |rs|
    ensures forall i :: 0 <= i < |r| ==> r[i].geofence != Transit
    ensures forall m :: m in r <==> exists i :: 0 <= i < |rs| && State(rs[i]) != Transit && m == MarkOf(rs[i])
  {
    if |rs| == 0 then []
    else
      var n := |rs| - 1;
      assert forall i :: 0 <= i < n ==> rs[..n][i] == rs[i];
      NotInTransit(rs[..n]) + (if State(rs[n]) != Transit then [MarkOf(rs[n])] else [])
  }

  function MarkOf(r: StateRow): Mark { Mark(State(r), r.time) }

  /** Filtering a concatenation concatenates the filtered parts, so the marks keep the rows' order. */
  lemma {:induction false} NotInTransitAppend(a: seq<StateRow>, b: seq<StateRow>)
    ensures NotInTransit(a + b) == NotInTransit(a) + NotInTransit(b)
    decreases |b|
  {
    if |b| == 0 {
      assert a + b == a;
    } else {
      assert (a + b)[..|a + b| - 1] == a + b[..|b| - 1];
      NotInTransitAppend(a, b[..|b| - 1]);
    }
  }

  /** `df[df[col] != df[col].shift()]`: the first mark of every run of equal states. */
  function RunHeads(ms: seq<Mark>): (r: seq<Mark>)
    ensures |r| <= |ms|
  {
    if |ms| == 0 then []
    else
      var n := |ms| - 1;
      RunHeads(ms[..n]) + (if n == 0 || ms[n].geofence != ms[n - 1].geofence then [ms[n]] else [])
  }

  /** One stay: where the vehicle came from, where it is, when it entered and left. */
  datatype Stay = Stay(previous: string, geofence: string, entry: int, exit: Option<int>)

  /** `Duración_horas`: the stay's length in hours, missing when the exit is. */
  function Hours(s: Stay): Option<real>
  {
    match s.exit
    case None => None
    case Some(x) => Some((x - s.entry) as real / 3600.0)
  }

  /** The stays of a sequence of survivors: every survivor but the first. */
  function StaysOf(heads: seq<Mark>): (r: seq<Stay>)
    ensures |r| == if |heads| == 0 then 0 else |heads| - 1
  {
    if |heads| < 2 then []
    else
      seq(|heads| - 1, k requires 0 <= k < |heads| - 1 =>
        Stay(heads[k].geofence, heads[k + 1].geofence, heads[k + 1].time,
             if k + 2 < |heads| then Some(heads[k + 2].time) else None))
  }

  /** The stays of one vehicle's rows, in time order. */
  function Stays(rs: seq<StateRow>): seq<Stay>
  {
    StaysOf(RunHeads(NotInTransit(rs)))
  }

  /** Two adjacent survivors never share a state. */
  lemma {:induction false} RunHeadsAlternate(ms: seq<Mark>)
    ensures var h := RunHeads(ms);
      forall i :: 0 <= i < |h| - 1 ==> h[i].geofence != h[i + 1].geofence
    ensures |ms| > 0 ==> |RunHeads(ms)| > 0 && RunHeads(ms)[|RunHeads(ms)| - 1].geofence == ms[|ms| - 1].geofence
  {
    if |ms| > 0 {
      var n := |ms| - 1;
      RunHeadsAlternate(ms[..n]);
      var before := RunHeads(ms[..n]);
      var h := RunHeads(ms);
      if n == 0 || ms[n].geofence != ms[n - 1].geofence {
        assert h == before + [ms[n]];
        if n > 0 {
          assert ms[..n][n - 1] == ms[n - 1];
        }
      } else {
        assert h == before;
        assert ms[..n][n - 1] == ms[n - 1];
      }
    }
  }

  /**
   * Every survivor is a mark, and a mark survives exactly when it is the
   * first or its state differs from the mark just before it.
   */
  lemma {:induction false} RunHeadsAreRunStarts(ms: seq<Mark>, m: Mark)
    ensures m in RunHeads(ms) <==>
              exists i :: 0 <= i < |ms| && ms[i] == m && (i == 0 || ms[i].geofence != ms[i - 1].geofence)
  {
    if |ms| > 0 {
      var n := |ms| - 1;
      RunHeadsAreRunStarts(ms[..n], m);
      if m in RunHeads(ms) && m in RunHeads(ms[..n]) {
        var i :| 0 <= i < n && ms[..n][i] == m && (i == 0 || ms[..n][i].geofence != ms[..n][i - 1].geofence);
        assert ms[i] == m && (i == 0 || ms[i].geofence != ms[i - 1].geofence);
      }
      if exists i :: 0 <= i < |ms| && ms[i] == m && (i == 0 || ms[i].geofence != ms[i - 1].geofence) {
        var i :| 0 <= i < |ms| && ms[i] == m && (i == 0 || ms[i].geofence != ms[i - 1].geofence);
        if i < n {
          assert ms[..n][i] == m && (i == 0 || ms[..n][i].geofence != ms[..n][i - 1].geofence);
        }
      }
    }
  }

  /** On marks that already alternate, collapsing changes nothing; in particular it is idempotent. */
  lemma {:induction false} RunHeadsOfAlternating(ms: seq<Mark>)
    requires forall i :: 0 <= i < |ms| - 1 ==> ms[i].geofence != ms[i + 1].geofence
    ensures RunHeads(ms) == ms
  {
    if |ms| > 0 {
      var n := |ms| - 1;
      RunHeadsOfAlternating(ms[..n]);
      assert ms[..n] + [ms[n]] == ms;
    }
  }

  lemma RunHeadsIdempotent(ms: seq<Mark>)
    ensures RunHeads(RunHeads(ms)) == RunHeads(ms)
  {
    RunHeadsAlternate(ms);
    RunHeadsOfAlternating(RunHeads(ms));
  }

  /**
   * The stays of alternating survivors: one per survivor after the first;
   * each comes from the survivor before it, a different geofence; each is
   * left when the next one is entered, and only the last has no exit.
   */
  lemma StaysOfSpec(h: seq<Mark>)
    requires forall i :: 0 <= i < |h| - 1 ==> h[i].geofence != h[i + 1].geofence
    ensures forall k :: 0 <= k < |StaysOf(h)| ==>
              && StaysOf(h)[k].previous == h[k].geofence && StaysOf(h)[k].geofence == h[k + 1].geofence
              && StaysOf(h)[k].entry == h[k + 1].time
              && StaysOf(h)[k].previous != StaysOf(h)[k].geofence
    ensures forall k :: 0 <= k < |StaysOf(h)| - 1 ==> StaysOf(h)[k].exit == Some(StaysOf(h)[k + 1].entry)
    ensures |StaysOf(h)| > 0 ==> StaysOf(h)[|StaysOf(h)| - 1].exit.None?
  {
    var st := StaysOf(h);
    forall k | 0 <= k < |st|
      ensures && st[k].previous == h[k].geofence && st[k].geofence == h[k + 1].geofence
              && st[k].entry == h[k + 1].time && st[k].previous != st[k].geofence
    {
      StaysOfAt(h, k);
    }
    forall k | 0 <= k < |st| - 1 ensures st[k].exit == Some(st[k + 1].entry) {
      StaysOfAt(h, k);
      StaysOfAt(h, k + 1);
    }
    if |st| > 0 {
      StaysOfAt(h, |st| - 1);
    }
  }

  lemma StaysOfAt(h: seq<Mark>, k: int)
    requires 0 <= k < |StaysOf(h)|
    ensures StaysOf(h)[k] == Stay(h[k].geofence, h[k + 1].geofence, h[k + 1].time,
                                  if k + 2 < |h| then Some(h[k + 2].time) else None)
  {
  }

  /**
   * The stays of a vehicle's rows: those of its survivors, which alternate
   * and are never "En tránsito".
   */
  lemma StaysSpec(rs: seq<StateRow>)
    ensures var h := RunHeads(NotInTransit(rs)); var st := Stays(rs);
      && |st| == (if |h| == 0 then 0 else |h| - 1)
      && (forall k :: 0 <= k < |st| ==>
            && st[k].previous == h[k].geofence && st[k].geofence == h[k + 1].geofence
            && st[k].entry == h[k + 1].time
            && st[k].previous != st[k].geofence
            && st[k].previous != Transit && st[k].geofence != Transit)
      && (forall k :: 0 <= k < |st| - 1 ==> st[k].exit == Some(st[k + 1].entry))
      && (|st| > 0 ==> st[|st| - 1].exit.None?)
  {
    var ms := NotInTransit(rs);
    RunHeadsAlternate(ms);
    StaysOfSpec(RunHeads(ms));
    RunHeadsNeverInTransit(ms);
  }

  /** Collapsing runs keeps only marks, so no survivor is "En tránsito" when no mark is. */
  lemma RunHeadsNeverInTransit(ms: seq<Mark>)
    requires forall i :: 0 <= i < |ms| ==> ms[i].geofence != Transit
    ensures forall k :: 0 <= k < |RunHeads(ms)| ==> RunHeads(ms)[k].geofence != Transit
  {
    var h := RunHeads(ms);
    forall k | 0 <= k < |h| ensures h[k].geofence != Transit {
      RunHeadsAreRunStarts(ms, h[k]);
    }
  }

  // ---------------------------------------------------------------------------
  // Vueltas
  // ---------------------------------------------------------------------------

  /** An (Origen, Destino) pair of the trip table. */
  datatype Route = Route(origin: string, destination: string)

  function RoutesOf(st: seq<Stay>): (r: seq<Route>)
    ensures |r| == |st| && forall k :: 0 <= k < |st| ==> r[k] == Route(st[k].previous, st[k].geofence)
  {
    if |st| == 0 then [] else RoutesOf(st[..|st| - 1]) + [Route(st[|st| - 1].previous, st[|st| - 1].geofence)]
  }

  /** `groupby(["Origen", "Destino"]).size()`: the number of stays per route. */
  function Vueltas(st: seq<Stay>): map<Route, nat>
  {
    var routes := RoutesOf(st);
    map r | r in routes :: multiset(routes)[r]
  }

  /** Every route in the trip table is the route of some stay. */
  lemma RouteTaken(st: seq<Stay>, r: Route)
    requires r in Vueltas(st)
    ensures exists k :: 0 <= k < |st| && r == Route(st[k].previous, st[k].geofence)
  {
    var routes := RoutesOf(st);
    assert r in routes;
    var k :| 0 <= k < |routes| && routes[k] == r;
  }

  /**
   * The trip table of stays that each change geofence: exactly the routes
   * taken, each with the number of stays along it, adding up to the number
   * of stays, and none from a geofence to itself.
   */
  lemma {:induction false} VueltasOfSpec(st: seq<Stay>)
    requires forall k :: 0 <= k < |st| ==> st[k].previous != st[k].geofence
    ensures var v := Vueltas(st);
      && (forall r :: r in v <==> exists k :: 0 <= k < |st| && r == Route(st[k].previous, st[k].geofence))
      && (forall r :: r in v ==> v[r] == multiset(RoutesOf(st))[r] > 0)
      && |multiset(RoutesOf(st))| == |st|
      && (forall r :: r in v ==> r.origin != r.destination)
  {
    forall r | r in Vueltas(st) ensures exists k :: 0 <= k < |st| && r == Route(st[k].previous, st[k].geofence) {
      RouteTaken(st, r);
    }
  }

  /** The trip table of a vehicle's rows, whose stays all change geofence. */
  lemma VueltasSpec(rs: seq<StateRow>)
    ensures var st := Stays(rs); var v := Vueltas(st);
      && (forall r :: r in v <==> exists k :: 0 <= k < |st| && r == Route(st[k].previous, st[k].geofence))
      && (forall r :: r in v ==> v[r] == multiset(RoutesOf(st))[r] > 0)
      && |multiset(RoutesOf(st))| == |st|
      && (forall r :: r in v ==> r.origin != r.destination)
  {
    StaysSpec(rs);
    VueltasOfSpec(Stays(rs));
  }

  // ---------------------------------------------------------------------------
  // Total hours
  // ---------------------------------------------------------------------------

  /** `Duración_horas.sum()`: pandas skips the missing duration of the last stay. */
  function TotalHours(st: seq<Stay>): real
  {
    if |st| == 0 then 0.0
    else TotalHours(st[..|st| - 1]) + (match Hours(st[|st| - 1]) case None => 0.0 case Some(h) => h)
  }

  /**
   * The stays' durations telescope: the total is the time from entering the
   * first stay to entering the last, in hours.
   */
  lemma {:induction false} TotalHoursTelescopes(st: seq<Stay>)
    requires forall k :: 0 <= k < |st| - 1 ==> st[k].exit == Some(st[k + 1].entry)
    requires |st| > 0 ==> st[|st| - 1].exit.None?
    ensures TotalHours(st) == if |st| == 0 then 0.0 else (st[|st| - 1].entry - st[0].entry) as real / 3600.0
    decreases |st|
  {
    if |st| > 1 {
      var pre := st[..|st| - 1];
      var m := |pre| - 1;
      var last := pre[m].(exit := None);
      var shifted := pre[..m] + [last];
      assert shifted[..m] == pre[..m];
      TotalHoursTelescopes(shifted);
      assert TotalHours(pre) == TotalHours(shifted) + (st[|st| - 1].entry - pre[m].entry) as real / 3600.0 by {
        assert pre[..m] == shifted[..m];
        assert pre[m].exit == Some(st[|st| - 1].entry);
      }
    }
  }

  lemma TotalHoursOfVehicle(rs: seq<StateRow>)
    ensures var st := Stays(rs);
      TotalHours(st) == if |st| == 0 then 0.0 else (st[|st| - 1].entry - st[0].entry) as real / 3600.0
  {
    StaysSpec(rs);
    TotalHoursTelescopes(Stays(rs));
  }

  // ---------------------------------------------------------------------------
  // All vehicles (app2.py) and one vehicle (app.py, app2.py)
  // ---------------------------------------------------------------------------

  /** A row of the whole table. */
  datatype FleetRow = FleetRow(vehicle: string, row: StateRow)

  /** `df[df["Nombre del Vehículo"] == v]`. */
  function RowsOf(rows: seq<FleetRow>, v: string): (r: seq<StateRow>)
    ensures |r| <= |rows|
  {
    if |rows| == 0 then []
    else RowsOf(rows[..|rows| - 1], v) + (if rows[|rows| - 1].vehicle == v then [rows[|rows| - 1].row] else [])
  }

  /** A stay with the vehicle it belongs to (column `Vehiculo`). */
  datatype VehicleStay = VehicleStay(vehicle: string, stay: Stay)

  function Tag(v: string, st: seq<Stay>): (r: seq<VehicleStay>)
    ensures |r| == |st| && forall k :: 0 <= k < |st| ==> r[k] == VehicleStay(v, st[k])
  {
    if |st| == 0 then [] else Tag(v, st[..|st| - 1]) + [VehicleStay(v, st[|st| - 1])]
  }

  /** The single-vehicle branch: the stays of the selected vehicle. */
  function VehicleStays(rows: seq<FleetRow>, v: string): seq<VehicleStay>
  {
    Tag(v, Stays(RowsOf(rows, v)))
  }

  /** The stays `per` gives each vehicle in turn, tagged and concatenated. */
  function TaggedConcat(vehicles: seq<string>, per: string -> seq<Stay>): seq<VehicleStay>
  {
    if |vehicles| == 0 then []
    else
      var w := vehicles[|vehicles| - 1];
      TaggedConcat(vehicles[..|vehicles| - 1], per) + Tag(w, per(w))
  }

  /**
   * The "Todos los vehículos" loop: the stays of each vehicle in turn,
   * concatenated. With no vehicle left after the date filter the list of
   * frames is empty and `pd.concat` raises ValueError (`None`).
   */
  function FleetStays(rows: seq<FleetRow>, vehicles: seq<string>): (r: Option<seq<VehicleStay>>)
    ensures r.None? <==> |vehicles| == 0
  {
    if |vehicles| == 0 then None
    else Some(TaggedConcat(vehicles, w => Stays(RowsOf(rows, w))))
  }

  /** The stays of one vehicle picked out of a table of stays. */
  function StaysFor(xs: seq<VehicleStay>, v: string): (r: seq<VehicleStay>)
    ensures |r| <= |xs|
  {
    if |xs| == 0 then []
    else StaysFor(xs[..|xs| - 1], v) + (if xs[|xs| - 1].vehicle == v then [xs[|xs| - 1]] else [])
  }

  lemma {:induction false} StaysForAppend(a: seq<VehicleStay>, b: seq<VehicleStay>, v: string)
    ensures StaysFor(a + b, v) == StaysFor(a, v) + StaysFor(b, v)
    decreases |b|
  {
    if |b| == 0 {
      assert a + b == a;
    } else {
      assert (a + b)[..|a + b| - 1] == a + b[..|b| - 1];
      StaysForAppend(a, b[..|b| - 1], v);
    }
  }

  lemma {:induction false} StaysForTagged(w: string, st: seq<Stay>, v: string)
    ensures StaysFor(Tag(w, st), v) == if w == v then Tag(w, st) else []
  {
    if |st| > 0 {
      StaysForTagged(w, st[..|st| - 1], v);
      var t := Tag(w, st);
      assert t[..|t| - 1] == Tag(w, st[..|st| - 1]);
    }
  }

  lemma {:induction false} TaggedConcatPicks(vehicles: seq<string>, per: string -> seq<Stay>, v: string)
    requires forall i, j :: 0 <= i < j < |vehicles| ==> vehicles[i] != vehicles[j]
    ensures StaysFor(TaggedConcat(vehicles, per), v) == if v in vehicles then Tag(v, per(v)) else []
  {
    if |vehicles| > 0 {
      var n := |vehicles| - 1;
      var w := vehicles[n];
      var front := vehicles[..n];
      var prev := TaggedConcat(front, per);
      var mine := Tag(w, per(w));
      assert TaggedConcat(vehicles, per) == prev + mine;
      assert forall i :: 0 <= i < n ==> front[i] == vehicles[i];
      assert vehicles == front + [w];
      TaggedConcatPicks(front, per, v);
      StaysForTagged(w, per(w), v);
      StaysForAppend(prev, mine, v);
      if w == v {
        assert v !in front;
        assert StaysFor(prev, v) == [];
      } else {
        assert StaysFor(mine, v) == [];
        assert v in vehicles <==> v in front;
      }
    }
  }

  /**
   * The all-vehicles table fails exactly when no vehicle is listed.
   * Otherwise, restricted to one of the listed vehicles, it is exactly what
   * the single-vehicle branch computes for it; and a vehicle that is not
   * listed has no stays in it.
   */
  lemma FleetAgreesWithSingleVehicle(rows: seq<FleetRow>, vehicles: seq<string>, v: string)
    requires forall i, j :: 0 <= i < j < |vehicles| ==> vehicles[i] != vehicles[j]
    ensures FleetStays(rows, vehicles).None? <==> |vehicles| == 0
    ensures FleetStays(rows, vehicles).Some? ==>
              StaysFor(FleetStays(rows, vehicles).value, v) == if v in vehicles then VehicleStays(rows, v) else []
  {
    TaggedConcatPicks(vehicles, w => Stays(RowsOf(rows, w)), v);
  }
}

=== FILE: taxonomy.dfy ===
/**
 * The geofence taxonomy (`poblar_dominios`): role sets derived from the labels
 * present in the data by substring tests on a normalised label.
 *
 * The source keeps the role sets in module-level globals; here they are a
 * value built from the labels and handed to every consumer. Each version of
 * the pipeline has its own builder; roles a version does not know are empty.
 */
module Taxonomy {

  import opened Basics
  import opened Text

  datatype Taxonomy = Taxonomy(
    stocks: set<string>,
    modules: set<string>,
    botaderos: set<string>,
    pilas: set<string>,
    nonOperational: set<string>)

  /** The fallback dump set used when no label names a dump. */
  const DefaultBotaderos: set<string> := {"Botaderos"}

  /** The distinct non-empty labels of the data. */
  function Geos(labels: seq<string>): set<string>
  {
    set g | g in labels && g != ""
  }

  /** The labels of `geos` whose normal form contains `key`. */
  function Matching(geos: set<string>, key: string): set<string>
  {
    set g | g in geos && Contains(Normalize(g), key)
  }

  /** The labels of `geos` whose lower-cased form contains `key` (no accent stripping). */
  function MatchingLower(geos: set<string>, key: string): set<string>
  {
    set g | g in geos && Contains(Lower(g), key)
  }

  /** `{...} or {"Botaderos"}`: an empty dump set is replaced by the fallback. */
  function OrDefault(s: set<string>): set<string>
  {
    if s == {} then DefaultBotaderos else s
  }

  /** app3: lower-casing only; dumps also by prefix; no piles and no non-operational sites. */
  function TaxonomyApp3(labels: seq<string>): Taxonomy
  {
    var geos := Geos(labels);
    Taxonomy(
      MatchingLower(geos, "stock"),
      MatchingLower(geos, "modulo"),
      OrDefault(set g | g in geos && (Contains(Lower(g), "botadero") || StartsWith(Lower(g), "botadero"))),
      {},
      {})
  }

  /** app4: stocks, modules and dumps on the normalised label. */
  function TaxonomyApp4(labels: seq<string>): Taxonomy
  {
    var geos := Geos(labels);
    Taxonomy(
      Matching(geos, "stock"),
      Matching(geos, "modulo"),
      OrDefault(Matching(geos, "botadero")),
      {},
      {})
  }

  /** app5: as app4, plus ROM piles named "pila rom". */
  function TaxonomyApp5(labels: seq<string>): Taxonomy
  {
    var geos := Geos(labels);
    Taxonomy(
      Matching(geos, "stock"),
      Matching(geos, "modulo"),
      OrDefault(Matching(geos, "botadero")),
      Matching(geos, "pila rom"),
      {})
  }

  /** app6: as app5, plus the site installations ("instalacion" or "faena"). */
  function TaxonomyApp6(labels: seq<string>): Taxonomy
  {
    var geos := Geos(labels);
    Taxonomy(
      Matching(geos, "stock"),
      Matching(geos, "modulo"),
      OrDefault(Matching(geos, "botadero")),
      Matching(geos, "pila rom"),
      Matching(geos, "instalacion") + Matching(geos, "faena"))
  }

  /**
   * The newest version: modules by "modulo" or "módulo", dumps with no
   * fallback, piles by "pila" and "rom" anywhere in the label, and the
   * non-operational sites "instalacion", "faena" and "casino".
   */
  function TaxonomyNewest(labels: seq<string>): Taxonomy
  {
    var geos := Geos(labels);
    Taxonomy(
      Matching(geos, "stock"),
      Matching(geos, "modulo") + Matching(geos, "m\U{F3}dulo"),
      Matching(geos, "botadero"),
      Matching(geos, "pila") * Matching(geos, "rom"),
      Matching(geos, "instalacion") + Matching(geos, "faena") + Matching(geos, "casino"))
  }

  /** Every label that has some role. */
  function Roles(t: Taxonomy): set<string>
  {
    t.stocks + t.modules + t.botaderos + t.pilas + t.nonOperational
  }

  /** The label occurs, not empty, in the data and its normal form has `key` at some offset. */
  ghost predicate Names(labels: seq<string>, g: string, key: string)
  {
    g in labels && g != "" && exists i :: OccursAt(Normalize(g), key, i)
  }

  /**
   * In the newest taxonomy every role set holds only non-empty labels that
   * occur in the data, and each role is exactly the set of labels whose
   * normal form contains the role's keyword(s) at some offset.
   */
  lemma NewestRolesAreSubstringMatches(labels: seq<string>, g: string)
    ensures forall x :: x in Roles(TaxonomyNewest(labels)) ==> x in labels && x != ""
    ensures g in TaxonomyNewest(labels).stocks <==> Names(labels, g, "stock")
    ensures g in TaxonomyNewest(labels).modules <==> Names(labels, g, "modulo")
    ensures g in TaxonomyNewest(labels).botaderos <==> Names(labels, g, "botadero")
    ensures g in TaxonomyNewest(labels).pilas <==> Names(labels, g, "pila") && Names(labels, g, "rom")
    ensures g in TaxonomyNewest(labels).nonOperational <==>
              Names(labels, g, "instalacion") || Names(labels, g, "faena") || Names(labels, g, "casino")
  {
    var n := Normalize(g);
    ContainsIff(n, "stock");
    ContainsIff(n, "modulo");
    ContainsIff(n, "botadero");
    ContainsIff(n, "pila");
    ContainsIff(n, "rom");
    ContainsIff(n, "instalacion");
    ContainsIff(n, "faena");
    ContainsIff(n, "casino");
    assert !IsFolded("m\U{F3}dulo"[1]);
    NormalizeHasNoAccent(g, "m\U{F3}dulo");
  }

  /**
   * The accented keyword "módulo" of the newest module test can never match,
   * because the label it is tested against is already accent-free: the module
   * set is the "modulo" matches alone.
   */
  lemma AccentedModuleKeywordIsDead(labels: seq<string>)
    ensures TaxonomyNewest(labels).modules == Matching(Geos(labels), "modulo")
  {
    assert !IsFolded("m\U{F3}dulo"[1]);
    forall g | g in Geos(labels) ensures !Contains(Normalize(g), "m\U{F3}dulo") {
      NormalizeHasNoAccent(g, "m\U{F3}dulo");
    }
  }

  /**
   * The dump fallback of app4, app5 and app6: when no label names a dump the
   * dump set is {"Botaderos"}; otherwise it is exactly the labels naming one,
   * all of them present in the data.
   */
  lemma DumpFallback(labels: seq<string>)
    ensures (forall g :: g in labels ==> !Contains(Normalize(g), "botadero")) ==>
              TaxonomyApp6(labels).botaderos == DefaultBotaderos
    ensures (exists g :: g in labels && g != "" && Contains(Normalize(g), "botadero")) ==>
              TaxonomyApp6(labels).botaderos == Matching(Geos(labels), "botadero")
              && forall x :: x in TaxonomyApp6(labels).botaderos ==> x in labels
    ensures TaxonomyApp4(labels).botaderos == TaxonomyApp5(labels).botaderos == TaxonomyApp6(labels).botaderos
  {
    if exists g :: g in labels && g != "" && Contains(Normalize(g), "botadero") {
      var g :| g in labels && g != "" && Contains(Normalize(g), "botadero");
      assert g in Matching(Geos(labels), "botadero");
    }
  }

  /**
   * The versions only add roles: app4 ⊆ app5 ⊆ app6 on every role, and the
   * roles app4 and app5 share are equal.
   */
  lemma VersionsAgreeOnSharedRoles(labels: seq<string>)
    ensures TaxonomyApp4(labels).stocks == TaxonomyApp5(labels).stocks == TaxonomyApp6(labels).stocks
    ensures TaxonomyApp4(labels).modules == TaxonomyApp5(labels).modules == TaxonomyApp6(labels).modules
    ensures TaxonomyApp5(labels).pilas == TaxonomyApp6(labels).pilas
    ensures TaxonomyApp4(labels).pilas == {} && TaxonomyApp4(labels).nonOperational == {}
    ensures TaxonomyApp5(labels).nonOperational == {}
  {
  }

  /**
   * "Módulo 1" is a module for the accent-stripping versions, but not for
   * app3, which only lower-cases and so keeps the accent.
   */
  lemma AccentedModuleOnlyWithNormalisation()
    ensures "M\U{F3}dulo 1" in TaxonomyApp4(["M\U{F3}dulo 1"]).modules
    ensures "M\U{F3}dulo 1" in TaxonomyNewest(["M\U{F3}dulo 1"]).modules
    ensures "M\U{F3}dulo 1" !in TaxonomyApp3(["M\U{F3}dulo 1"]).modules
  {
    var g := "M\U{F3}dulo 1";
    ModuloOneNormalises();
    ModuloOneSpelling();
    assert StartsWith("modulo" + " 1", "modulo");
    assert g in Geos([g]);
    LowerKeepsAccent();
  }

  lemma ModuloOneNormalises()
    ensures Normalize("M\U{F3}dulo 1") == "modulo 1"
  {
    NormalizeChar('M');
    NormalizeChar('\U{F3}');
    FoldedFixed("dulo 1");
    NormalizeAppend("M", "\U{F3}" + "dulo 1");
    NormalizeAppend("\U{F3}", "dulo 1");
    ModuloOneSpelling();
  }

  lemma ModuloOneSpelling()
    ensures "M\U{F3}dulo 1" == "M" + ("\U{F3}" + "dulo 1")
    ensures "m" + ("o" + "dulo 1") == "modulo 1" == "modulo" + " 1"
    ensures ['M'] == "M" && ['\U{F3}'] == "\U{F3}"
    ensures FoldChar('M') == Some('m') && FoldChar('\U{F3}') == Some('o')
  {
  }

  lemma LowerKeepsAccent()
    ensures !Contains(Lower("M\U{F3}dulo 1"), "modulo")
  {
    var l := Lower("M\U{F3}dulo 1");
    assert l[1] == '\U{F3}' && |l| == 8;
    ContainsIff(l, "modulo");
    forall i | 0 <= i <= |l| - 6 ensures !OccursAt(l, "modulo", i) {
      if i == 0 {
        assert l[i..i + 6][1] == l[1];
      } else {
        assert l[i..i + 6][0] == l[i];
        assert l[i] == LowerChar("M\U{F3}dulo 1"[i]);
      }
    }
  }

  /** The role sets need not be disjoint: "Stock Modulo" is both a stock and a module. */
  lemma RolesMayOverlap(g: string)
    requires g == "Stock " + "Modulo"
    ensures g in TaxonomyNewest([g]).stocks * TaxonomyNewest([g]).modules
  {
    CapitalisedWordNormalises('S', "tock ");
    CapitalisedWordNormalises('M', "odulo");
    StockModuloSpelling();
    NormalizeAppend("Stock ", "Modulo");
    assert StartsWith("stock" + " modulo", "stock");
    ContainsSuffix("stock ", "modulo");
    assert g in Geos([g]);
  }

  lemma StockModuloSpelling()
    ensures "Stock " == ['S'] + "tock " && "Modulo" == ['M'] + "odulo"
    ensures ([LowerChar('S')] + "tock ") + ([LowerChar('M')] + "odulo") == "stock " + "modulo" == "stock" + " modulo"
  {
  }
}

=== FILE: text.dfy ===
/**
 * String helpers the pipeline relies on: Python's `str.strip`, `str.lower`,
 * the accent-stripping `normalizar` helper, the `in` substring test,
 * Python's ordering of strings and decimal rendering of counts.
 *
 * Characters are Unicode code points (`char`). Lower-casing and accent
 * stripping are modelled for ASCII and the Latin-1 block, which covers the
 * Spanish geofence names the system works with.
 */
module Text {

  import opened Basics

  // ---------------------------------------------------------------------------
  // Whitespace and str.strip
  // ---------------------------------------------------------------------------

  /** Exactly the characters for which Python's `str.isspace` is true. */
  predicate IsSpace(c: char)
  {
    || c == ' ' || ('\t' <= c <= '\r')
    || ('\U{1C}' <= c <= '\U{1F}')
    || c == '\U{85}' || c == '\U{A0}' || c == '\U{1680}'
    || ('\U{2000}' <= c <= '\U{200A}')
    || c == '\U{2028}' || c == '\U{2029}' || c == '\U{202F}' || c == '\U{205F}' || c == '\U{3000}'
  }

  function StripLeft(s: string): (r: string)
    ensures |r| <= |s| && r == s[|s| - |r|..]
    ensures |r| > 0 ==> !IsSpace(r[0])
    ensures forall i :: 0 <= i < |s| - |r| ==> IsSpace(s[i])
  {
    if |s| > 0 && IsSpace(s[0]) then StripLeft(s[1..]) else s
  }

  function StripRight(s: string): (r: string)
    ensures |r| <= |s| && r == s[..|r|]
    ensures |r| > 0 ==> !IsSpace(r[|r| - 1])
    ensures forall i :: |r| <= i < |s| ==> IsSpace(s[i])
  {
    if |s| > 0 && IsSpace(s[|s| - 1]) then StripRight(s[..|s| - 1]) else s
  }

  /** Python's `str.strip()`: drop leading and trailing whitespace. */
  function Strip(s: string): string
  {
    StripRight(StripLeft(s))
  }

  /**
   * `Strip` keeps a contiguous middle part of its input, everything it drops
   * is whitespace, and what it keeps neither starts nor ends with whitespace.
   */
  lemma StripCharacterised(s: string)
    ensures exists i, j :: (0 <= i <= j <= |s| && Strip(s) == s[i..j]
                            && (forall k :: 0 <= k < i ==> IsSpace(s[k]))
                            && (forall k :: j <= k < |s| ==> IsSpace(s[k])))
    ensures |Strip(s)| > 0 ==> !IsSpace(Strip(s)[0]) && !IsSpace(Strip(s)[|Strip(s)| - 1])
  {
    var i, j := StripBounds(s);
    var l := StripLeft(s);
    if |Strip(s)| > 0 {
      assert Strip(s)[0] == l[0];
    }
  }

  /** The bounds of the part `Strip` keeps. */
  lemma StripBounds(s: string) returns (i: nat, j: nat)
    ensures i <= j <= |s| && Strip(s) == s[i..j]
    ensures forall k :: 0 <= k < i ==> IsSpace(s[k])
    ensures forall k :: j <= k < |s| ==> IsSpace(s[k])
  {
    var l := StripLeft(s);
    i := |s| - |l|;
    var r := StripRight(l);
    j := i + |r|;
    assert r == l[..|r|];
    forall k | j <= k < |s| ensures IsSpace(s[k]) {
      assert s[k] == l[k - i];
    }
  }

  lemma StripIdempotent(s: string)
    ensures Strip(Strip(s)) == Strip(s)
  {
    var t := Strip(s);
    StripCharacterised(s);
    if |t| > 0 {
      assert StripLeft(t) == t;
      assert StripRight(t) == t;
    }
  }

  /** A string consisting only of whitespace strips to the empty string. */
  lemma {:induction false} StripAllSpace(s: string)
    requires forall i :: 0 <= i < |s| ==> IsSpace(s[i])
    ensures Strip(s) == ""
    decreases |s|
  {
    if |s| > 0 {
      StripAllSpace(s[1..]);
      assert StripLeft(s) == StripLeft(s[1..]);
    }
  }

  // ---------------------------------------------------------------------------
  // Case folding and accent stripping
  // ---------------------------------------------------------------------------

  /** Python's `str.lower` on one character (ASCII and Latin-1 upper case). */
  function LowerChar(c: char): char
  {
    if 'A' <= c <= 'Z' then (c as int + 32) as char
    else if '\U{C0}' <= c <= '\U{DE}' && c != '\U{D7}' then (c as int + 32) as char
    else c
  }

  /** Python's `str.lower`. */
  function Lower(s: string): (r: string)
    ensures |r| == |s|
    ensures forall i :: 0 <= i < |s| ==> r[i] == LowerChar(s[i])
  {
    if |s| == 0 then "" else [LowerChar(s[0])] + Lower(s[1..])
  }

  /**
   * One character through `normalize("NFD")`, `encode("ascii", "ignore")`
   * and `lower()`: ASCII letters are lower-cased, accented Latin-1 letters
   * become their lower-case base letter, and every other non-ASCII
   * character is dropped. Decomposition is modelled for Latin-1 only: a
   * character outside it that NFD would split into an ASCII letter and
   * combining marks keeps that letter in Python but is dropped here.
   */
  function FoldChar(c: char): Option<char>
  {
    if c < '\U{80}' then Some(LowerChar(c))
    else if c == '\U{C7}' || c == '\U{E7}' then Some('c')
    else if c == '\U{D1}' || c == '\U{F1}' then Some('n')
    else if ('\U{C0}' <= c <= '\U{C5}') || ('\U{E0}' <= c <= '\U{E5}') then Some('a')
    else if ('\U{C8}' <= c <= '\U{CB}') || ('\U{E8}' <= c <= '\U{EB}') then Some('e')
    else if ('\U{CC}' <= c <= '\U{CF}') || ('\U{EC}' <= c <= '\U{EF}') then Some('i')
    else if ('\U{D2}' <= c <= '\U{D6}') || ('\U{F2}' <= c <= '\U{F6}') then Some('o')
    else if ('\U{D9}' <= c <= '\U{DC}') || ('\U{F9}' <= c <= '\U{FC}') then Some('u')
    else if c == '\U{DD}' || c == '\U{FD}' || c == '\U{FF}' then Some('y')
    else None
  }

  predicate IsFolded(c: char)
  {
    c < '\U{80}' && !('A' <= c <= 'Z')
  }

  /** The `normalizar` helper: strip accents and lower-case. */
  function Normalize(s: string): (r: string)
    ensures |r| <= |s|
    ensures forall i :: 0 <= i < |r| ==> IsFolded(r[i])
  {
    if |s| == 0 then ""
    else match FoldChar(s[0])
      case Some(c) => [c] + Normalize(s[1..])
      case None => Normalize(s[1..])
  }

  /** Normalising twice is the same as normalising once. */
  lemma {:induction false} NormalizeIdempotent(s: string)
    ensures Normalize(Normalize(s)) == Normalize(s)
  {
    var n := Normalize(s);
    forall c | c in n ensures IsFolded(c) {
      var i :| 0 <= i < |n| && n[i] == c;
    }
    FoldedFixed(n);
  }

  /** A string that is already lower-case ASCII is its own normal form. */
  lemma {:induction false} FoldedFixed(s: string)
    requires forall c :: c in s ==> IsFolded(c)
    ensures Normalize(s) == s
    decreases |s|
  {
    if |s| > 0 {
      assert s[0] in s;
      assert FoldChar(s[0]) == Some(s[0]);
      forall c | c in s[1..] ensures IsFolded(c) {
        assert c in s;
      }
      FoldedFixed(s[1..]);
      assert s == [s[0]] + s[1..];
    }
  }

  /** A capitalised ASCII word normalises to the word with its initial lower-cased. */
  lemma CapitalisedWordNormalises(c: char, rest: string)
    requires 'A' <= c <= 'Z'
    requires forall x :: x in rest ==> IsFolded(x)
    ensures Normalize([c] + rest) == [LowerChar(c)] + rest
  {
    NormalizeChar(c);
    FoldedFixed(rest);
    NormalizeAppend([c], rest);
  }

  /** Normalisation works character by character, so it distributes over concatenation. */
  lemma {:induction false} NormalizeAppend(a: string, b: string)
    ensures Normalize(a + b) == Normalize(a) + Normalize(b)
    decreases |a|
  {
    if |a| > 0 {
      assert (a + b)[0] == a[0];
      assert (a + b)[1..] == a[1..] + b;
      NormalizeAppend(a[1..], b);
    } else {
      assert a + b == b;
    }
  }

  /** A single character normalises to its folded form, or to nothing. */
  lemma NormalizeChar(c: char)
    ensures FoldChar(c).Some? ==> Normalize([c]) == [FoldChar(c).value]
    ensures FoldChar(c).None? ==> Normalize([c]) == ""
  {
    assert [c][1..] == "";
  }

  /** A normalised string never contains a non-ASCII character such as an accented vowel. */
  lemma NormalizeHasNoAccent(s: string, sub: string)
    requires |sub| > 0 && exists k :: 0 <= k < |sub| && !IsFolded(sub[k])
    ensures !Contains(Normalize(s), sub)
  {
    var n := Normalize(s);
    var k :| 0 <= k < |sub| && !IsFolded(sub[k]);
    ContainsIff(n, sub);
    forall i | 0 <= i <= |n| - |sub| ensures !OccursAt(n, sub, i) {
      assert n[i..i + |sub|][k] == n[i + k];
    }
  }

  // ---------------------------------------------------------------------------
  // Substring test (Python's `a in b` on strings)
  // ---------------------------------------------------------------------------

  predicate StartsWith(s: string, p: string)
  {
    |p| <= |s| && s[..|p|] == p
  }

  /** `Contains(s, p)` is Python's `p in s`. */
  predicate Contains(s: string, p: string)
  {
    StartsWith(s, p) || (|s| > 0 && Contains(s[1..], p))
  }

  /** `p` occurs in `s` starting at offset `i`. */
  predicate OccursAt(s: string, p: string, i: int)
  {
    0 <= i <= |s| - |p| && s[i..i + |p|] == p
  }

  /** A pattern longer than the text never occurs in it. */
  lemma {:induction false} ContainsFits(s: string, p: string)
    ensures Contains(s, p) ==> |p| <= |s|
    decreases |s|
  {
    if |s| > 0 {
      ContainsFits(s[1..], p);
    }
  }

  /** A string occurs in any string it ends. */
  lemma ContainsSuffix(a: string, b: string)
    ensures Contains(a + b, b)
  {
    assert (a + b)[|a|..|a| + |b|] == b;
    assert OccursAt(a + b, b, |a|);
    ContainsIff(a + b, b);
  }

  /** The recursive substring test agrees with "p occurs at some offset of s". */
  lemma ContainsIff(s: string, p: string)
    ensures Contains(s, p) <==> exists i :: OccursAt(s, p, i)
  {
    if Contains(s, p) {
      var i := ContainsSound(s, p);
    }
    forall i | OccursAt(s, p, i) ensures Contains(s, p) {
      ContainsComplete(s, p, i);
    }
  }

  /** Where the recursive substring test succeeds, the pattern occurs at some offset. */
  lemma {:induction false} ContainsSound(s: string, p: string) returns (i: nat)
    requires Contains(s, p)
    ensures OccursAt(s, p, i)
    decreases |s|
  {
    if StartsWith(s, p) {
      i := 0;
    } else {
      var i' := ContainsSound(s[1..], p);
      i := i' + 1;
      assert s[i..i + |p|] == s[1..][i'..i' + |p|];
    }
  }

  /** A pattern that occurs at some offset is found by the recursive substring test. */
  lemma {:induction false} ContainsComplete(s: string, p: string, i: int)
    requires OccursAt(s, p, i)
    ensures Contains(s, p)
    decreases |s|
  {
    if i > 0 {
      assert s[1..][i - 1..i - 1 + |p|] == s[i..i + |p|];
      ContainsComplete(s[1..], p, i - 1);
    }
  }

  /** Every string contains each of its slices. */
  lemma ContainsSlice(s: string, i: nat, j: nat)
    requires i <= j <= |s|
    ensures Contains(s, s[i..j])
  {
    ContainsIff(s, s[i..j]);
    assert OccursAt(s, s[i..j], i);
  }

  // ---------------------------------------------------------------------------
  // Python's ordering of strings (code point by code point)
  // ---------------------------------------------------------------------------

  /** `a <= b` on Python strings. */
  predicate LexLeq(a: string, b: string)
  {
    |a| == 0 || (|b| > 0 && (a[0] < b[0] || (a[0] == b[0] && LexLeq(a[1..], b[1..]))))
  }

  lemma {:induction false} LexLeqTotal(a: string, b: string)
    ensures LexLeq(a, b) || LexLeq(b, a)
    decreases |a|
  {
    if |a| > 0 && |b| > 0 && a[0] == b[0] {
      LexLeqTotal(a[1..], b[1..]);
    }
  }

  lemma {:induction false} LexLeqTransitive(a: string, b: string, c: string)
    requires LexLeq(a, b) && LexLeq(b, c)
    ensures LexLeq(a, c)
    decreases |a|
  {
    if |a| > 0 && a[0] == b[0] && b[0] == c[0] {
      LexLeqTransitive(a[1..], b[1..], c[1..]);
    }
  }

  lemma {:induction false} LexLeqAntisymmetric(a: string, b: string)
    requires LexLeq(a, b) && LexLeq(b, a)
    ensures a == b
    decreases |a|
  {
    if |a| > 0 {
      LexLeqAntisymmetric(a[1..], b[1..]);
      assert a == [a[0]] + a[1..];
      assert b == [b[0]] + b[1..];
    }
  }

  // ---------------------------------------------------------------------------
  // Decimal rendering of a count (Python's f"{n}")
  // ---------------------------------------------------------------------------

  predicate IsDigit(c: char)
  {
    '0' <= c <= '9'
  }

  function DigitChar(d: nat): char
    requires d < 10
  {
    ('0' as int + d) as char
  }

  function NatToString(n: nat): (r: string)
    ensures |r| > 0
    ensures forall i :: 0 <= i < |r| ==> IsDigit(r[i])
  {
    if n < 10 then [DigitChar(n)] else NatToString(n / 10) + [DigitChar(n % 10)]
  }

  function DigitValue(c: char): nat
    requires IsDigit(c)
  {
    c as int - '0' as int
  }

  function ParseNat(s: string): nat
    requires forall i :: 0 <= i < |s| ==> IsDigit(s[i])
  {
    if |s| == 0 then 0 else 10 * ParseNat(s[..|s| - 1]) + DigitValue(s[|s| - 1])
  }

  /** Reading back the rendered count gives the count. */
  lemma {:induction false} NatToStringRoundTrip(n: nat)
    ensures ParseNat(NatToString(n)) == n
  {
    if n >= 10 {
      NatToStringRoundTrip(n / 10);
      var r := NatToString(n);
      assert r[..|r| - 1] == NatToString(n / 10);
    } else {
      assert NatToString(n)[..0] == "";
    }
  }
}

=== FILE: transitions.dfy ===
/**
 * Geofence-to-geofence transitions of one vehicle (`extraer_transiciones`),
 * in its two semantics:
 *
 *  - the newest one segments the ping stream into dwells in a single pass,
 *    keeps the dwells that lasted at least 60 s and pairs consecutive kept
 *    dwells;
 *  - the older one (app3, app4, app5) drops the pings outside any geofence
 *    and pairs adjacent remaining pings whose labels differ, keeping the
 *    pairs at least 60 s apart.
 *
 * The input of both is one vehicle's pings in time order; the source obtains
 * them with a group-by on the vehicle name.
 */
module Transitions {

  import opened Basics
  import opened Text
  import opened Shifts
  import opened Events

  /** `UMBRAL_PERMANENCIA_REAL` of the newest segmentation, in seconds. */
  const MinDwellS: int := 60
  /** `MIN_ESTANCIA_S` of app3, app4 and app5, in seconds. */
  const MinEstanciaS: int := 60

  /**
   * One transition: the vehicle left `origin` for `destination`. `entry` and
   * `exit` are the instants the source reports as `Tiempo_entrada` and
   * `Tiempo_salida`, `duration` is `Duracion_s` and `tag` the shift of `entry`
   * (app3, app4 and app5 report only `tag.shift`).
   */
  datatype Transition = Transition(
    vehicle: string,
    origin: string,
    destination: string,
    entry: int,
    exit: int,
    duration: int,
    tag: ShiftTag)

  /** The pings of one vehicle are in time order. */
  predicate TimeOrdered(ps: seq<Ping>)
  {
    forall i, j :: 0 <= i < j < |ps| ==> ps[i].time <= ps[j].time
  }

  // ---------------------------------------------------------------------------
  // Newest semantics: dwell segmentation
  // ---------------------------------------------------------------------------

  /** A stay in one geofence, from the instant it was entered to the instant it was left. */
  datatype Dwell = Dwell(geofence: string, entry: int, exit: int)

  /** The dwell the pass currently has open: its (stripped) label and entry instant. */
  datatype Open = Open(geofence: string, entry: int)

  /**
   * Closing the open dwell at instant `t`; with `filtered` the dwell is only
   * recorded when it lasted at least `MinDwellS`. The unfiltered pass is the
   * reference the threshold is stated against.
   */
  function Close(o: Open, t: int, filtered: bool): seq<Dwell>
  {
    if !filtered || t - o.entry >= MinDwellS then [Dwell(o.geofence, o.entry, t)] else []
  }

  /** The state of the pass after some prefix: the open dwell and the dwells recorded so far. */
  datatype Pass = Pass(open: Option<Open>, dwells: seq<Dwell>)

  /** One iteration of the pass over the pings. */
  function Step(st: Pass, p: Ping, filtered: bool): Pass
  {
    var geo := Strip(p.geofence);
    if geo != "" then
      if st.open.Some? && st.open.value.geofence == geo then st
      else
        var closed := if st.open.Some? then Close(st.open.value, p.time, filtered) else [];
        Pass(Some(Open(geo, p.time)), st.dwells + closed)
    else if st.open.Some? then
      Pass(None, st.dwells + Close(st.open.value, p.time, filtered))
    else st
  }

  /** The pass over a prefix of the pings. */
  function Run(ps: seq<Ping>, filtered: bool): Pass
  {
    if |ps| == 0 then Pass(None, [])
    else Step(Run(ps[..|ps| - 1], filtered), ps[|ps| - 1], filtered)
  }

  /** The whole pass: a dwell still open after the last ping closes at the last ping's instant. */
  function DwellsOf(ps: seq<Ping>, filtered: bool): seq<Dwell>
  {
    var st := Run(ps, filtered);
    if st.open.Some? then st.dwells + Close(st.open.value, ps[|ps| - 1].time, filtered)
    else st.dwells
  }

  /** The kept dwells (step 1 of the newest `extraer_transiciones`). */
  function Dwells(ps: seq<Ping>): seq<Dwell>
  {
    DwellsOf(ps, true)
  }

  /** Every segment the pass closes, whatever its length. */
  function Segments(ps: seq<Ping>): seq<Dwell>
  {
    DwellsOf(ps, false)
  }

  /** The segments that lasted at least `MinDwellS`, in order. */
  function LongEnough(ds: seq<Dwell>): (r: seq<Dwell>)
    ensures |r| <= |ds|
  {
    if |ds| == 0 then []
    else LongEnough(ds[..|ds| - 1]) + (if ds[|ds| - 1].exit - ds[|ds| - 1].entry >= MinDwellS then [ds[|ds| - 1]] else [])
  }

  lemma {:induction false} LongEnoughAppend(a: seq<Dwell>, b: seq<Dwell>)
    ensures LongEnough(a + b) == LongEnough(a) + LongEnough(b)
    decreases |b|
  {
    if |b| == 0 {
      assert a + b == a;
    } else {
      assert (a + b)[..|a + b| - 1] == a + b[..|b| - 1];
      LongEnoughAppend(a, b[..|b| - 1]);
    }
  }

  /** Closing with the threshold keeps exactly the long segment closing without it produces. */
  lemma CloseFilters(o: Open, t: int)
    ensures Close(o, t, true) == LongEnough(Close(o, t, false))
  {
    var c := Close(o, t, false);
    assert c[..|c| - 1] == [];
  }

  /** One step keeps the filtered pass equal to the filter of the unfiltered pass. */
  lemma StepFilters(a: Pass, b: Pass, p: Ping)
    requires a.open == b.open && a.dwells == LongEnough(b.dwells)
    ensures Step(a, p, true).open == Step(b, p, false).open
    ensures Step(a, p, true).dwells == LongEnough(Step(b, p, false).dwells)
  {
    if b.open.Some? {
      var c := Close(b.open.value, p.time, false);
      CloseFilters(b.open.value, p.time);
      LongEnoughAppend(b.dwells, c);
      var geo := Strip(p.geofence);
      if geo != "" && b.open.value.geofence != geo {
        assert Step(b, p, false).dwells == b.dwells + c;
        assert Step(a, p, true).dwells == a.dwells + Close(a.open.value, p.time, true);
      } else if geo == "" {
        assert Step(b, p, false).dwells == b.dwells + c;
        assert Step(a, p, true).dwells == a.dwells + Close(a.open.value, p.time, true);
      }
    } else {
      assert a.dwells + [] == a.dwells && b.dwells + [] == b.dwells;
    }
  }

  /** The open dwell does not depend on the threshold, and the recorded dwells are the long segments. */
  lemma {:induction false} RunFiltersSegments(ps: seq<Ping>)
    ensures Run(ps, true).open == Run(ps, false).open
    ensures Run(ps, true).dwells == LongEnough(Run(ps, false).dwells)
  {
    if |ps| > 0 {
      RunFiltersSegments(ps[..|ps| - 1]);
      StepFilters(Run(ps[..|ps| - 1], true), Run(ps[..|ps| - 1], false), ps[|ps| - 1]);
    }
  }

  /**
   * A dwell is recorded iff it lasted at least 60 s (the boundary is
   * inclusive): the kept dwells are exactly the segments of the unfiltered
   * pass whose duration reaches the threshold, in the same order.
   */
  lemma DwellKeptIffLongEnough(ps: seq<Ping>)
    ensures Dwells(ps) == LongEnough(Segments(ps))
    ensures forall d :: d in Dwells(ps) <==> d in Segments(ps) && d.exit - d.entry >= MinDwellS
  {
    RunFiltersSegments(ps);
    var st := Run(ps, false);
    if st.open.Some? {
      LongEnoughAppend(st.dwells, Close(st.open.value, ps[|ps| - 1].time, false));
    }
    if st.open.Some? {
      CloseFilters(st.open.value, ps[|ps| - 1].time);
    }
    LongEnoughMembers(Segments(ps));
  }

  lemma {:induction false} LongEnoughMembers(ds: seq<Dwell>)
    ensures forall d :: d in LongEnough(ds) <==> d in ds && d.exit - d.entry >= MinDwellS
  {
    if |ds| > 0 {
      LongEnoughMembers(ds[..|ds| - 1]);
      assert ds == ds[..|ds| - 1] + [ds[|ds| - 1]];
    }
  }

  /**
   * A run of pings that all repeat the open dwell's label leaves the pass
   * unchanged, so it never restarts the dwell: if the pings end there, the
   * dwell is closed with its original entry instant at the last repeat.
   */
  lemma RepeatedLabelKeepsDwell(ps: seq<Ping>, qs: seq<Ping>, filtered: bool)
    requires Run(ps, filtered).open.Some?
    requires forall k :: 0 <= k < |qs| ==> Strip(qs[k].geofence) == Run(ps, filtered).open.value.geofence
    ensures Run(ps + qs, filtered) == Run(ps, filtered)
    ensures |qs| > 0 ==>
              (DwellsOf(ps + qs, filtered) ==
               Run(ps, filtered).dwells + Close(Run(ps, filtered).open.value, qs[|qs| - 1].time, filtered))
  {
    RepeatsKeepPass(ps, qs, filtered);
    if |qs| > 0 {
      assert (ps + qs)[|ps + qs| - 1] == qs[|qs| - 1];
    }
  }

  lemma {:induction false} RepeatsKeepPass(ps: seq<Ping>, qs: seq<Ping>, filtered: bool)
    requires Run(ps, filtered).open.Some?
    requires forall k :: 0 <= k < |qs| ==> Strip(qs[k].geofence) == Run(ps, filtered).open.value.geofence
    ensures Run(ps + qs, filtered) == Run(ps, filtered)
    decreases |qs|
  {
    if |qs| == 0 {
      assert ps + qs == ps;
    } else {
      var n := |qs| - 1;
      var pre := ps + qs[..n];
      assert forall k :: 0 <= k < n ==> qs[..n][k] == qs[k];
      RepeatsKeepPass(ps, qs[..n], filtered);
      RunSnoc(pre, qs[n], filtered);
      RunOpensLabelled(ps, filtered);
      StepRepeatKeeps(Run(ps, filtered), qs[n], filtered);
      SplitLast(ps, qs);
    }
  }

  lemma SplitLast(ps: seq<Ping>, qs: seq<Ping>)
    requires |qs| > 0
    ensures (ps + qs[..|qs| - 1]) + [qs[|qs| - 1]] == ps + qs
  {
    assert qs == qs[..|qs| - 1] + [qs[|qs| - 1]];
  }

  lemma StepRepeatKeeps(st: Pass, p: Ping, filtered: bool)
    requires st.open.Some? && st.open.value.geofence != "" && Strip(p.geofence) == st.open.value.geofence
    ensures Step(st, p, filtered) == st
  {
  }

  /** The pass only ever opens a dwell under a non-blank label. */
  lemma {:induction false} RunOpensLabelled(ps: seq<Ping>, filtered: bool)
    ensures Run(ps, filtered).open.Some? ==> Run(ps, filtered).open.value.geofence != ""
  {
    if |ps| > 0 {
      RunOpensLabelled(ps[..|ps| - 1], filtered);
    }
  }

  lemma StepTransitKeeps(st: Pass, p: Ping, filtered: bool)
    requires st.open.None? && Strip(p.geofence) == ""
    ensures Step(st, p, filtered) == st
  {
  }

  /**
   * While no dwell is open, any run of pings outside every geofence changes
   * nothing: no dwell opens and none is recorded.
   */
  lemma TransitWithoutOpenDwellIsIgnored(ps: seq<Ping>, qs: seq<Ping>, filtered: bool)
    requires Run(ps, filtered).open.None?
    requires forall k :: 0 <= k < |qs| ==> Strip(qs[k].geofence) == ""
    ensures Run(ps + qs, filtered) == Run(ps, filtered)
    ensures DwellsOf(ps + qs, filtered) == DwellsOf(ps, filtered)
  {
    TransitsKeepPass(ps, qs, filtered);
  }

  lemma {:induction false} TransitsKeepPass(ps: seq<Ping>, qs: seq<Ping>, filtered: bool)
    requires Run(ps, filtered).open.None?
    requires forall k :: 0 <= k < |qs| ==> Strip(qs[k].geofence) == ""
    ensures Run(ps + qs, filtered) == Run(ps, filtered)
    decreases |qs|
  {
    if |qs| == 0 {
      assert ps + qs == ps;
    } else {
      var n := |qs| - 1;
      var pre := ps + qs[..n];
      assert forall k :: 0 <= k < n ==> qs[..n][k] == qs[k];
      TransitsKeepPass(ps, qs[..n], filtered);
      RunSnoc(pre, qs[n], filtered);
      StepTransitKeeps(Run(ps, filtered), qs[n], filtered);
      SplitLast(ps, qs);
    }
  }

  /** Each dwell was left no earlier than the previous one was entered, and was entered at or after the previous exit. */
  predicate Chained(ds: seq<Dwell>)
  {
    forall i :: 0 <= i < |ds| - 1 ==> ds[i].exit <= ds[i + 1].entry
  }

  /** The recorded dwells are chained, long enough and all left by instant `last`. */
  predicate DwellsInvariant(ds: seq<Dwell>, last: int)
  {
    && Chained(ds)
    && (forall i :: 0 <= i < |ds| ==> ds[i].exit - ds[i].entry >= MinDwellS)
    && (forall i :: 0 <= i < |ds| ==> ds[i].exit <= last)
  }

  /** The invariant of the filtered pass over time-ordered pings. */
  predicate PassInvariant(st: Pass, last: int)
  {
    && DwellsInvariant(st.dwells, last)
    && (st.open.Some? ==> st.open.value.entry <= last)
    && (st.open.Some? && |st.dwells| > 0 ==> st.dwells[|st.dwells| - 1].exit <= st.open.value.entry)
  }

  lemma DwellsLater(ds: seq<Dwell>, last: int, t: int)
    requires DwellsInvariant(ds, last) && last <= t
    ensures DwellsInvariant(ds, t)
  {
  }

  lemma AppendDwell(ds: seq<Dwell>, d: Dwell, last: int)
    requires DwellsInvariant(ds, last) && last <= d.exit
    requires d.exit - d.entry >= MinDwellS
    requires |ds| > 0 ==> ds[|ds| - 1].exit <= d.entry
    ensures DwellsInvariant(ds + [d], d.exit)
  {
    var r := ds + [d];
    assert forall i :: 0 <= i < |ds| ==> r[i] == ds[i];
  }

  /** One step at instant `p.time`, no earlier than every instant seen so far, keeps the invariant. */
  lemma StepInvariant(st: Pass, last: int, p: Ping)
    requires PassInvariant(st, last) && last <= p.time
    ensures PassInvariant(Step(st, p, true), p.time)
  {
    var geo := Strip(p.geofence);
    var ds := st.dwells;
    DwellsLater(ds, last, p.time);
    if st.open.Some? && !(geo != "" && st.open.value.geofence == geo) {
      var o := st.open.value;
      if p.time - o.entry >= MinDwellS {
        var d := Dwell(o.geofence, o.entry, p.time);
        AppendDwell(ds, d, last);
        assert Close(o, p.time, true) == [d];
        assert Step(st, p, true).dwells == ds + [d];
      } else {
        assert Close(o, p.time, true) == [];
        assert Step(st, p, true).dwells == ds;
      }
    }
  }

  lemma {:induction false} RunInvariant(ps: seq<Ping>)
    requires |ps| > 0 && TimeOrdered(ps)
    ensures PassInvariant(Run(ps, true), ps[|ps| - 1].time)
  {
    var init := ps[..|ps| - 1];
    var p := ps[|ps| - 1];
    if |init| == 0 {
      StepInvariant(Pass(None, []), p.time, p);
    } else {
      assert TimeOrdered(init);
      RunInvariant(init);
      assert init[|init| - 1].time <= p.time;
      StepInvariant(Run(init, true), init[|init| - 1].time, p);
    }
  }

  /**
   * Over one vehicle's time-ordered pings the kept dwells each last at least
   * 60 s, are entered at or after the previous dwell was left, and so have
   * strictly increasing entry instants.
   */
  lemma DwellsAreOrdered(ps: seq<Ping>)
    requires TimeOrdered(ps)
    ensures forall i :: 0 <= i < |Dwells(ps)| ==> Dwells(ps)[i].exit - Dwells(ps)[i].entry >= MinDwellS
    ensures Chained(Dwells(ps))
    ensures forall i, j :: 0 <= i < j < |Dwells(ps)| ==> Dwells(ps)[i].entry < Dwells(ps)[j].entry
  {
    var ds := Dwells(ps);
    if |ps| > 0 {
      RunInvariant(ps);
    }
    forall i, j | 0 <= i < j < |ds| ensures ds[i].entry < ds[j].entry {
      ChainedEntries(ds, i, j);
    }
  }

  lemma {:induction false} ChainedEntries(ds: seq<Dwell>, i: int, j: int)
    requires Chained(ds)
    requires forall k :: 0 <= k < |ds| ==> ds[k].exit - ds[k].entry >= MinDwellS
    requires 0 <= i < j < |ds|
    ensures ds[i].entry + MinDwellS <= ds[j].entry
    decreases j - i
  {
    if j > i + 1 {
      ChainedEntries(ds, i, j - 1);
    }
  }

  /** One iteration of the source's loop, with the open dwell held in two variables. */
  method ScanPing(open: Option<Open>, ds: seq<Dwell>, p: Ping) returns (open': Option<Open>, ds': seq<Dwell>)
    ensures Pass(open', ds') == Step(Pass(open, ds), p, true)
  {
    open', ds' := open, ds;
    var geo := Strip(p.geofence);
    var t := p.time;
    if geo != "" {
      if open.None? || open.value.geofence != geo {
        if open.Some? && t - open.value.entry >= MinDwellS {
          ds' := ds + [Dwell(open.value.geofence, open.value.entry, t)];
        }
        open' := Some(Open(geo, t));
      }
    } else if open.Some? {
      if t - open.value.entry >= MinDwellS {
        ds' := ds + [Dwell(open.value.geofence, open.value.entry, t)];
      }
      open' := None;
    }
  }

  /** The source's loop over the pings, then the dwell still open at the end. */
  method ScanDwells(ps: seq<Ping>) returns (ds: seq<Dwell>)
    ensures ds == Dwells(ps)
  {
    var open: Option<Open> := None;
    ds := [];
    var i := 0;
    while i < |ps|
      invariant 0 <= i <= |ps|
      invariant Run(ps[..i], true) == Pass(open, ds)
    {
      open, ds := ScanPing(open, ds, ps[i]);
      RunPrefix(ps, i, true);
      i := i + 1;
    }
    assert ps[..|ps|] == ps;
    if open.Some? {
      var last := ps[|ps| - 1].time;
      if last - open.value.entry >= MinDwellS {
        ds := ds + [Dwell(open.value.geofence, open.value.entry, last)];
      }
    }
  }

  /** The pass over one more ping of `ps` is one more step. */
  lemma RunPrefix(ps: seq<Ping>, i: int, filtered: bool)
    requires 0 <= i < |ps|
    ensures Run(ps[..i + 1], filtered) == Step(Run(ps[..i], filtered), ps[i], filtered)
  {
    assert ps[..i + 1][..i] == ps[..i];
  }

  /** The pass over `ps` followed by `p` is one more step. */
  lemma RunSnoc(ps: seq<Ping>, p: Ping, filtered: bool)
    ensures Run(ps + [p], filtered) == Step(Run(ps, filtered), p, filtered)
  {
    assert (ps + [p])[..|ps|] == ps;
  }

  /** A ping in geofence `g` entered from transit opens a dwell in `g`. */
  lemma StepEnters(st: Pass, p: Ping, g: string)
    requires st.open.None? && g != "" && Strip(p.geofence) == g
    ensures Step(st, p, true) == Pass(Some(Open(g, p.time)), st.dwells)
  {
    assert st.dwells + [] == st.dwells;
  }

  /** A ping in transit closes the open dwell. */
  lemma StepLeaves(st: Pass, p: Ping)
    requires st.open.Some? && Strip(p.geofence) == ""
    ensures Step(st, p, true) == Pass(None, st.dwells + Close(st.open.value, p.time, true))
  {
  }

  /**
   * Step 2: transition `i` pairs kept dwell `i` with kept dwell `i + 1`; it is
   * timed by dwell `i` and tagged with the shift of its entry.
   */
  function PairDwells(vehicle: string, ds: seq<Dwell>): (r: seq<Transition>)
    ensures |r| == if |ds| == 0 then 0 else |ds| - 1
    ensures forall i :: 0 <= i < |r| ==>
              && r[i].vehicle == vehicle
              && r[i].origin == ds[i].geofence && r[i].destination == ds[i + 1].geofence
              && r[i].entry == ds[i].entry && r[i].exit == ds[i].exit
              && r[i].duration == r[i].exit - r[i].entry
              && Within(r[i].entry, r[i].tag)
  {
    if |ds| < 2 then []
    else
      TurnoConFechaIsTheEnclosingShift(ds[0].entry, TurnoConFecha(ds[0].entry));
      [Transition(vehicle, ds[0].geofence, ds[1].geofence, ds[0].entry, ds[0].exit,
                  ds[0].exit - ds[0].entry, TurnoConFecha(ds[0].entry))]
      + PairDwells(vehicle, ds[1..])
  }

  /** The newest `extraer_transiciones` for one vehicle. */
  function NewestTransitions(vehicle: string, ps: seq<Ping>): seq<Transition>
  {
    PairDwells(vehicle, Dwells(ps))
  }

  /**
   * The newest transitions of a vehicle: exactly one fewer than its kept
   * dwells, each lasting at least 60 s, in strictly increasing entry order,
   * each one's exit no later than the next one's entry.
   */
  lemma NewestTransitionsSpec(vehicle: string, ps: seq<Ping>)
    requires TimeOrdered(ps)
    ensures var ts := NewestTransitions(vehicle, ps);
      && |ts| == (if |Dwells(ps)| == 0 then 0 else |Dwells(ps)| - 1)
      && (forall i :: 0 <= i < |ts| ==> ts[i].duration >= MinDwellS)
      && (forall i, j :: 0 <= i < j < |ts| ==> ts[i].entry < ts[j].entry)
      && (forall i :: 0 <= i < |ts| - 1 ==> ts[i].exit <= ts[i + 1].entry)
  {
    DwellsAreOrdered(ps);
  }

  // ---------------------------------------------------------------------------
  // Older semantics (app3, app4, app5): adjacent non-empty pings
  // ---------------------------------------------------------------------------

  /** `g[g["Geocerca"] != ""]`: the pings inside some geofence, in order. */
  function InGeofence(ps: seq<Ping>): (r: seq<Ping>)
    ensures |r| <= |ps|
    ensures forall i :: 0 <= i < |r| ==> r[i].geofence != ""
  {
    if |ps| == 0 then []
    else (if ps[0].geofence != "" then [ps[0]] else []) + InGeofence(ps[1..])
  }

  /** The filter keeps exactly the labelled pings, each as many times as it occurs. */
  lemma {:induction false} InGeofenceKeeps(ps: seq<Ping>)
    ensures forall p :: multiset(InGeofence(ps))[p] == if p.geofence != "" then multiset(ps)[p] else 0
    ensures forall p :: p in InGeofence(ps) <==> p in ps && p.geofence != ""
  {
    if |ps| > 0 {
      assert ps == [ps[0]] + ps[1..];
      InGeofenceKeeps(ps[1..]);
    }
  }

  /** The filter keeps the order: filtering a concatenation concatenates the filtered parts. */
  lemma {:induction false} InGeofenceAppend(a: seq<Ping>, b: seq<Ping>)
    ensures InGeofence(a + b) == InGeofence(a) + InGeofence(b)
    decreases |a|
  {
    if |a| == 0 {
      assert a + b == b;
      assert InGeofence(a) == [];
    } else {
      var h: seq<Ping> := if a[0].geofence != "" then [a[0]] else [];
      assert (a + b)[0] == a[0];
      assert (a + b)[1..] == a[1..] + b;
      assert InGeofence(a + b) == h + InGeofence(a[1..] + b);
      InGeofenceAppend(a[1..], b);
      assert InGeofence(a) == h + InGeofence(a[1..]);
      ConcatAssociative(h, InGeofence(a[1..]), InGeofence(b));
    }
  }

  /** Whether the adjacent in-geofence pings `a`, `b` make a transition. */
  predicate IsChange(a: Ping, b: Ping)
  {
    a.geofence != b.geofence && b.time - a.time >= MinEstanciaS
  }

  function ChangeOf(vehicle: string, a: Ping, b: Ping): Transition
  {
    Transition(vehicle, a.geofence, b.geofence, a.time, b.time, b.time - a.time, TurnoConFecha(a.time))
  }

  /** The adjacent pairs of `q` that make a transition, in order. */
  function Changes(vehicle: string, q: seq<Ping>): seq<Transition>
  {
    if |q| < 2 then []
    else (if IsChange(q[0], q[1]) then [ChangeOf(vehicle, q[0], q[1])] else []) + Changes(vehicle, q[1..])
  }

  /** `extraer_transiciones` of app3, app4 and app5 for one vehicle. */
  function PairwiseTransitions(vehicle: string, ps: seq<Ping>): seq<Transition>
  {
    Changes(vehicle, InGeofence(ps))
  }

  lemma ChangesIff(vehicle: string, q: seq<Ping>, t: Transition)
    ensures t in Changes(vehicle, q) <==>
              exists i :: 0 <= i < |q| - 1 && IsChange(q[i], q[i + 1]) && t == ChangeOf(vehicle, q[i], q[i + 1])
  {
    if t in Changes(vehicle, q) {
      var i := ChangesSound(vehicle, q, t);
    }
    if exists i :: 0 <= i < |q| - 1 && IsChange(q[i], q[i + 1]) && t == ChangeOf(vehicle, q[i], q[i + 1]) {
      var i :| 0 <= i < |q| - 1 && IsChange(q[i], q[i + 1]) && t == ChangeOf(vehicle, q[i], q[i + 1]);
      ChangesComplete(vehicle, q, i);
    }
  }

  /** Each transition comes from an adjacent pair: the position of one. */
  lemma {:induction false} ChangesSound(vehicle: string, q: seq<Ping>, t: Transition) returns (i: nat)
    requires t in Changes(vehicle, q)
    ensures i < |q| - 1 && IsChange(q[i], q[i + 1]) && t == ChangeOf(vehicle, q[i], q[i + 1])
  {
    var tail := q[1..];
    if IsChange(q[0], q[1]) && t == ChangeOf(vehicle, q[0], q[1]) {
      i := 0;
    } else {
      assert t in Changes(vehicle, tail);
      var j := ChangesSound(vehicle, tail, t);
      assert tail[j] == q[j + 1] && tail[j + 1] == q[j + 2];
      i := j + 1;
    }
  }

  /** Each adjacent pair that changes geofence gives a transition. */
  lemma {:induction false} ChangesComplete(vehicle: string, q: seq<Ping>, i: nat)
    requires i < |q| - 1 && IsChange(q[i], q[i + 1])
    ensures ChangeOf(vehicle, q[i], q[i + 1]) in Changes(vehicle, q)
  {
    if i > 0 {
      var tail := q[1..];
      assert tail[i - 1] == q[i] && tail[i] == q[i + 1];
      ChangesComplete(vehicle, tail, i - 1);
    }
  }

  /**
   * Appending one ping adds at most one transition, at the end: the one its
   * pair with the previous ping makes, if that pair is a change. So the
   * transitions come out one per changing pair, in ping order.
   */
  lemma {:induction false} ChangesSnoc(vehicle: string, q: seq<Ping>, p: Ping)
    ensures Changes(vehicle, q + [p]) ==
              Changes(vehicle, q) + (if |q| > 0 && IsChange(q[|q| - 1], p) then [ChangeOf(vehicle, q[|q| - 1], p)] else [])
  {
    if |q| >= 2 {
      assert (q + [p])[1..] == q[1..] + [p];
      ChangesSnoc(vehicle, q[1..], p);
      var head := if IsChange(q[0], q[1]) then [ChangeOf(vehicle, q[0], q[1])] else [];
      var last := if IsChange(q[|q| - 1], p) then [ChangeOf(vehicle, q[|q| - 1], p)] else [];
      ConcatAssociative(head, Changes(vehicle, q[1..]), last);
    }
  }

  /**
   * A new ping outside every geofence adds no transition; one inside adds
   * exactly the transition from the last in-geofence ping, if that pair is a
   * change, after all the earlier ones.
   */
  lemma PairwiseTransitionsSnoc(vehicle: string, ps: seq<Ping>, x: Ping)
    ensures var q := InGeofence(ps);
      PairwiseTransitions(vehicle, ps + [x]) ==
        PairwiseTransitions(vehicle, ps)
        + (if x.geofence != "" && |q| > 0 && IsChange(q[|q| - 1], x) then [ChangeOf(vehicle, q[|q| - 1], x)] else [])
  {
    var q := InGeofence(ps);
    InGeofenceAppend(ps, [x]);
    assert [x][1..] == [];
    if x.geofence != "" {
      assert InGeofence([x]) == [x];
      ChangesSnoc(vehicle, q, x);
    } else {
      assert InGeofence([x]) == [];
      assert q + [] == q;
    }
  }

  /**
   * The older rule emits a transition exactly for the adjacent pairs of
   * in-geofence pings whose labels differ and which are at least 60 s apart:
   * origin is the earlier ping's label, entry its instant, exit the later
   * ping's instant. Hence origin and destination always differ and every
   * duration reaches the threshold.
   */
  lemma PairwiseTransitionsSpec(vehicle: string, ps: seq<Ping>, t: Transition)
    ensures var q := InGeofence(ps);
      t in PairwiseTransitions(vehicle, ps) <==>
        exists i :: 0 <= i < |q| - 1 && q[i].geofence != q[i + 1].geofence
                    && q[i + 1].time - q[i].time >= MinEstanciaS
                    && t == Transition(vehicle, q[i].geofence, q[i + 1].geofence, q[i].time, q[i + 1].time,
                                       q[i + 1].time - q[i].time, TurnoConFecha(q[i].time))
    ensures t in PairwiseTransitions(vehicle, ps) ==>
              t.origin != t.destination && t.duration >= MinEstanciaS && t.duration == t.exit - t.entry
              && t.origin != "" && t.destination != ""
  {
    ChangesIff(vehicle, InGeofence(ps), t);
  }

  /** A pair `q[i]`, `q[i + 1]` whose labels are equal never yields a transition, however far apart. */
  lemma {:induction false} SameLabelNeverPairs(vehicle: string, q: seq<Ping>)
    requires forall i :: 0 <= i < |q| ==> q[i].geofence == q[0].geofence
    ensures Changes(vehicle, q) == []
  {
    if |q| >= 2 {
      assert forall i :: 0 <= i < |q[1..]| ==> q[1..][i].geofence == q[1..][0].geofence;
      SameLabelNeverPairs(vehicle, q[1..]);
    }
  }
}

=== FILE: zones.dfy ===
/**
 * Grouping of nearby candidate zones (`agrupar_zonas_cercanas`). Which
 * candidates lie within the grouping radius of each other is decided by a
 * density clustering over the centres; the clusters are an input here. A
 * cluster of one candidate passes through; a larger one becomes a single
 * zone named after its size that adds up the minutes and the pings and spans
 * from the earliest start to the latest end. The zones come out longest
 * first.
 */
module Zones {

  import opened Text
  import opened Sorting
  import Episodes

  type Candidate = Episodes.Candidate

  /**
   * A grouped zone: its name (`Nombre del Vehículo`), `Duracion_Minutos`,
   * `Registros`, `Inicio`, `Fin`, `Zonas_Agrupadas` and
   * `Vehiculos_Involucrados`.
   */
  datatype Zone = Zone(name: string, minutes: real, records: int, start: int, end: int, count: nat, vehicles: seq<string>)

  /** The name of a zone made of `n` candidates: `AGRUPADA (n zonas)`. */
  function GroupName(n: nat): string
  {
    "AGRUPADA (" + NatToString(n) + " zonas)"
  }

  function CandidateMinutes(c: Candidate): real { c.minutes }

  function CandidateRecords(c: Candidate): int { c.records }

  /** The vehicle of each candidate, in order (`tolist()`). */
  function VehiclesOf(cs: seq<Candidate>): (r: seq<string>)
    ensures |r| == |cs|
    ensures forall k :: 0 <= k < |cs| ==> r[k] == cs[k].vehicle
  {
    if |cs| == 0 then [] else [cs[0].vehicle] + VehiclesOf(cs[1..])
  }

  /** The earliest start of a cluster. */
  function EarliestStart(cs: seq<Candidate>): (r: int)
    requires |cs| > 0
    ensures forall k :: 0 <= k < |cs| ==> r <= cs[k].start
    ensures exists k :: 0 <= k < |cs| && r == cs[k].start
  {
    if |cs| == 1 then cs[0].start
    else
      var r := EarliestStart(cs[1..]);
      assert forall k :: 1 <= k < |cs| ==> cs[1..][k - 1] == cs[k];
      if cs[0].start < r then cs[0].start else r
  }

  /** The latest end of a cluster. */
  function LatestEnd(cs: seq<Candidate>): (r: int)
    requires |cs| > 0
    ensures forall k :: 0 <= k < |cs| ==> cs[k].end <= r
    ensures exists k :: 0 <= k < |cs| && r == cs[k].end
  {
    if |cs| == 1 then cs[0].end
    else
      var r := LatestEnd(cs[1..]);
      assert forall k :: 1 <= k < |cs| ==> cs[1..][k - 1] == cs[k];
      if cs[0].end > r then cs[0].end else r
  }

  /**
   * The zone of one cluster. Whether the cluster holds one candidate or
   * several, the zone's minutes and pings are the cluster's totals, it spans
   * from the earliest start to the latest end, it counts the candidates and
   * lists their vehicles; only the name differs.
   */
  function ZoneOf(cs: seq<Candidate>): (z: Zone)
    requires |cs| > 0
    ensures z.minutes == SumBy(cs, CandidateMinutes)
    ensures z.records == SumIntBy(cs, CandidateRecords)
    ensures forall k :: 0 <= k < |cs| ==> z.start <= cs[k].start && cs[k].end <= z.end
    ensures (exists k :: 0 <= k < |cs| && z.start == cs[k].start) && (exists k :: 0 <= k < |cs| && z.end == cs[k].end)
    ensures z.count == |cs| && z.vehicles == VehiclesOf(cs)
    ensures z.name == if |cs| == 1 then cs[0].vehicle else GroupName(|cs|)
  {
    if |cs| == 1 then
      assert cs[1..] == [];
      Zone(cs[0].vehicle, cs[0].minutes, cs[0].records, cs[0].start, cs[0].end, 1, [cs[0].vehicle])
    else
      Zone(GroupName(|cs|), SumBy(cs, CandidateMinutes), SumIntBy(cs, CandidateRecords),
           EarliestStart(cs), LatestEnd(cs), |cs|, VehiclesOf(cs))
  }

  /** The zones in cluster order, before sorting. */
  function ZonesOf(clusters: seq<seq<Candidate>>): (r: seq<Zone>)
    requires forall k :: 0 <= k < |clusters| ==> |clusters[k]| > 0
    ensures |r| == |clusters|
    ensures forall k :: 0 <= k < |clusters| ==> r[k] == ZoneOf(clusters[k])
  {
    seq(|clusters|, k requires 0 <= k < |clusters| => ZoneOf(clusters[k]))
  }

  /** Longest first: `sort_values("Duracion_Minutos", ascending=False)`. */
  predicate LongerFirst(a: Zone, b: Zone)
  {
    a.minutes >= b.minutes
  }

  lemma LongerFirstIsPreorder()
    ensures TotalPreorder(LongerFirst)
  {
  }

  /** The grouped zones, longest first. */
  function GroupZones(clusters: seq<seq<Candidate>>): seq<Zone>
    requires forall k :: 0 <= k < |clusters| ==> |clusters[k]| > 0
  {
    LongerFirstIsPreorder();
    SortBy(ZonesOf(clusters), LongerFirst)
  }

  /** The candidates of all clusters, in order. */
  function Members(clusters: seq<seq<Candidate>>): seq<Candidate>
  {
    if |clusters| == 0 then [] else clusters[0] + Members(clusters[1..])
  }

  function ZoneMinutes(z: Zone): real { z.minutes }

  function ZoneRecords(z: Zone): int { z.records }

  function ZoneCount(z: Zone): int { z.count }

  /**
   * The result is longest first, and it holds exactly the zones of the
   * clusters, each as often as its cluster.
   */
  lemma GroupZonesSpec(clusters: seq<seq<Candidate>>)
    requires forall k :: 0 <= k < |clusters| ==> |clusters[k]| > 0
    ensures SortedBy(GroupZones(clusters), LongerFirst)
    ensures |GroupZones(clusters)| == |clusters|
    ensures multiset(GroupZones(clusters)) == multiset(ZonesOf(clusters))
    ensures forall z :: z in GroupZones(clusters) <==> exists k :: 0 <= k < |clusters| && z == ZoneOf(clusters[k])
  {
    LongerFirstIsPreorder();
    SortByMembers(ZonesOf(clusters), LongerFirst);
    ZonesOfMembers(clusters);
  }

  lemma ZonesOfMembers(clusters: seq<seq<Candidate>>)
    requires forall k :: 0 <= k < |clusters| ==> |clusters[k]| > 0
    ensures forall z :: z in ZonesOf(clusters) <==> exists k :: 0 <= k < |clusters| && z == ZoneOf(clusters[k])
  {
    var zs := ZonesOf(clusters);
    forall z | z in zs ensures exists k :: 0 <= k < |clusters| && z == ZoneOf(clusters[k]) {
      var k :| 0 <= k < |zs| && zs[k] == z;
      assert z == ZoneOf(clusters[k]);
    }
  }

  lemma {:induction false} SumByAppend<T>(a: seq<T>, b: seq<T>, f: T -> real, g: T -> int)
    ensures SumBy(a + b, f) == SumBy(a, f) + SumBy(b, f)
    ensures SumIntBy(a + b, g) == SumIntBy(a, g) + SumIntBy(b, g)
  {
    if |a| > 0 {
      SumByAppend(a[1..], b, f, g);
      assert (a + b)[1..] == a[1..] + b;
    } else {
      assert a + b == b;
    }
  }

  /** Before sorting, the zones carry the minutes, pings and candidates of all members. */
  lemma {:induction false} ZonesOfTotals(clusters: seq<seq<Candidate>>)
    requires forall k :: 0 <= k < |clusters| ==> |clusters[k]| > 0
    ensures SumBy(ZonesOf(clusters), ZoneMinutes) == SumBy(Members(clusters), CandidateMinutes)
    ensures SumIntBy(ZonesOf(clusters), ZoneRecords) == SumIntBy(Members(clusters), CandidateRecords)
    ensures SumIntBy(ZonesOf(clusters), ZoneCount) == |Members(clusters)|
  {
    if |clusters| > 0 {
      ZonesOfTotals(clusters[1..]);
      var zs := ZonesOf(clusters);
      assert zs[1..] == ZonesOf(clusters[1..]);
      SumByAppend(clusters[0], Members(clusters[1..]), CandidateMinutes, CandidateRecords);
    }
  }

  /**
   * Grouping loses nothing: the zones' minutes, pings and candidate counts
   * add up to those of all the candidates.
   */
  lemma GroupZonesConserves(clusters: seq<seq<Candidate>>)
    requires forall k :: 0 <= k < |clusters| ==> |clusters[k]| > 0
    ensures SumBy(GroupZones(clusters), ZoneMinutes) == SumBy(Members(clusters), CandidateMinutes)
    ensures SumIntBy(GroupZones(clusters), ZoneRecords) == SumIntBy(Members(clusters), CandidateRecords)
    ensures SumIntBy(GroupZones(clusters), ZoneCount) == |Members(clusters)|
  {
    LongerFirstIsPreorder();
    ZonesOfTotals(clusters);
    SortByKeepsSums(ZonesOf(clusters), LongerFirst, ZoneMinutes, ZoneRecords);
    SortByKeepsSums(ZonesOf(clusters), LongerFirst, ZoneMinutes, ZoneCount);
  }
}
